=== FILE: README.md ===
# email_gpt in Dafny

This project models the core of email_gpt, a mail client. A Python back end fetches mail over IMAP
and has each new email analysed by a language model. It stores the analysis markdown, together
with a map parsed from it, in SQLite, and serves the stored emails and its settings over HTTP. A
React front end filters, groups, orders and highlights those emails. It also drives a sync whose
progress arrives as a server-sent event stream.

The modules follow the source files. A large file is split over two modules, and the field
resolution that three front-end files repeat has a module of its own. Each module is modelled
with pure functions over immutable datatypes:

- `Js`: the front end's JSON values, truthiness and optional chaining.
- `Fields`: resolving the analysis fields, whose labels come in simplified and traditional
  spellings (`App.js`, `Sidebar.js`, `EmailDetail.js`).
- `Mailbox`: the application shell (`App.js`).
- `SyncSession`: the client's handling of the sync stream (`App.js`).
- `Sorting` and `Sidebar`: the sidebar's sort and its other logic (`Sidebar.js`).
- `Query`: the search bar (`SearchBar.js`).
- `Highlight`: search-term highlighting (`highlightText.js`, `EmailDetail.js`).
- `Detail`: the detail view (`EmailDetail.js`).
- `SyncStream`: the sync endpoint's event stream (`api_server.py`).
- `Api`: the other HTTP endpoints (`api_server.py`).
- `Store`: the data manager's address parsing, status and urgency updates
  (`email_data_manager.py`).
- `Parser`: the data manager's markdown cleanup and parsing (`email_data_manager.py`).
- `Organize`: the reorganisation pass (`organize_database.py`).
- `Processor`: the email processor (`email_processor.py`).
- `Analyzer`: the analysis request and its post-processing (`email_analyzer.py`).
- `Updater`: the mail update run (`update_emails.py`).
- `Fetcher`: the IMAP fetcher (`email_fetcher.py`).
- `Text`, `Seqs` and `Wrappers`: shared helpers.

Anything the code does not compute itself is a parameter of the model. This covers the markdown
renderer, the HTML parser, the date parser, `localeCompare`, `json.loads`, the IMAP server's
answers, the mailbox-name decoder and the language model's replies.

## Model

| member | source | states |
|---|---|---|
| Js.Or | frontend/src/App.js:171 | `a \|\| b` is one of its operands, and it is truthy exactly when either operand is. |
| Js.OrElse | frontend/src/components/EmailDetail.js:106 | With a defined fallback, the result is the left operand when that is truthy, else the fallback. |
| Js.Member | frontend/src/App.js:171 | `v?.[key]` is defined exactly when `v` is an object holding `key`, and then it is that field. |
| Js.First | frontend/src/App.js:172 | `v?.[0]` of an array is defined exactly when the array is non-empty, and then it is the first element. On undefined, null, booleans and numbers it is undefined. |
| Fields.Variant | frontend/src/App.js:171 | One fallback level uses the simplified label when its value is truthy, and otherwise the traditional label's value, whatever it is. |
| Fields.Classify | frontend/src/components/Sidebar.js:27-36 | The switch is strict equality: each of 高, 中 and 低 is chosen exactly when the value is that string. |
| Fields.DisplayedUrgency | frontend/src/components/EmailDetail.js:105-106 | The detail view shows the resolved urgency when it is truthy, else 未评估. A rated email shows its label. |
| Fields.Summary | frontend/src/components/Sidebar.js:104-105 | The summary is the first truthy subject field of the summary block, else the email's own subject. |
| Fields.UrgencyVariantsAgree | frontend/src/App.js:171-172 | When a payload uses one spelling for the urgency block and one for the field, and neither other spelling, the urgency classifies as the stored value does. A truthy value is the resolved value itself. |
| Fields.SummaryVariantsAgree | frontend/src/components/Sidebar.js:64-67 | When a payload uses one spelling for the summary block and one for the subject field, and neither other spelling, the summary is the stored value when it is truthy and the email's subject otherwise. |
| Fields.MissingBlockIsAbsent | frontend/src/App.js:171-172 | A payload with neither urgency block, or one that is not an object, is unrated. |
| Fields.EmptySimplifiedBlockHides | frontend/src/App.js:171-172 | An empty simplified block is truthy, so it hides a populated traditional block and the email is unrated. |
| Fields.FirstTruthyPath | frontend/src/App.js:171-172 | The reference search yields a truthy value from one of the four block and field paths, or none when every path is falsy. |
| Fields.CommittedBlockAgreesWithSearch | frontend/src/App.js:171-172 | Committing to the first truthy block agrees with the search over all four paths, unless the simplified block is truthy and lacks the field. |
| Fields.CommittedBlockCanMissField | frontend/src/App.js:171-172 | This counterexample is that exception: a traditional field's value is never seen behind a simplified block that lacks the field. |
| Mailbox.IndexOf | frontend/src/App.js:58 | `indexOf` gives the first position holding the value, or -1 exactly when the value is absent. |
| Mailbox.CycleUnknownRestarts | frontend/src/App.js:58 | A filter value outside the cycle moves to the cycle's first state. |
| Mailbox.CycleStep | frontend/src/App.js:56-69 | One press moves a filter to the next state, wrapping after the last. |
| Mailbox.PressAdvances | frontend/src/App.js:56-69 | `k` presses from the `i`-th state reach state `(i + k) mod n`. |
| Mailbox.PressWraps | frontend/src/App.js:56-69 | `k` presses, at most one full turn, from the `i`-th state reach state `i + k`, or `i + k - n` once past the end. |
| Mailbox.CyclePeriod | frontend/src/App.js:56-69 | `n` presses return to the starting state, and no smaller positive number of presses does. |
| Mailbox.FilterCycles | frontend/src/App.js:56-69 | The three buttons step all→高→中→低→all, all→unread→read→all and all→starred→all. |
| Mailbox.FilterCounts | frontend/src/App.js:169-178 | The filtered list holds each email exactly as often as the input does when it passes all three filters, and never otherwise. |
| Mailbox.Filter | frontend/src/App.js:169-178 | Every email shown is from the list and passes all three filters. With every filter at "all", the list is shown whole and in order. |
| Mailbox.FilterAppend | frontend/src/App.js:169-178 | Filtering distributes over concatenation, so the result keeps the input order. |
| Mailbox.FilterConjunction | frontend/src/App.js:173-176 | The combined filter equals the urgency, read and star filters applied one after another. |
| Mailbox.GroupIsBucketFilter | frontend/src/App.js:180-198 | A date bucket exists exactly when some email's date falls in it. It then holds exactly those emails, in order. |
| Mailbox.Group | frontend/src/App.js:180-198 | No bucket is empty, and every email in a bucket is from the list and has a date that parses to that bucket's day. |
| Mailbox.BucketMembership | frontend/src/App.js:184-192 | An email is in a bucket exactly when its date parses to that bucket's year, month and day. |
| Mailbox.InBucketContents | frontend/src/App.js:180-198 | Every email in a bucket comes from the list and has that bucket's date. |
| Mailbox.UnparseableInNoBucket | frontend/src/App.js:184-185 | An email whose date does not parse is in no bucket. |
| Mailbox.ReplaceById | frontend/src/App.js:81 | Entries with the updated id become the returned email, and all other entries are kept. |
| Mailbox.ApplyUpdate | frontend/src/App.js:81-86 | An update replaces the email in the list and in the search results, and replaces the selection only when the selection has that id. |
| Mailbox.ApplyUpdateUnknownId | frontend/src/App.js:103-108 | An update for an id that nothing holds changes nothing. |
| Mailbox.OnUpdateReply | frontend/src/App.js:78-90 | A 2xx reply applies the returned email. Any other status records the HTTP error message, and a network failure records its own message. The lists and selection change only on success, and the loading flag is kept. |
| Mailbox.PageOf | frontend/src/App.js:200-201 | The page is the loading note exactly while loading. It is the failure note, with the message, exactly when not loading and the message is non-empty. Otherwise it is the mailbox. |
| Mailbox.FailedUpdateShowsError | frontend/src/App.js:200-201 | After a rejected update the page is the failure note with the HTTP error or the network message, and the lists and selection are as before. |
| Mailbox.SuccessfulUpdateShown | frontend/src/App.js:200-201 | After a 2xx update with no pending error the page is the mailbox with the returned email in place. |
| Mailbox.SelectEmail | frontend/src/App.js:115-120 | Selecting an email selects it. One mark-read request for its id is sent exactly when it is unread. |
| Sorting.Sort | frontend/src/components/Sidebar.js:57 | The sort is a permutation of its input, and it is ordered under a total-preorder comparator. |
| Sorting.SortSortedIsIdentity | frontend/src/components/Sidebar.js:57 | A list that is already ordered under a total preorder is returned unchanged. |
| Sorting.SortStable | frontend/src/components/Sidebar.js:57 | The sort is stable, as `Array.prototype.sort` is: the elements tied with any given element come out in the order they had in the input. |
| Sorting.SortIdempotent | frontend/src/components/Sidebar.js:57 | Sorting twice gives the same list as sorting once. |
| Sidebar.UrgencyRank | frontend/src/components/Sidebar.js:39-48 | The rank is 1, 2 or 3 exactly for 高, 中 or 低, and 4 otherwise. |
| Sidebar.TitleType | frontend/src/components/Sidebar.js:50-55 | By the first character, the type is 1 for a digit, 2 for an ASCII letter, 3 for an ideograph in U+4E00 to U+9FA5, and 4 otherwise. |
| Sidebar.Comparator | frontend/src/components/Sidebar.js:57-76 | The comparator over rank, then title type, then locale order is a total preorder whenever the locale order is one. |
| Sidebar.LeTotalPreorder | frontend/src/components/Sidebar.js:57-76 | When the locale order is a total preorder, the composite order is total and transitive. |
| Sidebar.SortDay | frontend/src/components/Sidebar.js:57-76 | A day's list is a permutation of that day's emails, and each email is not above the next one. |
| Sidebar.HighFirst | frontend/src/components/Sidebar.js:58-62 | Within a day, every 高 email comes before every email that is not 高. |
| Sidebar.SortDayIdempotent | frontend/src/components/Sidebar.js:57-76 | Re-sorting a sorted day changes nothing. |
| Sidebar.Descending | frontend/src/components/Sidebar.js:138 | Year, month and day keys are listed as a permutation of the keys, largest first. |
| Sidebar.DescendingStrict | frontend/src/components/Sidebar.js:138 | Distinct keys are listed strictly largest first. |
| Sidebar.InitialExpanded | frontend/src/components/Sidebar.js:5-11 | The sidebar starts with exactly the years of the tree set, and each of them is open. |
| Sidebar.ToggleExpand | frontend/src/components/Sidebar.js:13-15 | A toggle flips one heading, and an unset heading counts as closed. Every other entry is kept. |
| Sidebar.ToggleTwice | frontend/src/components/Sidebar.js:13-15 | Toggling a heading twice restores whether it is open. |
| Sidebar.ToggleAllChildren | frontend/src/components/Sidebar.js:17-25 | If any listed child is open, all of them close; otherwise all of them open. Headings that are not listed are untouched. |
| Sidebar.ToggleAllUniform | frontend/src/components/Sidebar.js:17-25 | After a toggle-all, every listed child is in the same state. |
| Query.TailAfterFirst | frontend/src/components/SearchBar.js:42-43 | Joining the split pieces after the first one gives exactly the text after the first separator. |
| Query.HighlightTerm | frontend/src/components/SearchBar.js:40-44 | The highlight term is the whole query when it has no colon, else everything after the first colon. |
| Query.HighlightKeepsLaterColons | frontend/src/components/SearchBar.js:42-43 | For `field:term` with no colon in the field, the term is returned whole, even when it contains colons. |
| Query.InputPrefix | frontend/src/components/SearchBar.js:21 | The typed field is the lower-cased text before the first colon, or all of the text. |
| Query.KeepMatching | frontend/src/components/SearchBar.js:22 | A prefix is offered exactly when its lower-case form starts with the typed field. |
| Query.KeepMatchingAppend | frontend/src/components/SearchBar.js:22 | Filtering the prefixes distributes over concatenation, so the offered prefixes keep the declared order. |
| Query.KeepMatchingAll | frontend/src/components/SearchBar.js:22 | When every prefix matches the typed field, the whole list is offered. |
| Query.Suggestions | frontend/src/components/SearchBar.js:20-26 | Input that does not start with a slash gets no suggestions. Otherwise exactly the matching declared prefixes are offered. |
| Query.SlashOffersAll | frontend/src/components/SearchBar.js:20-23 | A lone slash offers every declared prefix. |
| Query.OnInput | frontend/src/components/SearchBar.js:16-27 | Typing stores the input. Any suggestion shown is a declared prefix, and only for input starting with a slash. |
| Query.OnSuggestionClick | frontend/src/components/SearchBar.js:29-33 | Choosing a suggestion sets the query to the prefix and closes the list. |
| Query.PrefixAloneHighlightsNothing | frontend/src/components/SearchBar.js:29-44 | A query that is only a chosen prefix highlights nothing. |
| Query.ShowDropdown | frontend/src/components/SearchBar.js:62-81 | The dropdown is hidden unless the bar is focused and non-empty. Then, in order of precedence, it shows the searching note, the suggestions, the results, or the no-match note. |
| Query.SenderLine | frontend/src/components/SearchBar.js:76 | A result shows the sender's name, or its address when the name is empty. The line is empty exactly when both are. |
| Highlight.EscapeRegex | frontend/src/utils/highlightText.js:7 | Escaping never shortens the term and leaves a term without special characters unchanged. |
| Highlight.EscapeRoundTrip | frontend/src/utils/highlightText.js:7-8 | The escaped pattern reads back as exactly the term's characters. |
| Highlight.SplitMatchesPieces | frontend/src/utils/highlightText.js:8-9 | The pieces rebuild the text and alternate plain and marked. Every marked piece is the term in some letter case, no plain piece contains it, and each mark is the leftmost occurrence after the previous one. |
| Highlight.HighlightText | frontend/src/utils/highlightText.js:3-12 | An empty term or text gives the text unchanged. Otherwise the pieces rebuild the text, every marked piece is the term in some letter case, no plain piece contains it, and each mark is the leftmost occurrence after the previous one. |
| Highlight.PrefixPairLeftmost | frontend/src/utils/highlightText.js:8-9 | A plain piece followed by the first occurrence of the term keeps every later mark leftmost. |
| Highlight.FirstOccurrenceLeftmost | frontend/src/utils/highlightText.js:8-9 | The first occurrence found in the lower-cased text is the leftmost one in the text up to the end of that occurrence. |
| Highlight.MarkAllNoMatch | frontend/src/components/EmailDetail.js:81-83 | Markup that does not contain the term, in any letter case, is left unchanged. |
| Highlight.MarkedPiecesAreReplace | frontend/src/components/EmailDetail.js:81-83 | For lower-case text, rendering the marked pieces equals replacing each occurrence with its `<mark>` form. |
| Highlight.RenderSelfSplit | frontend/src/components/EmailDetail.js:81-83 | Cutting a text at the occurrences found in itself and rendering the pieces replaces every occurrence with its `<mark>` form. |
| Highlight.MarkAllIsReplace | frontend/src/components/EmailDetail.js:81-83 | The analysis pane's marking equals plain replacement of every occurrence when no letter case differs. |
| Highlight.MarkAll | frontend/src/components/EmailDetail.js:81-83 | For a non-empty term, the analysis pane's marking is the rendering of the highlighted pieces, so it marks the same occurrences as the search results. |
| Detail.NextUrgency | frontend/src/components/EmailDetail.js:108-112 | The urgency button steps 低→中→高→低. Any other displayed value, 未评估 included, moves to 低. |
| Detail.UrgencyRequest | frontend/src/components/EmailDetail.js:105-114 | The request carries the email's id, and the level is the one after the resolved urgency. |
| Detail.UrgencyCycleReturns | frontend/src/components/EmailDetail.js:109-112 | Three presses bring a rated level back to itself. |
| Detail.StarToggle | frontend/src/components/EmailDetail.js:97-99 | The star button sends the negated star flag for the email's id, and no read flag. |
| Detail.ReadToggle | frontend/src/components/EmailDetail.js:101-103 | The read button sends the negated read flag for the email's id, and no star flag. |
| Detail.ApplyStatus | backend/data_storage/email_data_manager.py:234-239 | A status update sets the flags it carries and changes nothing else about the email. |
| Detail.StarToggleTwice | frontend/src/components/EmailDetail.js:97-99 | Pressing the star button twice restores the email. |
| Detail.ReadToggleTwice | frontend/src/components/EmailDetail.js:101-103 | Pressing the read button twice restores the email. |
| Detail.BodyHtml | frontend/src/components/EmailDetail.js:23-26 | The body pane shows the stored HTML whatever the search term: the term has no effect on it. |
| Detail.AnalysisHtml | frontend/src/components/EmailDetail.js:77-86 | Without a term the pane is the rendered markdown, and a term that does not occur leaves it unchanged. Otherwise the pane is the rendered markdown with each occurrence marked. |
| SyncStream.Relay | backend/api_server.py:147-149 | Each output line of a script is relayed, in order, stripped of surrounding whitespace. |
| SyncStream.RaisedLine | backend/api_server.py:164-171 | Both exception handlers emit a line that starts with `ERROR:`. |
| SyncStream.ErrorLineIsTerminal | frontend/src/App.js:149-151 | A line starting with `ERROR:` ends the stream on the client and is not the completion sentinel. |
| SyncStream.RunScripts | backend/api_server.py:132-162 | The events end with a terminal line. That line is the sentinel exactly when every script exits with 0. |
| SyncStream.Generate | backend/api_server.py:120-171 | Without the interpreter, the stream is the single environment error. Otherwise it ends with the sentinel exactly when both scripts succeed. |
| SyncStream.AllSucceed | backend/api_server.py:132-162 | With both scripts succeeding, the stream is each script's start marker, stripped output and done marker, then the sentinel. |
| SyncStream.UpdateFailureStops | backend/api_server.py:152-158 | A failing update script ends the stream with its failure line, and the organiser never starts. |
| SyncStream.OrganizeFailureStops | backend/api_server.py:152-158 | A failing organiser ends the stream with its failure line, after the update script's full transcript. |
| SyncStream.DecodeEncode | backend/api_server.py:149 | Reading back the `data: ...` frames gives the events, as long as each event is one line. |
| SyncSession.Start | frontend/src/App.js:144-146 | Starting a sync clears and shows the log and opens the stream. Reloads and the selection are untouched. |
| SyncSession.OnMessage | frontend/src/App.js:147-161 | A closed stream ignores lines. An open stream appends one entry per line. An `ERROR:` line closes the stream, and the sentinel closes it with a reload. |
| SyncSession.OnTransportError | frontend/src/App.js:162-166 | A transport error appends the connection-lost marker and closes the stream. It changes nothing once the stream is closed. |
| SyncSession.FeedGrowsLog | frontend/src/App.js:147-161 | The log only grows, and however many lines arrive there is at most one reload. |
| SyncSession.FeedUntilTerminal | frontend/src/App.js:147-161 | When only the last line is terminal, every line is logged, with the sentinel replaced by the success marker. The session ends completed with one reload, or errored with none. |
| SyncSession.QuietScripts | backend/api_server.py:132-162 | When no script prints a terminal-looking line, only the stream's last event is terminal. |
| SyncSession.SyncEndToEnd | frontend/src/App.js:143-167 | A whole sync of quiet scripts logs every event and completes, with exactly one reload, exactly when both scripts succeed. |
| SyncSession.ProgressThenComplete | frontend/src/App.js:152-157 | Progress lines followed by the sentinel leave three entries, the last being the success marker. |
| SyncSession.LoneError | frontend/src/App.js:149-151 | A lone error line gives one entry and an errored session, with no reload. |
| Store.ParseFromAddress | backend/data_storage/email_data_manager.py:59-73 | A missing or empty header gives two empty parts, and a header without brackets is all address. When the greedy match finds brackets (the line's last `>` and the last `<` at least two places before it), the name is the text before `<`, stripped and then unquoted, and the address is the stripped text between the brackets. |
| Store.FromAddressRoundTrip | backend/data_storage/email_data_manager.py:66-70 | `Name <addr>` and `"Name" <addr>` read back as the name and the address. |
| Store.BareAddress | backend/data_storage/email_data_manager.py:72-73 | A header without `<` is taken whole as the address, with no name. |
| Store.StatusStatement | backend/data_storage/email_data_manager.py:231-246 | No statement is issued exactly when neither flag is given. Otherwise there is one parameter per assignment, and the id comes last. |
| Store.StatusStatementEffect | backend/data_storage/email_data_manager.py:234-248 | Executing the statement sets exactly the given flags, to 1 or 0, on the row with that id, and keeps the other flag. |
| Parser.NormaliseHeaders | backend/data_storage/email_data_manager.py:99-102 | A text that already has the canonical header, or has none of the variant headers, is unchanged. |
| Parser.Cleanup | backend/data_storage/email_data_manager.py:99-105 | Text that does not open with a rule after trimming comes back as the header-normalised text. When a rule is dropped, the trimmed normalised text is the rule, then whitespace only, then the result. The result is trimmed. |
| Parser.DropRule | backend/data_storage/email_data_manager.py:104-105 | A text whose trimmed form opens with `---` becomes what follows the rule and its whitespace, trimmed. Any other text is kept. |
| Parser.AfterRule | backend/data_storage/email_data_manager.py:104-105 | What follows a rule at the head of a trimmed text strips to a suffix of that text, with only whitespace between the rule and the suffix. |
| Parser.CleanupKeepsCanonical | backend/data_storage/email_data_manager.py:99-105 | Text with the canonical header and no leading rule is already clean. |
| Parser.CleanupDropsRule | backend/data_storage/email_data_manager.py:99-105 | Any text the header rewrites leave alone, made of whitespace, a rule, whitespace, a trimmed core and whitespace, cleans to the core. An empty core gives the empty text. |
| Parser.CleanupDropsRuleCanonical | backend/data_storage/email_data_manager.py:99-105 | A text holding the canonical header is left alone by the rewrites, so its whitespace-padded leading rule is dropped and the core kept. |
| Parser.Partition | backend/data_storage/email_data_manager.py:131 | `partition(':')` splits at the first colon and rebuilds the text. Without a colon, the result is the text and an empty rest. |
| Parser.EntryTexts | backend/data_storage/email_data_manager.py:124 | Every entry kept is a non-blank, trimmed piece, stripped. Every piece that is not blank once stripped is kept. |
| Parser.EntryTextsOne | backend/data_storage/email_data_manager.py:124 | One piece gives its stripped text, or nothing when that is blank. |
| Parser.EntryTextsAppend | backend/data_storage/email_data_manager.py:124 | The entries of two runs of pieces are the entries of the first run followed by those of the second, so the pieces keep their order. |
| Parser.NonBlankAppend | backend/data_storage/email_data_manager.py:124 | Dropping blank texts commutes with joining lists. |
| Parser.SubLinesKeys | backend/data_storage/email_data_manager.py:135-139 | After the later lines, a key is present exactly when it was before or some line with a colon defines it. |
| Parser.SubLinesLastWins | backend/data_storage/email_data_manager.py:135-139 | The last line defining a key gives its value. |
| Parser.SubLinesUntouched | backend/data_storage/email_data_manager.py:135-139 | A key that no line defines keeps its value. |
| Parser.SubLinesAppend | backend/data_storage/email_data_manager.py:135-139 | Applying the lines in two batches is applying them all, in order. |
| Parser.ParseEntry | backend/data_storage/email_data_manager.py:126-140 | The first line's stripped key is always a key of the entry. |
| Parser.ParseEntryLater | backend/data_storage/email_data_manager.py:126-140 | An entry is its first line's key and value, updated by the later lines in order. |
| Parser.ParseEntryFirstKey | backend/data_storage/email_data_manager.py:130-132 | When no later line defines the first key, it keeps the first line's stripped value. |
| Parser.ParseEntryKeySetAgain | backend/data_storage/email_data_manager.py:135-139 | When later lines define the first key again, the last of them gives its value. |
| Parser.LoneLineEntry | backend/data_storage/email_data_manager.py:130-132 | A one-line entry without a colon maps its stripped text to the empty string. |
| Parser.SectionKey | backend/data_storage/email_data_manager.py:115-119 | The section key is the stripped title, lower-cased character by character, with each space turned into an underscore. So it has the stripped title's length and contains no space. |
| Parser.Sections | backend/data_storage/email_data_manager.py:113-142 | The parsed map's keys are exactly the sections' keys. |
| Parser.LastSectionWins | backend/data_storage/email_data_manager.py:142 | A key holds the entries of the last section with that key. |
| Parser.ParseMarkdown | backend/data_storage/email_data_manager.py:90-144 | Empty markdown gives the empty map. Otherwise the keys are exactly those of the sections of the cleaned text. |
| Store.UrgencyPath | backend/data_storage/email_data_manager.py:273-281 | The field found lies in the first block whose element 0 holds an urgency field, trying the simplified label and then the traditional one. In that block it is the simplified field when present, else the traditional one. Nothing is found exactly when neither block qualifies. |
| Store.StoredUrgency | backend/data_storage/email_data_manager.py:273-281 | The urgency read back is absent exactly when neither block qualifies. A qualifying simplified block gives its simplified field, or else its traditional one. Only without it does a qualifying traditional block give its value. |
| Store.UpdateUrgencyJson | backend/data_storage/email_data_manager.py:266-292 | After the update the urgency the back end finds is the new one. Only the written block may change, and at most the simplified block is added. |
| Store.UpdateUrgencyJsonFrame | backend/data_storage/email_data_manager.py:273-281 | Overwriting a found field keeps the block's other fields and its later elements. |
| Store.UrgencyShownAfterUpdate | backend/data_storage/email_data_manager.py:273-292 | After an update the front end shows the new level, unless the case of `UrgencyHiddenAfterUpdate` applies. |
| Store.UrgencyHiddenAfterUpdate | backend/data_storage/email_data_manager.py:273-281 | When the update goes to the traditional block while an unusable simplified block exists, the front end still shows the unrated label. |
| Store.MatchAt | backend/data_storage/email_data_manager.py:299 | The urgency pattern matches at a dash exactly when a label follows after whitespace. The captured prefix runs over the following whitespace, and the value runs to the end of the line. |
| Store.NextMatch | backend/data_storage/email_data_manager.py:301 | The leftmost match at or after a position, with no match before it. |
| Store.Substitute | backend/data_storage/email_data_manager.py:302 | Text without a match is unchanged. |
| Store.SubstituteHead | backend/data_storage/email_data_manager.py:299-302 | Text that is empty or starts a new line still does after the rewrite. |
| Store.UrgencyValues | backend/data_storage/email_data_manager.py:299 | The list of urgency-line values is empty exactly when the pattern matches nowhere. |
| Store.EveryLineRewritten | backend/data_storage/email_data_manager.py:299-302 | After the rewrite there are as many urgency lines as before, and every one of them has the new value. Blanking the values of both texts gives the same text, so nothing outside the values changes. |
| Store.ReplacedRead | backend/data_storage/email_data_manager.py:299-302 | When the markdown has an urgency line, the rewritten markdown's first urgency line reads the new value. |
| Store.UpdateUrgencyMarkdown | backend/data_storage/email_data_manager.py:297-306 | Markdown without an urgency line gets the stripped text with the urgency section appended. |
| Store.MarkdownUrgencyRoundTrip | backend/data_storage/email_data_manager.py:297-306 | After an urgency change the markdown's first urgency line reads the new value, whether lines were rewritten or the section was appended. |
| Store.UpdateEmailUrgency | backend/data_storage/email_data_manager.py:254-319 | A missing email, a NULL or undecodable JSON column, and a NULL markdown column each give `None`, and exactly these do. Otherwise the back end finds the new level in the rewritten map. |
| Store.UrgencyUpdateReadsBack | backend/data_storage/email_data_manager.py:254-319 | When both columns are present and the JSON decodes, a change to a one-line level that does not start with whitespace succeeds, and both the markdown's first urgency line and the map's urgency field read the new level. |
| Organize.Processed | backend/organize_database.py:35-38 | The processed emails are at most the stored ones, in order. |
| Organize.OrganizeEntries | backend/organize_database.py:27-54 | One write per email with markdown, in stored order, and none for an empty table. Each write carries the email's id, its cleaned markdown, and the map parsed from the cleaned text. |
| Organize.UpdateFor | backend/organize_database.py:40-54 | A write keeps the email's id. Its map is the parse of the markdown it stores. A settled stored markdown is already clean, so a second cleanup keeps it. |
| Organize.ProcessedFromRows | backend/organize_database.py:35 | Every write targets a stored email that has markdown, and uses that markdown. |
| Organize.SkippedNotWritten | backend/organize_database.py:36-38 | An email with NULL or empty markdown is never written. |
| Organize.SecondPassSame | backend/organize_database.py:40-54 | A second pass over the written rows writes the same thing when every cleaned text is settled. |
| Organize.AllProcessed | backend/organize_database.py:35-38 | Rows that all have markdown are all processed, in order. |
| Processor.KeptImages | backend/email_server/email_processor.py:35-46 | Every kept link's URL path parses and does not end in `.gif`, in any letter case. |
| Processor.KeptImagesAppend | backend/email_server/email_processor.py:35-43 | The kept links keep document order. |
| Processor.KeptImagesMembers | backend/email_server/email_processor.py:35-43 | A link is kept exactly when some `img` carries it and its path parses and is not a GIF. |
| Processor.FirstRaise | backend/email_server/email_processor.py:38-39 | The first `img` whose link fails to parse: none exactly when every link parses, and otherwise a raising link with none before it. |
| Processor.ProcessEmail | backend/email_server/email_processor.py:15-61 | Empty HTML gives no text and no images. When every link parses, the result is the parser's text and exactly the kept links. When a link's parse raises, the text is empty and the links are exactly those kept before it. |
| Processor.RaiseDropsText | backend/email_server/email_processor.py:30-56 | A link that fails to parse loses the text and every link after it, keeping only the links kept before it. |
| Processor.Upto | backend/email_server/email_processor.py:96 | `split(c)[0]` is the longest prefix without `c`. |
| Processor.UptoOf | backend/email_server/email_processor.py:96 | The text before the first `c` is determined by the text up to it. |
| Processor.CleanUrl | backend/email_server/email_processor.py:91-101 | A URL that is not `data:image` is sent as it is. The rewrite fails exactly for a `data:image` URI without a comma. |
| Processor.Mime | backend/email_server/email_processor.py:96 | The extracted mime type has no colon, semicolon or comma. |
| Processor.CleanUrlOf | backend/email_server/email_processor.py:93-98 | A data URI is rebuilt from its mime type and the data after the first comma. |
| Processor.MimeOf | backend/email_server/email_processor.py:96 | A colon-free mime type is read back from `data:<mime>`. |
| Processor.CleanDataUri | backend/email_server/email_processor.py:93-98 | A data URI with any parameters is rebuilt with only its mime type and `;base64`. |
| Processor.CleanUrlIdempotent | backend/email_server/email_processor.py:93-98 | Rebuilding a rebuilt URI gives it back. |
| Processor.RebuiltParts | backend/email_server/email_processor.py:93-98 | A rebuilt URI is `data:<mime>;base64,<data>` whose mime type starts with `image` and holds no `:`, `;` or `,`. |
| Processor.MimeIsImage | backend/email_server/email_processor.py:96 | The mime type read from a `data:image` header is an image type without separators. |
| Processor.ImageParts | backend/email_server/email_processor.py:90-109 | The image parts succeed exactly when every link can be rewritten, and then there is one part per link, in order. |
| Processor.FormatMessages | backend/email_server/email_processor.py:63-118 | The result is one user message: the text part (metadata and text, or empty when there is no text), then one image part per link. It fails exactly when a link cannot be rewritten. |
| Processor.TextRecoverable | backend/email_server/email_processor.py:81-88 | Dropping the metadata from the text part gives back the email text. |
| Analyzer.PromptName | backend/chatgpt_handlers/email_analyzer.py:48 | A prompt key is the name with `.txt` removed, or the whole name. |
| Analyzer.PromptNameStem | backend/chatgpt_handlers/email_analyzer.py:48 | A name with anything but dots before `.txt` loses exactly the extension. |
| Analyzer.PromptNames | backend/chatgpt_handlers/email_analyzer.py:48 | `summary.txt` gives `summary`. `.txt` keeps its name, since splitext sees no extension. |
| Analyzer.LoadPrompts | backend/chatgpt_handlers/email_analyzer.py:34-56 | A missing directory gives no prompts, and every key comes from a readable `.txt` file. |
| Analyzer.LoadPromptsLast | backend/chatgpt_handlers/email_analyzer.py:46-52 | A key's prompt is the stripped content of the last readable file with that key. |
| Analyzer.OtherFilesIgnored | backend/chatgpt_handlers/email_analyzer.py:47-55 | Files that are not `.txt`, or cannot be read, add nothing. |
| Analyzer.Prompt | backend/chatgpt_handlers/email_analyzer.py:79-81 | The prompt check succeeds exactly when the name has a non-empty prompt. |
| Analyzer.TextParts | backend/chatgpt_handlers/email_analyzer.py:91 | The result holds exactly the text parts of the list, in order, and a list of text parts only is kept whole. |
| Analyzer.TextPartsAppend | backend/chatgpt_handlers/email_analyzer.py:91 | Keeping the text parts commutes with joining lists, so the parts keep their order. |
| Analyzer.StripOne | backend/chatgpt_handlers/email_analyzer.py:89-96 | A message other than a user message with parts is kept as it is. A user message with parts is dropped exactly when it has no text part, and otherwise becomes a user message holding exactly its text parts, in order. |
| Analyzer.StripImages | backend/chatgpt_handlers/email_analyzer.py:86-97 | The retry's messages carry no image part and no empty part list. |
| Analyzer.StripImagesAppend | backend/chatgpt_handlers/email_analyzer.py:86-97 | Stripping commutes with joining message lists, so the messages keep their order. |
| Analyzer.StripImagesOne | backend/chatgpt_handlers/email_analyzer.py:86-97 | A single message is stripped as `StripOne` strips it. |
| Analyzer.StripImagesFixed | backend/chatgpt_handlers/email_analyzer.py:86-97 | A message list that is already image-free is sent as it is. |
| Analyzer.StripImagesIdempotent | backend/chatgpt_handlers/email_analyzer.py:86-97 | Stripping twice is stripping once. |
| Analyzer.EmailWithoutImages | backend/chatgpt_handlers/email_analyzer.py:86-97 | The retry without images still sends the email's text part, alone. |
| Analyzer.TextThenImages | backend/chatgpt_handlers/email_analyzer.py:91 | A text part followed by image parts keeps only the text part. |
| Analyzer.ImagesDropped | backend/chatgpt_handlers/email_analyzer.py:91-94 | A list of image parts only keeps nothing. |
| Analyzer.Request | backend/chatgpt_handlers/email_analyzer.py:79-106 | When the prompt check passes, the language, date and prompt system messages come first. The caller's messages follow, stripped of images when asked. |
| Analyzer.SliceToMinus3 | backend/chatgpt_handlers/email_analyzer.py:124 | Python's `s[start:-3]` is the slice up to three characters before the end, and empty when that slice would be empty. |
| Analyzer.UnfenceAsWritten | backend/chatgpt_handlers/email_analyzer.py:123-124 | The cut as written leaves a reply without the fence unchanged. |
| Analyzer.UnfenceAsWrittenLosesFirst | backend/chatgpt_handlers/email_analyzer.py:123-124 | The cut as written drops the fenced markdown's first character. |
| Analyzer.UnfenceAsWrittenDropsFirst | backend/chatgpt_handlers/email_analyzer.py:123-124 | For every fenced markdown, the cut as written returns the markdown without its first character. |
| Analyzer.Unfence | backend/chatgpt_handlers/email_analyzer.py:123-124 | The corrected cut leaves a reply without the fence unchanged, and otherwise removes at least the fence. |
| Analyzer.UnfenceRoundTrip | backend/chatgpt_handlers/email_analyzer.py:123-124 | A fenced reply gives back exactly the markdown inside the fence. |
| Analyzer.UnfencePlain | backend/chatgpt_handlers/email_analyzer.py:123-124 | A reply without the fence is returned as it is by both cuts. |
| Analyzer.AnalyzeEmail | backend/chatgpt_handlers/email_analyzer.py:67-134 | As written: a failed prompt check is an error, an API error is passed on, and an unfenced reply is returned as it is. A fenced reply is returned without the fence and without the markdown's first character. |
| Analyzer.AnalyzeEmailCorrected | backend/chatgpt_handlers/email_analyzer.py:67-134 | With the corrected cut, the same errors and unfenced replies, and a fenced reply gives back exactly its markdown. |
| Analyzer.AnalyzeVersionsAgree | backend/chatgpt_handlers/email_analyzer.py:123-124 | The two versions fail together. Where their results differ, the corrected one is one character longer and equals the as-written one after its first character. |
| Updater.Delay | backend/update_emails.py:87-99 | The pause is 20 seconds exactly after an API error mentioning a time-out, and 10 seconds otherwise. |
| Updater.FirstSuccess | backend/update_emails.py:81-86 | The first successful attempt among the first `n`, with every earlier attempt failing. |
| Updater.RetryLadder | backend/update_emails.py:79-108 | The first success within three tries is used, without a fallback, after one pause per earlier failure. After three failures with their pauses, the call without images decides. |
| Updater.LadderOf | backend/update_emails.py:80-108 | The analysis is the first success with images, else the result of the call without images. |
| Updater.Step | backend/update_emails.py:54-113 | An email is saved exactly when it is new, its messages build, and the ladder yields an analysis. A save adds its key, and nothing else changes the store. |
| Updater.Loop | backend/update_emails.py:54-117 | At most one action per email. Only the last action can be an abort, and the loop stops before the end of the list only right after an abort. |
| Updater.UpdateFromServer | backend/update_emails.py:23-127 | Logout and close always come last, and only there. A failed connection or an empty fetch does nothing else. |
| Updater.SavesAreNew | backend/update_emails.py:58-63 | Every saved email was new to the starting store, and no email with a subject and date is saved twice in one run. |
| Updater.StoredEmailSkipped | backend/update_emails.py:60-63 | An email already stored is skipped before any analysis. |
| Updater.DuplicateSavedOnce | backend/update_emails.py:58-63 | The same email fetched twice is saved once, because the second copy finds the first. |
| Updater.AbortStops | backend/update_emails.py:71-77 | An email whose messages cannot be built ends the run, and nothing after it is processed. |
| Api.AnalysisValue | backend/api_server.py:99-106 | The analysis sent is the parsed text, or `{}` when the text is NULL, empty or not valid JSON. |
| Api.RowAsWritten | backend/api_server.py:74-80 | The row as written has exactly the nine selected columns, so it has no flags. |
| Api.FlagsLostAsWritten | backend/api_server.py:74-80 | As written, the client sees every email as unread and unstarred. |
| Api.ReadEmailShownUnread | backend/api_server.py:74-80 | This counterexample is a read, starred row that the client shows as unread. |
| Api.Row | backend/api_server.py:74-80 | The corrected row adds the two flag columns and keeps the other columns. |
| Api.RowKeepsFlags | backend/api_server.py:74-80 | With the flags selected, the client's view of each flag is the stored one. |
| Api.SelectMembers | backend/api_server.py:72-90 | A row is returned exactly when it is in the table and in the configured mailbox. A missing or empty setting means every mailbox, and a NULL mailbox matches no filter. |
| Api.Select | backend/api_server.py:72-90 | Every row returned is from the table and in the configured mailbox. A missing or empty setting returns the whole table in its order. |
| Api.GetEmails | backend/api_server.py:61-113 | As written: the reply is a server error exactly when the database path is missing, empty or absent. Otherwise there is one row per selected email, in order, carrying the nine selected columns and no flags. |
| Api.DbError | backend/api_server.py:32-43 | There is an error reply exactly when the database path is missing, empty or points at no file, and it is a server error. |
| Api.GetEmailsCorrected | backend/api_server.py:61-113 | With the flags selected: the same errors, and one row per selected email, in order, with its flags. |
| Api.GetEmailsVersions | backend/api_server.py:74-80 | Both versions give the same error, or the same number of rows with the same selected columns. The corrected rows show the stored flags, and the as-written rows show every email unread and unstarred. |
| Api.GetSettings | backend/api_server.py:176-192 | Not found exactly when there is no file. Otherwise every key but the API key, with its value. |
| Api.UpdateSettings | backend/api_server.py:207-249 | A missing or falsy body is a bad request, and a missing file is not found. A saved update keeps the file's key set, and any other reply leaves the file unchanged. |
| Api.SettingsRoundTrip | backend/api_server.py:220-226 | A saved update changes exactly the named keys that the file already had. A later read shows the new values, except for the hidden key, and never shows the unknown keys. |
| Fetcher.StripQuotes | backend/email_server/email_fetcher.py:79 | `strip('"')` leaves no quote at either end. |
| Fetcher.StripQuoted | backend/email_server/email_fetcher.py:79 | Stripping a quoted name gives back the name. |
| Fetcher.ItemName | backend/email_server/email_fetcher.py:76-79 | A name comes only from a text line that splits into exactly two parts at the delimiter. |
| Fetcher.MailboxesEntries | backend/email_server/email_fetcher.py:66-90 | The map has an entry for exactly the listed names. Each holds the decoded name, or the name itself when decoding fails. |
| Fetcher.ListMailboxes | backend/email_server/email_fetcher.py:48-98 | No connection or a failed LIST gives the empty map. Otherwise each listed name maps to its decoded form. |
| Fetcher.LineName | backend/email_server/email_fetcher.py:76-79 | A LIST line `(flags) "/" "name"` yields the name. |
| Fetcher.MultipartBody | backend/email_server/email_fetcher.py:195-217 | The walk's body is the first decoded HTML part, else the first non-empty plain part, else empty. It is always the text of a part that is not an attachment. |
| Fetcher.ChosenBody | backend/email_server/email_fetcher.py:195-217 | When some part is decoded HTML, the body is the first such part. Otherwise it is the first plain part with non-empty text. With neither, it is empty. |
| Fetcher.EmailBody | backend/email_server/email_fetcher.py:190-225 | A single-part body is its decoded payload, or empty. A multipart body follows the walk. |
| Fetcher.AttachmentIgnored | backend/email_server/email_fetcher.py:198-201 | An attachment never changes the body, wherever it sits. |
| Fetcher.HtmlWins | backend/email_server/email_fetcher.py:201-217 | A decoded HTML part wins over a plain part that comes before it. |
| Fetcher.FetchEmails | backend/email_server/email_fetcher.py:100-188 | No connection, a failed select or a failed search gives nothing, and so does an exception while handling any message. Otherwise there is one record per message fetched OK, in order. |
| Fetcher.Kept | backend/email_server/email_fetcher.py:133-137 | At most one record per fetched message. |
| Fetcher.FailedFetchSkipped | backend/email_server/email_fetcher.py:133-137 | A failed fetch is skipped, and the other messages keep their order. |

## Left out

- The HTTP routes for status, urgency and search changes are left out: the front end calls them,
  but `backend/api_server.py` does not define them. The data manager's status and urgency updates
  are modelled directly (`Store.StatusStatement`, `Store.UpdateUrgencyJson`,
  `Store.UpdateUrgencyMarkdown`). The front end's handling of their replies is also modelled
  (`Mailbox.ApplyUpdate`).
- A new sync does not close an earlier stream, and the model keeps that: each sync is one session
  over one stream.
- The highlight markup's choice between `<mark>` and plain text is not modelled. It uses
  `regex.test` on a global regex, whose result depends on `lastIndex`. Only the split into pieces
  is modelled.
- Letter-case folding is ASCII-only (`Text.Lower`). This is exact for the prefixes and fields the
  code compares, but not for every Unicode case pair.
- The section and entry regular expressions of `parse_markdown_to_json` are a parameter (`split`).
  The parser over their output is modelled.
- The stored map is serialised with `json.dumps` in the source. The model keeps it as a map.
- The URL path (`urlparse`), BeautifulSoup's text, the date parser, `localeCompare`, the markdown
  renderer, `json.loads`, the clock (`today`) and the language model are parameters or oracles.
  So are the IMAP server, the UTF-7 mailbox decoder (`email_name_decode.py` is not part of this
  model), `decode_header` and `chardet`.
- The sleeps are not executed. Only the pause lengths are modelled.
- Logging, the subprocess machinery, the SQLite connection, CORS and static-file serving are not
  modelled.
- The server restart after a settings update is not modelled.
- A settings write that fails halfway is not modelled: the file may keep its earlier keys
  updated. The model writes all keys or none.
- The order the list query sorts by, `received_date` descending, is taken as the input order.
- `Store.Substitute`: the scan restarts on the text after each replaced value. This equals
  `re.sub`'s scan because the pattern has no anchors or lookbehind.
- `Store.MarkdownUrgencyRoundTrip`: requires a one-line value that does not start with
  whitespace. It does not model escapes in the `re.sub` replacement template.
- `Updater.Step`: a failure while saving is not modelled. The source logs it and moves on, so
  such an email would be neither stored nor found later.
- `Updater.Step`: a message-building exception is reduced to the `messagesOk` flag. The exception
  is the one `format_for_chatgpt_messages` raises for a data URI without a comma.
- `Updater.UpdateFromServer`: a failed analyzer set-up is one flag (`analyzerOk`) that ends the
  run before the loop.
- `Fetcher.FetchEmails`: the decoded subject and sender are inputs, and `decode_header` is not
  modelled. Every exception inside the `try` is one outcome (`Raised`) of a message's fetch.
- `Api.UpdateSettings`: a body whose values for known keys are not all strings fails as a whole.
  The source may already have written some of them.
- `Sidebar.SortDay`: two emails that tie on rank and title type are ordered by their displayed
  summaries. In the source, `localeCompare` throws there when the first summary is not a string,
  which happens for a truthy non-string subject field. The sort then fails. The maps the back end
  stores hold only strings, and subjects are strings in the model, so this is not modelled.
- `Store.UpdateEmailUrgency`: a decoded JSON value that is not a map of lists of string maps is
  outside the model (`parse` gives only such maps). The source handles some of those shapes and
  raises on others. The replacement template `\1` followed by the level is taken as literal
  text: a level starting with a digit or holding a backslash changes what `re.sub` reads (a
  longer group reference, which fails, or an escape), and that is not modelled.
- `Processor.ProcessEmail`: the HTML parser is a parameter, so its own exceptions are not
  modelled. Only a link whose `urlparse` raises ends the `try` early.
- `Js` numbers are integers: the front end only compares them for truthiness.

## Findings

| source | as written | input that shows it | evidently intended | confidence | as-written member | corrected member |
|---|---|---|---|---|---|---|
| backend/chatgpt_handlers/email_analyzer.py:123-124 | A reply starting with the twelve-character fence is cut to `[13:-3]`. | A reply consisting of the fence, `# 摘要\n` and the closing backticks loses its `#`. | Cut exactly the fence: `[12:-3]`. | not executed | Analyzer.AnalyzeEmail | Analyzer.AnalyzeEmailCorrected |
| backend/api_server.py:74-80 | The list query does not select `is_read` or `is_starred`. | A stored row with both flags 1 reaches the client with no flags, so it shows as unread and unstarred. | Select both flag columns. | not executed | Api.GetEmails | Api.GetEmailsCorrected |

=== FILE: analyzer.dfy ===
/** The request sent to the language model and the reply's post-processing: the prompt table
    loaded from the prompt files, the image stripping of the retry without images, the three
    system messages put first, and the removal of a markdown code fence around the reply. */
module Analyzer {
  import opened Wrappers
  import Text
  import Processor

  // ---------------------------------------------------------------------------------------------
  // Prompts

  /** A file of the prompt directory, in listing order: its name and its content, or `None`
      when reading it failed. */
  datatype PromptFile = PromptFile(name: string, content: Option<string>)

  /** `os.path.splitext(name)[0]` for a name ending in `.txt`: the name without its extension,
      unless everything before the final dot is dots, which `splitext` treats as no extension. */
  function PromptName(name: string): (r: string)
    requires Text.EndsWith(name, ".txt")
    ensures r == name || r == name[..|name| - 4]
  {
    if AllDots(name[..|name| - 4]) then name else name[..|name| - 4]
  }

  predicate AllDots(s: string) {
    forall k :: 0 <= k < |s| ==> s[k] == '.'
  }

  /** A name with anything but dots before `.txt` loses exactly the extension. */
  lemma {:induction false} PromptNameStem(name: string, k: nat)
    requires Text.EndsWith(name, ".txt") && k < |name| - 4 && name[k] != '.'
    ensures PromptName(name) == name[..|name| - 4]
  {
    assert name[..|name| - 4][k] == name[k];
  }

  /** `_load_prompts`: every readable `.txt` file, keyed by its name without the extension, with
      its content stripped; a later file of the listing replaces an earlier one with the same key.
      A missing directory gives no prompts. */
  function LoadPrompts(dirExists: bool, files: seq<PromptFile>): (r: map<string, string>)
    ensures !dirExists ==> r == map[]
    ensures forall key :: key in r ==> key in LoadedNames(files)
    decreases |files|
  {
    if !dirExists || |files| == 0 then map[]
    else
      var front := LoadPrompts(dirExists, files[..|files| - 1]);
      var f := files[|files| - 1];
      if Text.EndsWith(f.name, ".txt") && f.content.Some? then
        front[PromptName(f.name) := Text.Strip(f.content.value)]
      else front
  }

  /** The keys of the readable `.txt` files, in listing order. */
  function LoadedNames(files: seq<PromptFile>): (r: seq<string>)
    decreases |files|
  {
    if |files| == 0 then []
    else
      var f := files[|files| - 1];
      LoadedNames(files[..|files| - 1])
      + (if Text.EndsWith(f.name, ".txt") && f.content.Some? then [PromptName(f.name)] else [])
  }

  /** The file is a readable `.txt` file whose key is `key`. */
  predicate Loaded(f: PromptFile, key: string) {
    Text.EndsWith(f.name, ".txt") && f.content.Some? && PromptName(f.name) == key
  }

  /** The prompt of a key is the stripped content of the last loaded file with that key. */
  lemma {:induction false} LoadPromptsLast(files: seq<PromptFile>, k: nat)
    requires k < |files| && Text.EndsWith(files[k].name, ".txt") && files[k].content.Some?
    requires forall j :: k < j < |files| ==> !Loaded(files[j], PromptName(files[k].name))
    ensures var key := PromptName(files[k].name);
            key in LoadPrompts(true, files) && LoadPrompts(true, files)[key] == Text.Strip(files[k].content.value)
    decreases |files|
  {
    var key := PromptName(files[k].name);
    var front := files[..|files| - 1];
    var f := files[|files| - 1];
    if k < |files| - 1 {
      assert front[k] == files[k];
      assert forall j :: k < j < |front| ==> front[j] == files[j];
      LoadPromptsLast(front, k);
      assert !Loaded(f, key);
      LoadKeeps(files, key);
    } else {
      LoadLast(files);
    }
  }

  /** The last file, when loaded, sets its own key. */
  lemma {:induction false} LoadLast(files: seq<PromptFile>)
    requires |files| > 0
    requires Text.EndsWith(files[|files| - 1].name, ".txt") && files[|files| - 1].content.Some?
    ensures var f := files[|files| - 1];
            var r := LoadPrompts(true, files);
            PromptName(f.name) in r && r[PromptName(f.name)] == Text.Strip(f.content.value)
  {
  }

  /** The last file leaves every other key as the files before it set it. */
  lemma {:induction false} LoadKeeps(files: seq<PromptFile>, key: string)
    requires |files| > 0 && !Loaded(files[|files| - 1], key)
    requires key in LoadPrompts(true, files[..|files| - 1])
    ensures var front := LoadPrompts(true, files[..|files| - 1]);
            key in LoadPrompts(true, files) && LoadPrompts(true, files)[key] == front[key]
  {
  }

  /** Files that are not `.txt` files, or that cannot be read, contribute nothing. */
  lemma {:induction false} OtherFilesIgnored(files: seq<PromptFile>, f: PromptFile)
    requires !Text.EndsWith(f.name, ".txt") || f.content.None?
    ensures LoadPrompts(true, files + [f]) == LoadPrompts(true, files)
  {
    assert (files + [f])[..|files|] == files;
  }

  /** The stem rule on concrete names. */
  lemma {:induction false} PromptNames()
    ensures PromptName("summary.txt") == "summary"
    ensures PromptName(".txt") == ".txt"
  {
    assert "summary.txt"[..7] == "summary";
    assert !AllDots("summary") by {
      assert "summary"[0] == 's';
    }
    assert ".txt"[..0] == [];
  }

  /** `get_prompt` followed by the check in `analyze_email`: a missing or empty prompt is an error
      raised before anything is sent. */
  function Prompt(prompts: map<string, string>, name: string): (r: Result<string, string>)
    ensures r.Success? <==> name in prompts && prompts[name] != []
    ensures r.Success? ==> r.value == prompts[name]
  {
    if name in prompts && prompts[name] != [] then Success(prompts[name])
    else Failure("错误：未找到指定的prompt '" + name + "'。")
  }

  // ---------------------------------------------------------------------------------------------
  // Messages

  /** A message's content: a plain string, or a list of parts. */
  datatype Content = Plain(text: string) | Parts(parts: seq<Processor.Part>)

  datatype Msg = Msg(role: string, content: Content)

  /** The message list built for an email, in the shape of this module. */
  function FromProcessor(ms: seq<Processor.Message>): (r: seq<Msg>)
    ensures |r| == |ms|
    ensures forall i :: 0 <= i < |ms| ==> r[i] == Msg(ms[i].role, Parts(ms[i].content))
  {
    seq(|ms|, i requires 0 <= i < |ms| => Msg(ms[i].role, Parts(ms[i].content)))
  }

  /** The text parts of a part list, in order. */
  function TextParts(ps: seq<Processor.Part>): (r: seq<Processor.Part>)
    ensures |r| <= |ps|
    ensures forall k :: 0 <= k < |r| ==> r[k].TextPart? && r[k] in ps
    ensures forall p :: p in r <==> p in ps && p.TextPart?
    ensures (forall k :: 0 <= k < |ps| ==> ps[k].TextPart?) ==> r == ps
    decreases |ps|
  {
    if |ps| == 0 then []
    else (if ps[0].TextPart? then [ps[0]] else []) + TextParts(ps[1..])
  }

  /** Taking the text parts commutes with joining part lists, so their order is kept. */
  lemma {:induction false} TextPartsAppend(a: seq<Processor.Part>, b: seq<Processor.Part>)
    ensures TextParts(a + b) == TextParts(a) + TextParts(b)
    decreases |a|
  {
    if |a| > 0 {
      assert (a + b)[1..] == a[1..] + b;
      TextPartsAppend(a[1..], b);
    } else {
      assert a + b == b;
    }
  }

  /** A message as the retry without images sends it: a user message with a part list keeps only
      its text parts and is dropped when none is left; any other message is kept. */
  function StripOne(m: Msg): (r: seq<Msg>)
    ensures |r| <= 1
    ensures !(m.role == "user" && m.content.Parts?) ==> r == [m]
    ensures m.role == "user" && m.content.Parts? ==>
              && (r == [] <==> TextParts(m.content.parts) == [])
              && (r != [] ==> r == [Msg("user", Parts(TextParts(m.content.parts)))])
  {
    if m.role == "user" && m.content.Parts? then
      var kept := TextParts(m.content.parts);
      if |kept| > 0 then [Msg("user", Parts(kept))] else []
    else [m]
  }

  /** Every user message of the list has only text parts. */
  predicate ImageFree(ms: seq<Msg>) {
    forall i :: 0 <= i < |ms| && ms[i].role == "user" && ms[i].content.Parts? ==>
      forall k :: 0 <= k < |ms[i].content.parts| ==> ms[i].content.parts[k].TextPart?
  }

  /** Every user message of the list with a part list has at least one part. */
  predicate NoEmptyParts(ms: seq<Msg>) {
    forall i :: 0 <= i < |ms| && ms[i].role == "user" && ms[i].content.Parts? ==> ms[i].content.parts != []
  }

  /** The message list of the retry without images. */
  function StripImages(ms: seq<Msg>): (r: seq<Msg>)
    ensures |r| <= |ms|
    ensures ImageFree(r) && NoEmptyParts(r)
    decreases |ms|
  {
    if |ms| == 0 then []
    else
      var rest := StripImages(ms[1..]);
      var head := StripOne(ms[0]);
      assert forall i :: |head| <= i < |head + rest| ==> (head + rest)[i] == rest[i - |head|];
      head + rest
  }

  /** Stripping commutes with joining message lists, so the order of the messages is kept. */
  lemma {:induction false} StripImagesAppend(a: seq<Msg>, b: seq<Msg>)
    ensures StripImages(a + b) == StripImages(a) + StripImages(b)
    decreases |a|
  {
    if |a| > 0 {
      assert (a + b)[1..] == a[1..] + b;
      assert (a + b)[0] == a[0];
      StripImagesAppend(a[1..], b);
    } else {
      assert a + b == b;
    }
  }

  /** A one-message list strips as its message does. */
  lemma {:induction false} StripImagesOne(m: Msg)
    ensures StripImages([m]) == StripOne(m)
  {
    assert [m][1..] == [];
  }

  /** A list already free of images is sent as it is. */
  lemma {:induction false} StripImagesFixed(ms: seq<Msg>)
    requires ImageFree(ms) && NoEmptyParts(ms)
    ensures StripImages(ms) == ms
    decreases |ms|
  {
    if |ms| > 0 {
      StripImagesFixed(ms[1..]);
      assert ms == [ms[0]] + ms[1..];
    }
  }

  /** Stripping twice is stripping once. */
  lemma {:induction false} StripImagesIdempotent(ms: seq<Msg>)
    ensures StripImages(StripImages(ms)) == StripImages(ms)
  {
    StripImagesFixed(StripImages(ms));
  }

  /** The email message without its images is the email text alone: the retry without images
      still carries the metadata and the body. */
  lemma {:induction false} EmailWithoutImages(from: string, subject: string, date: string, text: string, urls: seq<string>)
    requires Processor.FormatMessages(from, subject, date, text, urls).Success?
    ensures var ms := Processor.FormatMessages(from, subject, date, text, urls).value;
            StripImages(FromProcessor(ms)) == [Msg("user", Parts([ms[0].content[0]]))]
  {
    var ms := Processor.FormatMessages(from, subject, date, text, urls).value;
    var parts := ms[0].content;
    TextThenImages(parts);
    var f := FromProcessor(ms);
    assert f == [Msg("user", Parts(parts))];
    StripSingle(Msg("user", Parts(parts)));
  }

  lemma {:induction false} StripSingle(m: Msg)
    ensures StripImages([m]) == StripOne(m)
  {
    assert [m][1..] == [];
    assert StripOne(m) + [] == StripOne(m);
  }

  /** A text part followed by image parts keeps just the text part. */
  lemma {:induction false} TextThenImages(parts: seq<Processor.Part>)
    requires |parts| >= 1 && parts[0].TextPart?
    requires forall k :: 1 <= k < |parts| ==> parts[k].ImagePart?
    ensures TextParts(parts) == [parts[0]]
  {
    ImagesDropped(parts[1..]);
  }

  lemma {:induction false} ImagesDropped(ps: seq<Processor.Part>)
    requires forall k :: 0 <= k < |ps| ==> ps[k].ImagePart?
    ensures TextParts(ps) == []
    decreases |ps|
  {
    if |ps| > 0 {
      ImagesDropped(ps[1..]);
    }
  }

  // ---------------------------------------------------------------------------------------------
  // The request

  const LanguageInstruction := "使用中文回复，请注意语言。"

  /** The date message; `today` stands for the current date as `strftime("%Y年%m月%d日")` gives it. */
  function DateMessage(today: string): string {
    "今天是" + today + "，请在你的回答中考虑这个信息。"
  }

  /** The messages `analyze_email` sends: the language, date and prompt system messages, then the
      caller's messages, stripped of images when `includeImages` is false. */
  function Request(prompts: map<string, string>, name: string, ms: seq<Msg>, includeImages: bool, today: string)
    : (r: Result<seq<Msg>, string>)
    ensures r.Success? <==> Prompt(prompts, name).Success?
    ensures r.Success? ==> (|r.value| >= 3
              && r.value[0] == Msg("system", Plain(LanguageInstruction))
              && r.value[1] == Msg("system", Plain(DateMessage(today)))
              && r.value[2] == Msg("system", Plain(prompts[name])))
    ensures r.Success? && includeImages ==> r.value[3..] == ms
    ensures r.Success? && !includeImages ==> r.value[3..] == StripImages(ms) && ImageFree(r.value[3..])
  {
    match Prompt(prompts, name)
    case Failure(e) => Failure(e)
    case Success(p) =>
      var sent := if includeImages then ms else StripImages(ms);
      Success([Msg("system", Plain(LanguageInstruction)), Msg("system", Plain(DateMessage(today))),
               Msg("system", Plain(p))] + sent)
  }

  // ---------------------------------------------------------------------------------------------
  // The reply

  const Fence := "```markdown\n"

  /** Python's `s[start:-3]` for a non-negative `start`: the slice stops three characters before
      the end, and is empty when it would start at or after its stop. */
  function SliceToMinus3(s: string, start: nat): (r: string)
    ensures |s| >= 3 && start <= |s| - 3 ==> r == s[start..|s| - 3]
    ensures !(|s| >= 3 && start <= |s| - 3) ==> r == []
  {
    if |s| >= 3 && start <= |s| - 3 then s[start..|s| - 3] else []
  }

  /** The reply as `analyze_email` returns it: a reply starting with the fence is cut to
      `[13:-3]`, which is one character past the twelve-character fence. */
  function UnfenceAsWritten(reply: string): (r: string)
    ensures !Text.StartsWith(reply, Fence) ==> r == reply
  {
    if Text.StartsWith(reply, Fence) then SliceToMinus3(reply, 13) else reply
  }

  /** The as-written cut loses the first character of the fenced markdown. */
  lemma {:induction false} UnfenceAsWrittenLosesFirst()
    ensures UnfenceAsWritten(Fence + "# 摘要\n" + "```") == " 摘要\n"
  {
    var s := Fence + "# 摘要\n" + "```";
    assert |Fence| == 12;
    assert s[..12] == Fence;
    assert s[13..|s| - 3] == " 摘要\n";
  }

  /** The cut the code evidently means: drop exactly the fence and the three closing backticks. */
  function Unfence(reply: string): (r: string)
    ensures !Text.StartsWith(reply, Fence) ==> r == reply
    ensures Text.StartsWith(reply, Fence) ==> |r| <= |reply| - |Fence|
  {
    if Text.StartsWith(reply, Fence) then SliceToMinus3(reply, 12) else reply
  }

  /** A fenced reply gives back the markdown inside the fence. */
  lemma {:induction false} UnfenceRoundTrip(body: string)
    ensures Unfence(Fence + body + "```") == body
  {
    var s := Fence + body + "```";
    assert |Fence| == 12;
    assert s[..12] == Fence;
    assert s[12..|s| - 3] == body;
  }

  /** A fenced reply loses the first character of its markdown under the as-written cut. */
  lemma {:induction false} UnfenceAsWrittenDropsFirst(body: string)
    ensures UnfenceAsWritten(Fence + body + "```") == (if body == [] then [] else body[1..])
  {
    var s := Fence + body + "```";
    assert |Fence| == 12;
    assert s[..12] == Fence;
    if body != [] {
      assert s[13..|s| - 3] == body[1..];
    }
  }

  /** A reply without the fence is returned as it is. */
  lemma {:induction false} UnfencePlain(reply: string)
    requires !Text.StartsWith(reply, Fence)
    ensures Unfence(reply) == reply && UnfenceAsWritten(reply) == reply
  {
  }

  /** `analyze_email` as written: the prompt check, then one call to `api` (the model's reply or
      its error, which is passed on), then the fence removal with the `[13:-3]` cut. */
  function AnalyzeEmail(prompts: map<string, string>, name: string, ms: seq<Msg>, includeImages: bool,
                        today: string, api: seq<Msg> -> Result<string, string>): (r: Result<string, string>)
    ensures Prompt(prompts, name).Failure? ==> r.Failure?
    ensures Prompt(prompts, name).Success? ==>
              var req := Request(prompts, name, ms, includeImages, today).value;
              && (api(req).Failure? ==> r == api(req))
              && (api(req).Success? && !Text.StartsWith(api(req).value, Fence) ==> r == api(req))
              && (forall body :: api(req) == Success(Fence + body + "```") ==>
                    r == Success(if body == [] then [] else body[1..]))
  {
    match Request(prompts, name, ms, includeImages, today)
    case Failure(e) => Failure(e)
    case Success(req) =>
      match api(req)
      case Failure(e) => Failure(e)
      case Success(reply) =>
        assert forall body :: reply == Fence + body + "```" ==> UnfenceAsWritten(reply) == (if body == [] then [] else body[1..]) by {
          forall body | reply == Fence + body + "```" {
            UnfenceAsWrittenDropsFirst(body);
          }
        }
        Success(UnfenceAsWritten(reply))
  }

  /** `analyze_email` with the corrected cut: a fenced reply gives back exactly its markdown. */
  function AnalyzeEmailCorrected(prompts: map<string, string>, name: string, ms: seq<Msg>, includeImages: bool,
                                 today: string, api: seq<Msg> -> Result<string, string>): (r: Result<string, string>)
    ensures Prompt(prompts, name).Failure? ==> r.Failure?
    ensures Prompt(prompts, name).Success? ==>
              var req := Request(prompts, name, ms, includeImages, today).value;
              && (api(req).Failure? ==> r == api(req))
              && (api(req).Success? && !Text.StartsWith(api(req).value, Fence) ==> r == api(req))
              && (forall body :: api(req) == Success(Fence + body + "```") ==> r == Success(body))
  {
    match Request(prompts, name, ms, includeImages, today)
    case Failure(e) => Failure(e)
    case Success(req) =>
      match api(req)
      case Failure(e) => Failure(e)
      case Success(reply) =>
        assert forall body :: reply == Fence + body + "```" ==> Unfence(reply) == body by {
          forall body | reply == Fence + body + "```" {
            UnfenceRoundTrip(body);
          }
        }
        Success(Unfence(reply))
  }

  /** The two versions differ only on fenced replies, where the corrected one keeps the markdown's
      first character. */
  lemma {:induction false} AnalyzeVersionsAgree(prompts: map<string, string>, name: string, ms: seq<Msg>, includeImages: bool,
                                                today: string, api: seq<Msg> -> Result<string, string>)
    ensures var a, c := AnalyzeEmail(prompts, name, ms, includeImages, today, api),
                        AnalyzeEmailCorrected(prompts, name, ms, includeImages, today, api);
            && (a.Failure? <==> c.Failure?)
            && (a.Success? && a != c ==> |c.value| == |a.value| + 1 && c.value[1..] == a.value)
  {
    match Request(prompts, name, ms, includeImages, today)
    case Failure(_) =>
    case Success(req) =>
      match api(req)
      case Failure(_) =>
      case Success(reply) =>
        if Text.StartsWith(reply, Fence) && |reply| >= 16 {
          assert reply[12..|reply| - 3][1..] == reply[13..|reply| - 3];
        } else if Text.StartsWith(reply, Fence) {
          assert |Fence| == 12;
        }
  }
}

=== FILE: api.dfy ===
/** The HTTP back end's pure rules: the email list endpoint, with its per-row fallback for the
    stored analysis text, and the settings endpoints, which hide the API key and update only the
    keys the configuration file already has. */
module Api {
  import opened Wrappers
  import opened Js

  // ---------------------------------------------------------------------------------------------
  // GET /api/emails

  /** A row of the emails table. Text columns may be NULL; the two flags are stored as integers. */
  datatype Stored = Stored(
    id: int,
    subject: Option<string>,
    fromName: Option<string>,
    fromEmail: Option<string>,
    receivedDate: Option<string>,
    rawBody: Option<string>,
    markdown: Option<string>,
    analysisJson: Option<string>,
    mailbox: Option<string>,
    isStarred: int,
    isRead: int)

  /** A text column as JSON: NULL becomes `null`. */
  function Column(v: Option<string>): (r: Json)
    ensures r.JNull? <==> v.None?
    ensures v.Some? ==> r == JStr(v.value)
  {
    if v.Some? then JStr(v.value) else JNull
  }

  /** The `analysis_json` value sent for a row: the parsed text, or an empty object when the
      text is NULL, empty or not valid JSON. `parse` stands for `json.loads`. */
  function AnalysisValue(text: Option<string>, parse: string -> Option<Json>): (r: Json)
    ensures r == JObj(map[]) || (text.Some? && text.value != [] && parse(text.value) == Some(r))
    ensures text.Some? && text.value != [] && parse(text.value).Some? ==> r == parse(text.value).value
    ensures text.None? || text == Some([]) ==> r == JObj(map[])
  {
    match text
    case None => JObj(map[])
    case Some(t) =>
      if t == [] then JObj(map[])
      else
        match parse(t)
        case None => JObj(map[])
        case Some(v) => v
  }

  /** The columns the list query selects. */
  const Selected: set<string> := {"id", "subject", "from_name", "from_email", "received_date",
                                  "raw_email_body", "analysis_markdown", "analysis_json", "mailbox"}

  /** The JSON object sent for a row by the query as written: the flags are not selected. */
  function RowAsWritten(e: Stored, parse: string -> Option<Json>): (r: map<string, Json>)
    ensures r.Keys == Selected
    ensures r["id"] == JNum(e.id) && r["mailbox"] == Column(e.mailbox)
    ensures r["analysis_json"] == AnalysisValue(e.analysisJson, parse)
  {
    map["id" := JNum(e.id),
        "subject" := Column(e.subject),
        "from_name" := Column(e.fromName),
        "from_email" := Column(e.fromEmail),
        "received_date" := Column(e.receivedDate),
        "raw_email_body" := Column(e.rawBody),
        "analysis_markdown" := Column(e.markdown),
        "analysis_json" := AnalysisValue(e.analysisJson, parse),
        "mailbox" := Column(e.mailbox)]
  }

  /** How the front end reads a flag of a row: `row.is_read` under JavaScript truthiness. */
  predicate Flag(row: map<string, Json>, name: string) {
    Truthy(if name in row then Some(row[name]) else None)
  }

  /** As written, every email reaches the client unread and unstarred, whatever is stored: the
      read filter, the star toggle and the open-marks-read step all see `undefined`. */
  lemma {:induction false} FlagsLostAsWritten(e: Stored, parse: string -> Option<Json>)
    ensures !Flag(RowAsWritten(e, parse), "is_read") && !Flag(RowAsWritten(e, parse), "is_starred")
  {
  }

  /** A read, starred email that the client shows as unread and unstarred. */
  lemma {:induction false} ReadEmailShownUnread()
    ensures var e := Stored(1, Some("s"), None, None, None, None, None, None, None, 1, 1);
            e.isRead == 1 && !Flag(RowAsWritten(e, _ => None), "is_read")
  {
    FlagsLostAsWritten(Stored(1, Some("s"), None, None, None, None, None, None, None, 1, 1), _ => None);
  }

  /** The row with the two flags selected as well. */
  function Row(e: Stored, parse: string -> Option<Json>): (r: map<string, Json>)
    ensures r.Keys == Selected + {"is_starred", "is_read"}
    ensures forall k :: k in Selected ==> r[k] == RowAsWritten(e, parse)[k]
  {
    RowAsWritten(e, parse)["is_starred" := JNum(e.isStarred)]["is_read" := JNum(e.isRead)]
  }

  /** With the flags selected, the client's view of each flag is the stored one. */
  lemma {:induction false} RowKeepsFlags(e: Stored, parse: string -> Option<Json>)
    ensures Flag(Row(e, parse), "is_read") <==> e.isRead != 0
    ensures Flag(Row(e, parse), "is_starred") <==> e.isStarred != 0
  {
    assert Row(e, parse)["is_read"] == JNum(e.isRead);
    assert Row(e, parse)["is_starred"] == JNum(e.isStarred);
  }

  /** How the database is configured: the path from `DB_PATH`, and whether that file exists. */
  datatype DbConfig = DbConfig(path: Option<string>, fileExists: bool)

  datatype EmailsReply = EmailList(rows: seq<map<string, Json>>) | ServerError(message: string)

  /** The `WHERE mailbox = ?` condition; a NULL mailbox equals nothing. Applied only when the
      `MAILBOX` setting is non-empty. */
  predicate InMailbox(filter: Option<string>, e: Stored) {
    filter.None? || filter.value == [] || e.mailbox == filter
  }

  /** The rows the query returns, from the table in `received_date` descending order. */
  function Select(table: seq<Stored>, filter: Option<string>): (r: seq<Stored>)
    ensures |r| <= |table|
    ensures forall i :: 0 <= i < |r| ==> r[i] in table && InMailbox(filter, r[i])
    ensures filter.None? || filter.value == [] ==> r == table
    decreases |table|
  {
    if |table| == 0 then []
    else (if InMailbox(filter, table[0]) then [table[0]] else []) + Select(table[1..], filter)
  }

  /** A row is returned exactly when it is in the table and in the configured mailbox. */
  lemma {:induction false} SelectMembers(table: seq<Stored>, filter: Option<string>, e: Stored)
    ensures e in Select(table, filter) <==> e in table && InMailbox(filter, e)
    decreases |table|
  {
    if |table| > 0 {
      SelectMembers(table[1..], filter, e);
      assert table == [table[0]] + table[1..];
    }
  }

  /** The reply for a configuration that is missing or points at no file. */
  function DbError(db: DbConfig): (r: Option<EmailsReply>)
    ensures r.Some? <==> db.path.None? || db.path.value == [] || !db.fileExists
    ensures r.Some? ==> r.value.ServerError?
  {
    if db.path.None? || db.path.value == [] then Some(ServerError("DB_PATH not configured in .env file"))
    else if !db.fileExists then Some(ServerError("Database file not found at " + db.path.value))
    else None
  }

  /** `get_emails` as written: the database must be configured and present, otherwise the reply
      is a server error; each selected row is sent with its analysis parsed and without the
      flags. `table` is the emails table in the order the query sorts it. */
  function GetEmails(db: DbConfig, mailbox: Option<string>, table: seq<Stored>, parse: string -> Option<Json>): (r: EmailsReply)
    ensures r.ServerError? <==> db.path.None? || db.path.value == [] || !db.fileExists
    ensures r.EmailList? ==> (|r.rows| == |Select(table, mailbox)|
                              && forall i :: 0 <= i < |r.rows| ==> r.rows[i] == RowAsWritten(Select(table, mailbox)[i], parse))
  {
    if DbError(db).Some? then DbError(db).value
    else
      var selected := Select(table, mailbox);
      EmailList(seq(|selected|, i requires 0 <= i < |selected| => RowAsWritten(selected[i], parse)))
  }

  /** `get_emails` with the flag columns selected as well. */
  function GetEmailsCorrected(db: DbConfig, mailbox: Option<string>, table: seq<Stored>, parse: string -> Option<Json>): (r: EmailsReply)
    ensures r.ServerError? <==> db.path.None? || db.path.value == [] || !db.fileExists
    ensures r.EmailList? ==> (|r.rows| == |Select(table, mailbox)|
                              && forall i :: 0 <= i < |r.rows| ==> r.rows[i] == Row(Select(table, mailbox)[i], parse))
  {
    if DbError(db).Some? then DbError(db).value
    else
      var selected := Select(table, mailbox);
      EmailList(seq(|selected|, i requires 0 <= i < |selected| => Row(selected[i], parse)))
  }

  /** Both versions answer with the same error or the same rows; the corrected rows carry the
      same selected columns plus the stored flags, which the client then reads as stored. */
  lemma {:induction false} GetEmailsVersions(db: DbConfig, mailbox: Option<string>, table: seq<Stored>, parse: string -> Option<Json>)
    ensures var a, c := GetEmails(db, mailbox, table, parse), GetEmailsCorrected(db, mailbox, table, parse);
            && (a.ServerError? ==> c == a)
            && (a.EmailList? ==> c.EmailList? && |c.rows| == |a.rows|)
            && (a.EmailList? ==> forall i :: 0 <= i < |a.rows| ==>
                  && (forall k :: k in Selected ==> k in a.rows[i] && c.rows[i][k] == a.rows[i][k])
                  && (Flag(c.rows[i], "is_read") <==> Select(table, mailbox)[i].isRead != 0)
                  && (Flag(c.rows[i], "is_starred") <==> Select(table, mailbox)[i].isStarred != 0)
                  && !Flag(a.rows[i], "is_read") && !Flag(a.rows[i], "is_starred"))
  {
    var a, c := GetEmails(db, mailbox, table, parse), GetEmailsCorrected(db, mailbox, table, parse);
    if a.EmailList? {
      var sel := Select(table, mailbox);
      forall i | 0 <= i < |a.rows|
        ensures (forall k :: k in Selected ==> k in a.rows[i] && c.rows[i][k] == a.rows[i][k])
        ensures (Flag(c.rows[i], "is_read") <==> sel[i].isRead != 0)
        ensures (Flag(c.rows[i], "is_starred") <==> sel[i].isStarred != 0)
        ensures !Flag(a.rows[i], "is_read") && !Flag(a.rows[i], "is_starred")
      {
        RowKeepsFlags(sel[i], parse);
        FlagsLostAsWritten(sel[i], parse);
      }
    }
  }

  // ---------------------------------------------------------------------------------------------
  // Settings

  /** The key the settings page never sees. */
  const ApiKeyName := "OPENAI_API_KEY"

  /** The configuration file as `dotenv_values` reads it: a key without a value maps to `None`. */
  type Env = map<string, Option<string>>

  datatype SettingsReply = Settings(values: Env) | BadRequest | NotFound | Failed | SavedRestarting

  /** `get_settings`: every key of the file but the API key; 404 when there is no file. */
  function GetSettings(env: Option<Env>): (r: SettingsReply)
    ensures env.None? <==> r == NotFound
    ensures env.Some? ==> r.Settings? && r.values.Keys == env.value.Keys - {ApiKeyName}
                          && forall k :: k in r.values ==> r.values[k] == env.value[k]
  {
    match env
    case None => NotFound
    case Some(m) => Settings(map k | k in m && k != ApiKeyName :: m[k])
  }

  /** Python truthiness of a request body: empty containers, empty text, zero, false and null
      are false. */
  predicate PyTruthy(v: Json) {
    match v
    case JNull => false
    case JBool(b) => b
    case JNum(n) => n != 0
    case JStr(s) => s != []
    case JArr(items) => items != []
    case JObj(fields) => fields != map[]
  }

  /** Whether a body can be written: an object whose values for keys of the file are strings. */
  predicate Writable(fields: map<string, Json>, env: Env) {
    forall k :: k in fields && k in env ==> fields[k].JStr?
  }

  /** The file after writing `fields`: keys already present take the new value, others are
      ignored. */
  function Written(fields: map<string, Json>, env: Env): (r: Env)
    requires Writable(fields, env)
    ensures r.Keys == env.Keys
  {
    map k | k in env :: if k in fields then Some(fields[k].s) else env[k]
  }

  /** `update_settings`: a missing or empty body is a bad request; a missing file is not found;
      a body that is not an object of string values fails; otherwise the present keys are
      updated and a restart is scheduled. Returns the reply and the file afterwards. */
  function UpdateSettings(body: Option<Json>, env: Option<Env>): (r: (SettingsReply, Option<Env>))
    ensures body.None? || !PyTruthy(body.value) <==> r.0 == BadRequest
    ensures r.0 == NotFound <==> body.Some? && PyTruthy(body.value) && env.None?
    ensures !r.0.SavedRestarting? ==> r.1 == env
    ensures r.0.SavedRestarting? ==> env.Some? && r.1.Some? && r.1.value.Keys == env.value.Keys
  {
    if body.None? || !PyTruthy(body.value) then (BadRequest, env)
    else if env.None? then (NotFound, env)
    else if body.value.JObj? && Writable(body.value.fields, env.value) then
      (SavedRestarting, Some(Written(body.value.fields, env.value)))
    else (Failed, env)
  }

  /** A saved update changes exactly the keys it names that the file already had, and a later
      read shows the new values, except for the hidden API key. */
  lemma {:induction false} SettingsRoundTrip(fields: map<string, Json>, env: Env)
    requires fields != map[] && Writable(fields, env)
    ensures UpdateSettings(Some(JObj(fields)), Some(env)).0 == SavedRestarting
    ensures var after := UpdateSettings(Some(JObj(fields)), Some(env)).1.value;
            && (forall k :: k in env && k !in fields ==> after[k] == env[k])
            && (forall k :: k in env && k in fields && k != ApiKeyName ==>
                  GetSettings(Some(after)).values[k] == Some(fields[k].s))
            && (forall k :: k in fields && k !in env ==> k !in GetSettings(Some(after)).values)
  {
  }
}

=== FILE: detail.dfy ===
/** The detail view: the star, read and urgency buttons, and what the body and analysis panes
    show for a search term. */
module Detail {
  import opened Wrappers
  import opened Js
  import Fields
  import Mailbox
  import Highlight
  import Text

  /** The order the urgency button steps through. */
  const UrgencyLevels: seq<string> := ["低", "中", "高"]

  /** `handleUrgencyCycle`: the level after the displayed one, by strict equality; a displayed
      value that is not one of the three levels (including "未评估") restarts at 低. */
  function NextUrgency(current: Json): (r: string)
    ensures r in UrgencyLevels
    ensures current == JStr("低") ==> r == "中"
    ensures current == JStr("中") ==> r == "高"
    ensures current == JStr("高") ==> r == "低"
    ensures !(current.JStr? && current.s in UrgencyLevels) ==> r == "低"
  {
    Levels();
    if current.JStr? then
      if current.s in UrgencyLevels then
        Mailbox.CycleStep(UrgencyLevels, 0);
        Mailbox.CycleStep(UrgencyLevels, 1);
        Mailbox.CycleStep(UrgencyLevels, 2);
        Mailbox.Cycle(UrgencyLevels, current.s)
      else
        Mailbox.CycleUnknownRestarts(UrgencyLevels, current.s);
        Mailbox.Cycle(UrgencyLevels, current.s)
    else UrgencyLevels[0]
  }

  lemma {:induction false} Levels()
    ensures Mailbox.Distinct(UrgencyLevels)
    ensures UrgencyLevels[0] == "低" && UrgencyLevels[1] == "中" && UrgencyLevels[2] == "高"
  {
  }

  /** The request the urgency button sends for an email: its id and the next level. */
  function UrgencyRequest(e: Mailbox.Email): (r: (int, string))
    ensures r.0 == e.id
    ensures Fields.UrgencyOf(e.analysis) == Fields.Unrated ==> r.1 == "低"
    ensures Fields.UrgencyOf(e.analysis) == Fields.Low ==> r.1 == "中"
    ensures Fields.UrgencyOf(e.analysis) == Fields.Medium ==> r.1 == "高"
    ensures Fields.UrgencyOf(e.analysis) == Fields.High ==> r.1 == "低"
  {
    (e.id, NextUrgency(Fields.DisplayedUrgency(e.analysis)))
  }

  /** Three presses of the urgency button bring a rated level back to itself. */
  lemma {:induction false} UrgencyCycleReturns(level: string)
    requires level in UrgencyLevels
    ensures NextUrgency(JStr(NextUrgency(JStr(NextUrgency(JStr(level)))))) == level
  {
  }

  /** `handleStarToggle`: the id and the negated star flag, and nothing else. */
  function StarToggle(e: Mailbox.Email): (r: (int, Mailbox.StatusUpdate))
    ensures r.0 == e.id
    ensures r.1.isStarred == Some(!e.isStarred) && r.1.isRead.None?
  {
    (e.id, Mailbox.StatusUpdate(Some(!e.isStarred), None))
  }

  /** `handleReadToggle`: the id and the negated read flag, and nothing else. */
  function ReadToggle(e: Mailbox.Email): (r: (int, Mailbox.StatusUpdate))
    ensures r.0 == e.id
    ensures r.1.isRead == Some(!e.isRead) && r.1.isStarred.None?
  {
    (e.id, Mailbox.StatusUpdate(None, Some(!e.isRead)))
  }

  /** The flags a status update sets; an absent field keeps its value. */
  function ApplyStatus(e: Mailbox.Email, u: Mailbox.StatusUpdate): (r: Mailbox.Email)
    ensures r.isStarred == u.isStarred.GetOr(e.isStarred)
    ensures r.isRead == u.isRead.GetOr(e.isRead)
    ensures r.(isStarred := e.isStarred, isRead := e.isRead) == e
  {
    e.(isStarred := u.isStarred.GetOr(e.isStarred), isRead := u.isRead.GetOr(e.isRead))
  }

  /** Pressing the star button twice, each time on the email the server returned, restores it. */
  lemma {:induction false} StarToggleTwice(e: Mailbox.Email)
    ensures ApplyStatus(ApplyStatus(e, StarToggle(e).1), StarToggle(ApplyStatus(e, StarToggle(e).1)).1) == e
  {
  }

  /** Pressing the read button twice restores the email. */
  lemma {:induction false} ReadToggleTwice(e: Mailbox.Email)
    ensures ApplyStatus(ApplyStatus(e, ReadToggle(e).1), ReadToggle(ApplyStatus(e, ReadToggle(e).1)).1) == e
  {
  }

  /** The body pane shows the stored HTML as it is, whatever the search term. */
  function BodyHtml(rawBody: string, term: string): (r: string)
    ensures r == rawBody
  {
    rawBody
  }

  /** The analysis pane: the rendered markdown (`render` stands for the markdown renderer) with
      every case-insensitive occurrence of the term wrapped in `<mark>`. */
  function AnalysisHtml(render: string -> string, markdown: string, term: string): (r: string)
    ensures term == [] ==> r == render(markdown)
    ensures !Text.Contains(Text.Lower(render(markdown)), Text.Lower(term))
            ==> r == render(markdown)
    ensures term != [] && Text.Lower(term) == term && Text.Lower(render(markdown)) == render(markdown)
            ==> r == Text.Replace(render(markdown), term, "<mark>" + term + "</mark>")
    ensures term != [] ==> r == Highlight.Render(Highlight.HighlightText(render(markdown), term))
  {
    Highlight.MarkAllNoMatch(render(markdown), term);
    Highlight.MarkAllIsReplace(render(markdown), term);
    Highlight.MarkAll(render(markdown), term)
  }
}

=== FILE: fetcher.dfy ===
/** The IMAP side of the mail client: reading the mailbox list out of LIST response lines, the
    early exits and skips of fetching, and the choice of the body among a message's parts. The
    IMAP connection, header decoding and charset detection are inputs. */
module Fetcher {
  import opened Wrappers
  import Text

  // ---------------------------------------------------------------------------------------------
  // Mailbox list

  /** One item of a LIST response: a text line, or a literal (a tuple, which neither parsing
      attempt accepts). */
  datatype ListItem = Line(text: string) | Literal

  /** The separator the lines are split on: the quoted hierarchy delimiter with a space each side. */
  const Delimiter := " \"/\" "

  /** Python `s.lstrip('"')`. */
  function LeftStripQuotes(s: string): (r: string)
    ensures |r| <= |s| && r == s[|s| - |r|..]
    ensures r == [] || r[0] != '"'
    ensures forall k :: 0 <= k < |s| - |r| ==> s[k] == '"'
  {
    if |s| > 0 && s[0] == '"' then LeftStripQuotes(s[1..]) else s
  }

  /** Python `s.rstrip('"')`. */
  function RightStripQuotes(s: string): (r: string)
    ensures |r| <= |s| && r == s[..|r|]
    ensures r == [] || r[|r| - 1] != '"'
    ensures forall k :: |r| <= k < |s| ==> s[k] == '"'
  {
    if |s| > 0 && s[|s| - 1] == '"' then RightStripQuotes(s[..|s| - 1]) else s
  }

  /** Python `s.strip('"')`: the text between the leading and the trailing run of quotes. */
  function StripQuotes(s: string): (r: string)
    ensures r == [] || (r[0] != '"' && r[|r| - 1] != '"')
  {
    RightStripQuotes(LeftStripQuotes(s))
  }

  /** Quoting a name that neither starts nor ends with a quote and stripping the quotes again
      gives the name back. */
  lemma {:induction false} StripQuoted(name: string)
    requires name == [] || (name[0] != '"' && name[|name| - 1] != '"')
    ensures StripQuotes("\"" + name + "\"") == name
  {
    var q := "\"" + name + "\"";
    assert q[1..] == name + "\"";
    if name == [] {
      assert LeftStripQuotes(q) == LeftStripQuotes("\"") == LeftStripQuotes([]);
    } else {
      assert LeftStripQuotes(q) == LeftStripQuotes(name + "\"") == name + "\"";
      assert (name + "\"")[..|name|] == name;
    }
  }

  /** The mailbox name an item contributes: the second part when the line splits into exactly
      two on the delimiter, with surrounding quotes stripped. */
  function ItemName(item: ListItem): (r: Option<string>)
    ensures r.Some? ==> item.Line? && |Text.Split(item.text, Delimiter)| == 2
  {
    match item
    case Literal => None
    case Line(t) =>
      var parts := Text.Split(t, Delimiter);
      if |parts| == 2 then Some(StripQuotes(parts[1])) else None
  }

  /** The names contributed by a list of items, in order. */
  function Names(items: seq<ListItem>): (r: seq<string>)
    ensures |r| <= |items|
  {
    if |items| == 0 then []
    else
      var n := ItemName(items[|items| - 1]);
      Names(items[..|items| - 1]) + (if n.Some? then [n.value] else [])
  }

  /** The decoded form of a name; when decoding raises, the name itself. `decode` stands for the
      modified UTF-7 decoder. */
  function Decoded(decode: string -> Option<string>, name: string): string {
    decode(name).GetOr(name)
  }

  /** The map built from the items, each contributing name to decoded name. */
  function Mailboxes(items: seq<ListItem>, decode: string -> Option<string>): (r: map<string, string>)
  {
    if |items| == 0 then map[]
    else
      var before := Mailboxes(items[..|items| - 1], decode);
      match ItemName(items[|items| - 1])
      case None => before
      case Some(n) => before[n := Decoded(decode, n)]
  }

  /** The map has one entry per contributed name, each holding that name's decoded form. */
  lemma {:induction false} MailboxesEntries(items: seq<ListItem>, decode: string -> Option<string>)
    ensures forall k :: k in Mailboxes(items, decode) <==> k in Names(items)
    ensures forall k :: k in Mailboxes(items, decode) ==> Mailboxes(items, decode)[k] == Decoded(decode, k)
  {
    if |items| > 0 {
      var init := items[..|items| - 1];
      MailboxesEntries(init, decode);
      var before := Mailboxes(init, decode);
      var n := ItemName(items[|items| - 1]);
      assert Names(items) == Names(init) + (if n.Some? then [n.value] else []);
      if n.Some? {
        assert Mailboxes(items, decode) == before[n.value := Decoded(decode, n.value)];
      } else {
        assert Mailboxes(items, decode) == before;
      }
    }
  }

  /** `list_mailboxes`: an empty map without a connection, or when the LIST command does not
      answer OK (`listing` is `None`); otherwise the map built from the answer. */
  function ListMailboxes(connected: bool, listing: Option<seq<ListItem>>, decode: string -> Option<string>): (r: map<string, string>)
    ensures !connected || listing.None? ==> r == map[]
    ensures connected && listing.Some? ==> forall k :: k in r <==> k in Names(listing.value)
    ensures forall k :: k in r ==> r[k] == Decoded(decode, k)
  {
    if !connected || listing.None? then map[]
    else
      MailboxesEntries(listing.value, decode);
      Mailboxes(listing.value, decode)
  }

  /** A LIST line `(flags) "/" "name"` yields the name, when the flags end with `)` and neither
      part holds the delimiter. */
  lemma {:induction false} LineName(flags: string, name: string)
    requires |flags| > 0 && flags[|flags| - 1] == ')' && !Text.Contains(flags, Delimiter)
    requires !Text.Contains("\"" + name + "\"", Delimiter)
    requires name == [] || (name[0] != '"' && name[|name| - 1] != '"')
    ensures ItemName(Line(flags + Delimiter + "\"" + name + "\"")) == Some(name)
  {
    var q := "\"" + name + "\"";
    var t := flags + Delimiter + q;
    assert Text.OccursAt(t, Delimiter, |flags|) by {
      assert t[|flags|..|flags| + |Delimiter|] == Delimiter;
    }
    forall k | 0 <= k < |flags| ensures !Text.OccursAt(t, Delimiter, k) {
      assert t[|flags| - 1] == ')';
      assert forall j :: 0 <= j < |Delimiter| ==> Delimiter[j] != ')';
      assert k + |Delimiter| <= |flags| ==> t[k..k + |Delimiter|] == flags[k..k + |Delimiter|];
      assert k + |Delimiter| <= |flags| && Text.OccursAt(t, Delimiter, k) ==> Text.OccursAt(flags, Delimiter, k);
    }
    assert t == flags + Delimiter + "\"" + name + "\"";
    var f := Text.Find(t, Delimiter);
    assert f == Some(|flags|);
    Text.SplitFirst(t, Delimiter, |flags|);
    assert t[..|flags|] == flags;
    assert t[|flags| + |Delimiter|..] == q;
    assert Text.Split(t, Delimiter) == [flags, q];
    StripQuoted(name);
  }

  // ---------------------------------------------------------------------------------------------
  // Fetching

  /** One part of a message in walk order: its content type, its Content-Disposition header if
      any, and its payload decoded with the detected charset, or `None` when decoding raised. */
  datatype Part = Part(contentType: string, disposition: Option<string>, decoded: Option<string>)

  /** A message body: the parts of a multipart message, or the decoded payload of a single part. */
  datatype Body = Multipart(parts: seq<Part>) | Single(decoded: Option<string>)

  /** The disposition test on `str(part.get('Content-Disposition'))`: a missing header reads as
      `None`, which never contains `attachment`. */
  predicate IsAttachment(p: Part) {
    Text.Contains(p.disposition.GetOr("None"), "attachment")
  }

  predicate IsHtml(p: Part) { p.contentType == "text/html" && !IsAttachment(p) }
  predicate IsPlain(p: Part) { p.contentType == "text/plain" && !IsAttachment(p) }

  predicate HtmlUsable(p: Part) { IsHtml(p) && p.decoded.Some? }
  predicate PlainUsable(p: Part) { IsPlain(p) && p.decoded.Some? && p.decoded.value != [] }

  /** No part before index `n` passes `ok`. */
  predicate NoneBefore(parts: seq<Part>, n: nat, ok: Part -> bool)
    requires n <= |parts|
  {
    forall i :: 0 <= i < n ==> !ok(parts[i])
  }

  /** The first HTML part that decodes. */
  function FirstHtml(parts: seq<Part>): (r: Option<nat>)
    ensures r.Some? ==> r.value < |parts| && IsHtml(parts[r.value]) && parts[r.value].decoded.Some?
    ensures forall i :: 0 <= i < (if r.Some? then r.value else |parts|) ==> !(IsHtml(parts[i]) && parts[i].decoded.Some?)
  {
    if |parts| == 0 then None
    else if IsHtml(parts[0]) && parts[0].decoded.Some? then Some(0)
    else
      match FirstHtml(parts[1..])
      case None => None
      case Some(i) => Some(i + 1)
  }

  /** The first plain-text part that decodes to non-empty text. */
  function FirstPlain(parts: seq<Part>): (r: Option<nat>)
    ensures r.Some? ==> r.value < |parts| && IsPlain(parts[r.value]) && parts[r.value].decoded.Some? && parts[r.value].decoded.value != []
    ensures forall i :: 0 <= i < (if r.Some? then r.value else |parts|) ==>
              !(IsPlain(parts[i]) && parts[i].decoded.Some? && parts[i].decoded.value != [])
  {
    if |parts| == 0 then None
    else if IsPlain(parts[0]) && parts[0].decoded.Some? && parts[0].decoded.value != [] then Some(0)
    else
      match FirstPlain(parts[1..])
      case None => None
      case Some(i) => Some(i + 1)
  }

  /** Which text the body is: the first HTML part that decodes; failing that, the first plain
      part with non-empty text; failing that, nothing. */
  function ChosenBody(parts: seq<Part>): (r: string)
    ensures forall h :: 0 <= h < |parts| && HtmlUsable(parts[h]) && NoneBefore(parts, h, HtmlUsable) ==>
              r == parts[h].decoded.value
    ensures forall p :: (0 <= p < |parts| && PlainUsable(parts[p]) && NoneBefore(parts, p, PlainUsable)
                         && NoneBefore(parts, |parts|, HtmlUsable)) ==> r == parts[p].decoded.value
    ensures NoneBefore(parts, |parts|, HtmlUsable) && NoneBefore(parts, |parts|, PlainUsable) ==> r == []
  {
    match FirstHtml(parts)
    case Some(h) => parts[h].decoded.value
    case None =>
      match FirstPlain(parts)
      case Some(p) => parts[p].decoded.value
      case None => []
  }

  /** `_get_email_body` for a multipart message: the walk that stops at the first decoded HTML
      part and otherwise keeps the first plain text found. */
  method MultipartBody(parts: seq<Part>) returns (body: string)
    ensures body == ChosenBody(parts)
    ensures body != [] ==> exists i :: 0 <= i < |parts| && !IsAttachment(parts[i]) && parts[i].decoded == Some(body)
  {
    body := [];
    var n := 0;
    while n < |parts|
      invariant 0 <= n <= |parts|
      invariant forall i :: 0 <= i < n ==> !(IsHtml(parts[i]) && parts[i].decoded.Some?)
      invariant body == (match FirstPlain(parts[..n]) case Some(p) => parts[p].decoded.value case None => [])
    {
      var part := parts[n];
      if part.contentType == "text/html" && !Text.Contains(part.disposition.GetOr("None"), "attachment") {
        if part.decoded.Some? {
          body := part.decoded.value;
          HtmlFound(parts, n);
          return;
        }
      } else if part.contentType == "text/plain" && !Text.Contains(part.disposition.GetOr("None"), "attachment") {
        if body == [] && part.decoded.Some? {
          body := part.decoded.value;
        }
      }
      PlainStep(parts, n);
      n := n + 1;
    }
    assert parts[..n] == parts;
    assert FirstHtml(parts).None?;
  }

  /** The first decoded HTML part is the body once found. */
  lemma {:induction false} HtmlFound(parts: seq<Part>, n: nat)
    requires n < |parts| && IsHtml(parts[n]) && parts[n].decoded.Some?
    requires forall i :: 0 <= i < n ==> !(IsHtml(parts[i]) && parts[i].decoded.Some?)
    ensures FirstHtml(parts) == Some(n)
  {
  }

  /** One more part of the walk, as seen by the first-plain search. */
  lemma {:induction false} PlainStep(parts: seq<Part>, n: nat)
    requires n < |parts|
    ensures FirstPlain(parts[..n + 1]) ==
              match FirstPlain(parts[..n])
              case Some(p) => Some(p)
              case None =>
                if IsPlain(parts[n]) && parts[n].decoded.Some? && parts[n].decoded.value != [] then Some(n) else None
  {
    var a := parts[..n + 1];
    var b := parts[..n];
    assert forall i :: 0 <= i < n ==> a[i] == b[i];
    var r := match FirstPlain(b)
             case Some(p) => Some(p)
             case None =>
               if IsPlain(parts[n]) && parts[n].decoded.Some? && parts[n].decoded.value != [] then Some(n) else None;
    FirstPlainIs(a, r);
  }

  /** The first plain part is determined by where the first usable plain part is. */
  lemma {:induction false} FirstPlainIs(parts: seq<Part>, r: Option<nat>)
    requires r.Some? ==> r.value < |parts| && IsPlain(parts[r.value]) && parts[r.value].decoded.Some? && parts[r.value].decoded.value != []
    requires forall i :: 0 <= i < (if r.Some? then r.value else |parts|) ==>
               !(IsPlain(parts[i]) && parts[i].decoded.Some? && parts[i].decoded.value != [])
    ensures FirstPlain(parts) == r
  {
    var f := FirstPlain(parts);
    if f.Some? && r.Some? {
      assert !(f.value < r.value) && !(r.value < f.value);
    }
  }

  /** `_get_email_body`: a single-part message is its decoded payload, or empty when decoding
      raised. */
  function EmailBody(b: Body): (r: string)
    ensures b.Single? ==> r == b.decoded.GetOr([])
    ensures b.Multipart? ==> r == ChosenBody(b.parts)
  {
    match b
    case Single(d) => d.GetOr([])
    case Multipart(parts) => ChosenBody(parts)
  }

  /** An attachment part never affects the body, wherever it sits in the walk. */
  lemma {:induction false} AttachmentIgnored(before: seq<Part>, a: Part, after: seq<Part>)
    requires IsAttachment(a)
    ensures ChosenBody(before + [a] + after) == ChosenBody(before + after)
    ensures FirstHtml(before + [a] + after).Some? <==> FirstHtml(before + after).Some?
    decreases |before|
  {
    if |before| == 0 {
      assert ([a] + after)[1..] == after;
      assert before + [a] + after == [a] + after;
      assert before + after == after;
      FirstsShift([a] + after, after);
    } else {
      AttachmentIgnored(before[1..], a, after);
      DropConcat(before + [a], after);
      DropConcat(before, [a]);
      DropConcat(before, after);
      FirstsShift(before + [a] + after, before[1..] + [a] + after);
      FirstsShift(before + after, before[1..] + after);
    }
  }

  lemma {:induction false} DropConcat<T>(x: seq<T>, y: seq<T>)
    requires |x| > 0
    ensures (x + y)[1..] == x[1..] + y
  {
  }

  /** The searches on a list in terms of the searches on its tail. */
  lemma {:induction false} FirstsShift(parts: seq<Part>, tail: seq<Part>)
    requires |parts| > 0 && tail == parts[1..]
    ensures FirstHtml(parts).Some? <==> (IsHtml(parts[0]) && parts[0].decoded.Some?) || FirstHtml(tail).Some?
    ensures ChosenBody(parts) ==
              if IsHtml(parts[0]) && parts[0].decoded.Some? then parts[0].decoded.value
              else if FirstHtml(tail).Some? then ChosenBody(tail)
              else if IsPlain(parts[0]) && parts[0].decoded.Some? && parts[0].decoded.value != [] then parts[0].decoded.value
              else ChosenBody(tail)
  {
    var h0 := IsHtml(parts[0]) && parts[0].decoded.Some?;
    var p0 := IsPlain(parts[0]) && parts[0].decoded.Some? && parts[0].decoded.value != [];
    if !h0 {
      assert FirstHtml(parts) == (match FirstHtml(tail) case None => None case Some(i) => Some(i + 1));
      if FirstHtml(tail).Some? {
        assert parts[FirstHtml(tail).value + 1] == tail[FirstHtml(tail).value];
      } else if !p0 {
        assert FirstPlain(parts) == (match FirstPlain(tail) case None => None case Some(i) => Some(i + 1));
        if FirstPlain(tail).Some? {
          assert parts[FirstPlain(tail).value + 1] == tail[FirstPlain(tail).value];
        }
      }
    }
  }

  /** A decoded HTML part wins over any plain part before it. */
  lemma {:induction false} HtmlWins(plain: Part, html: Part)
    requires IsPlain(plain) && plain.decoded.Some? && IsHtml(html) && html.decoded.Some?
    ensures ChosenBody([plain, html]) == html.decoded.value
  {
    assert [plain, html][1..] == [html];
    assert [html][1..] == [];
    assert !IsHtml(plain);
    assert FirstHtml([html]) == Some(0);
    FirstsShift([plain, html], [html]);
  }

  /** A message as fetched: the decoded headers and the body. */
  datatype Message = Message(from: string, to: Option<string>, subject: string, date: Option<string>, body: Body)

  /** The record handed to the update run. */
  datatype Mail = Mail(from: string, to: Option<string>, subject: string, date: Option<string>, body: string)

  function MailOf(m: Message): (r: Mail)
    ensures r.from == m.from && r.subject == m.subject && r.date == m.date
    ensures r.body == EmailBody(m.body)
  {
    Mail(m.from, m.to, m.subject, m.date, EmailBody(m.body))
  }

  /** What handling one search result comes to: the parsed message; a fetch that did not answer
      OK, which is skipped; or an exception while fetching or parsing, which the catch-all
      around the whole run turns into an empty result. */
  datatype Fetch = Fetched(m: Message) | NotOk | Raised

  /** Some message of the list raises. */
  predicate Raises(fetches: seq<Fetch>) {
    exists i :: 0 <= i < |fetches| && fetches[i].Raised?
  }

  /** The messages whose fetch answered OK, in order. */
  function Kept(fetches: seq<Fetch>): (r: seq<Message>)
    ensures |r| <= |fetches|
  {
    if |fetches| == 0 then []
    else Kept(fetches[..|fetches| - 1]) + (if fetches[|fetches| - 1].Fetched? then [fetches[|fetches| - 1].m] else [])
  }

  lemma {:induction false} KeptStep(fetches: seq<Fetch>, n: nat)
    requires n < |fetches|
    ensures Kept(fetches[..n + 1]) == Kept(fetches[..n]) + (if fetches[n].Fetched? then [fetches[n].m] else [])
  {
    assert fetches[..n + 1][..n] == fetches[..n];
  }

  /** `fetch_emails`: nothing without a connection, or when selecting the mailbox or searching
      fails (`found` is `None`), or when handling any message raises; otherwise one record per
      message whose fetch answered OK, in the order the search listed them. */
  method FetchEmails(connected: bool, selected: bool, found: Option<seq<Fetch>>) returns (mails: seq<Mail>)
    ensures !connected || !selected || found.None? ==> mails == []
    ensures found.Some? && Raises(found.value) ==> mails == []
    ensures connected && selected && found.Some? && !Raises(found.value) ==>
              |mails| == |Kept(found.value)| && forall i :: 0 <= i < |mails| ==> mails[i] == MailOf(Kept(found.value)[i])
  {
    if !connected || !selected || found.None? {
      return [];
    }
    var fetches := found.value;
    mails := [];
    var n := 0;
    while n < |fetches|
      invariant 0 <= n <= |fetches|
      invariant forall i :: 0 <= i < n ==> !fetches[i].Raised?
      invariant |mails| == |Kept(fetches[..n])|
      invariant forall i :: 0 <= i < |mails| ==> mails[i] == MailOf(Kept(fetches[..n])[i])
    {
      KeptStep(fetches, n);
      var f := fetches[n];
      if f.Raised? {
        return [];
      }
      if f.Fetched? {
        mails := mails + [MailOf(f.m)];
      }
      n := n + 1;
    }
    assert fetches[..n] == fetches;
  }

  /** A fetch that does not answer OK is skipped and the others keep their order. */
  lemma {:induction false} FailedFetchSkipped(before: seq<Fetch>, after: seq<Fetch>)
    ensures Kept(before + [NotOk] + after) == Kept(before) + Kept(after)
    decreases |after|
  {
    if |after| == 0 {
      assert (before + [NotOk] + after)[..|before|] == before;
    } else {
      var whole := before + [NotOk] + after;
      var front := after[..|after| - 1];
      FailedFetchSkipped(before, front);
      assert whole[..|whole| - 1] == before + [NotOk] + front;
      assert whole[|whole| - 1] == after[|after| - 1];
    }
  }
}

=== FILE: fields.dfy ===
/** Field resolution over the analysis payload. The payload's labels come in two script variants
    (simplified and traditional Chinese); every lookup tries the simplified label first and falls
    back to the traditional one with `||`, independently at each level of nesting. */
module Fields {
  import opened Wrappers
  import opened Js

  const UrgencyBlockS := "邮件紧急程度评估"
  const UrgencyBlockT := "郵件緊急程度評估"
  const UrgencyFieldS := "- **紧急程度**"
  const UrgencyFieldT := "- **緊急程度**"
  const SummaryBlockS := "邮件摘要"
  const SummaryBlockT := "郵件摘要"
  const SubjectFieldS := "**主题**"
  const SubjectFieldT := "**主題**"
  /** What the detail view shows when no urgency is found. */
  const NotRated := "未评估"

  /** `v?.[s] || v?.[t]`: one level of the two-variant fallback. */
  function Variant(v: Option<Json>, s: string, t: string): (r: Option<Json>)
    ensures Truthy(Member(v, s)) ==> r == Member(v, s)
    ensures !Truthy(Member(v, s)) ==> r == Member(v, t)
  {
    Or(Member(v, s), Member(v, t))
  }

  /** The urgency block: simplified label, else traditional label. */
  function UrgencyBlock(analysis: Json): Option<Json> {
    Variant(Some(analysis), UrgencyBlockS, UrgencyBlockT)
  }

  /** The raw urgency value: the block's element 0, its simplified field, else its traditional
      field. `None` when any step is missing; never an error. */
  function UrgencyValue(analysis: Json): Option<Json> {
    Variant(First(UrgencyBlock(analysis)), UrgencyFieldS, UrgencyFieldT)
  }

  /** The four outcomes every consumer distinguishes. */
  datatype Urgency = High | Medium | Low | Unrated

  /** The label stored for a rated urgency. */
  function Label(u: Urgency): string {
    match u
    case High => "高"
    case Medium => "中"
    case Low => "低"
    case Unrated => ""
  }

  /** The `switch (urgency)` of the sidebar: strict equality with one of the three labels. */
  function Classify(v: Option<Json>): (u: Urgency)
    ensures u == High <==> v == Some(JStr("高"))
    ensures u == Medium <==> v == Some(JStr("中"))
    ensures u == Low <==> v == Some(JStr("低"))
  {
    if v == Some(JStr("高")) then High
    else if v == Some(JStr("中")) then Medium
    else if v == Some(JStr("低")) then Low
    else Unrated
  }

  function UrgencyOf(analysis: Json): Urgency {
    Classify(UrgencyValue(analysis))
  }

  /** The urgency the detail view displays: the resolved value, or "未评估" when it is falsy. */
  function DisplayedUrgency(analysis: Json): (r: Json)
    ensures Truthy(UrgencyValue(analysis)) ==> Some(r) == UrgencyValue(analysis)
    ensures !Truthy(UrgencyValue(analysis)) ==> r == JStr(NotRated)
    ensures UrgencyOf(analysis) != Unrated ==> r == JStr(Label(UrgencyOf(analysis)))
  {
    OrElse(UrgencyValue(analysis), JStr(NotRated))
  }

  /** The summary block's element 0 subject, simplified then traditional at each level. */
  function SummaryValue(analysis: Json): Option<Json> {
    Variant(First(Variant(Some(analysis), SummaryBlockS, SummaryBlockT)), SubjectFieldS, SubjectFieldT)
  }

  /** The summary line: the resolved subject when it is truthy, else the email's own subject. */
  function Summary(analysis: Json, subject: string): (r: Json)
    ensures Truthy(SummaryValue(analysis)) ==> Some(r) == SummaryValue(analysis)
    ensures !Truthy(SummaryValue(analysis)) ==> r == JStr(subject)
  {
    OrElse(SummaryValue(analysis), JStr(subject))
  }

  /** The summary as text, for ranking and ordering. */
  function SummaryText(analysis: Json, subject: string): string {
    Display(Summary(analysis, subject))
  }

  /** A payload holding a block under `blockKey` whose element 0 holds `value` under
      `fieldKey`, beside any other blocks (`others`), fields (`fields`) and elements (`more`). */
  function Nested(others: map<string, Json>, blockKey: string, fields: map<string, Json>, fieldKey: string,
                  value: Json, more: seq<Json>): Json {
    JObj(others[blockKey := JArr([JObj(fields[fieldKey := value])] + more)])
  }

  /** One level of a payload that uses a single label: the variant lookup finds the value,
      except that a falsy value under the simplified label falls through to the missing
      traditional one. */
  lemma {:induction false} OneLabel(m: map<string, Json>, s: string, t: string, key: string, value: Json)
    requires key == s || key == t
    requires s !in m && t !in m
    ensures Truthy(Some(value)) ==> Variant(Some(JObj(m[key := value])), s, t) == Some(value)
    ensures !Truthy(Variant(Some(JObj(m[key := value])), s, t)) <==> !Truthy(Some(value))
  {
  }

  /** Whichever label each level of a payload uses, and whatever else the payload holds, the
      resolved urgency is the urgency of the value itself. */
  lemma {:induction false} UrgencyVariantsAgree(others: map<string, Json>, blockKey: string, fields: map<string, Json>,
                                                fieldKey: string, value: Json, more: seq<Json>)
    requires blockKey == UrgencyBlockS || blockKey == UrgencyBlockT
    requires fieldKey == UrgencyFieldS || fieldKey == UrgencyFieldT
    requires UrgencyBlockS !in others && UrgencyBlockT !in others
    requires UrgencyFieldS !in fields && UrgencyFieldT !in fields
    ensures UrgencyOf(Nested(others, blockKey, fields, fieldKey, value, more)) == Classify(Some(value))
    ensures Truthy(Some(value)) ==> UrgencyValue(Nested(others, blockKey, fields, fieldKey, value, more)) == Some(value)
  {
    var item := JObj(fields[fieldKey := value]);
    var a := Nested(others, blockKey, fields, fieldKey, value, more);
    OneLabel(others, UrgencyBlockS, UrgencyBlockT, blockKey, JArr([item] + more));
    assert UrgencyBlock(a) == Some(JArr([item] + more));
    assert ([item] + more)[0] == item;
    OneLabel(fields, UrgencyFieldS, UrgencyFieldT, fieldKey, value);
    assert UrgencyValue(a) == Variant(Some(item), UrgencyFieldS, UrgencyFieldT);
    if !Truthy(Some(value)) {
      assert !Truthy(UrgencyValue(a));
    }
  }

  /** The same for the summary: the resolved summary is the value when it is truthy, and the
      email's subject otherwise, whichever labels the payload uses. */
  lemma {:induction false} SummaryVariantsAgree(others: map<string, Json>, blockKey: string, fields: map<string, Json>,
                                                fieldKey: string, value: Json, more: seq<Json>, subject: string)
    requires blockKey == SummaryBlockS || blockKey == SummaryBlockT
    requires fieldKey == SubjectFieldS || fieldKey == SubjectFieldT
    requires SummaryBlockS !in others && SummaryBlockT !in others
    requires SubjectFieldS !in fields && SubjectFieldT !in fields
    ensures Summary(Nested(others, blockKey, fields, fieldKey, value, more), subject)
            == (if Truthy(Some(value)) then value else JStr(subject))
  {
    var item := JObj(fields[fieldKey := value]);
    var a := Nested(others, blockKey, fields, fieldKey, value, more);
    OneLabel(others, SummaryBlockS, SummaryBlockT, blockKey, JArr([item] + more));
    assert Variant(Some(a), SummaryBlockS, SummaryBlockT) == Some(JArr([item] + more));
    assert ([item] + more)[0] == item;
    OneLabel(fields, SubjectFieldS, SubjectFieldT, fieldKey, value);
    assert SummaryValue(a) == Variant(Some(item), SubjectFieldS, SubjectFieldT);
  }

  /** A payload without either urgency label, or not an object at all, is unrated. */
  lemma {:induction false} MissingBlockIsAbsent(analysis: Json)
    requires !analysis.JObj? || (UrgencyBlockS !in analysis.fields && UrgencyBlockT !in analysis.fields)
    ensures UrgencyValue(analysis) == None
    ensures UrgencyOf(analysis) == Unrated
  {
  }

  /** An empty simplified block is truthy, so it is chosen and hides a populated traditional
      block: the result is absent. */
  lemma {:induction false} EmptySimplifiedBlockHides(other: Json)
    ensures UrgencyValue(JObj(map[UrgencyBlockS := JArr([]), UrgencyBlockT := other])) == None
  {
    var a := JObj(map[UrgencyBlockS := JArr([]), UrgencyBlockT := other]);
    assert Member(Some(a), UrgencyBlockS) == Some(JArr([]));
  }

  /** The four lookup paths in the order block-simplified/field-simplified,
      block-simplified/field-traditional, block-traditional/field-simplified,
      block-traditional/field-traditional. */
  function Paths(): seq<(string, string)> {
    [(UrgencyBlockS, UrgencyFieldS), (UrgencyBlockS, UrgencyFieldT),
     (UrgencyBlockT, UrgencyFieldS), (UrgencyBlockT, UrgencyFieldT)]
  }

  function PathValue(analysis: Json, path: (string, string)): Option<Json> {
    Member(First(Member(Some(analysis), path.0)), path.1)
  }

  /** The value of the first path, in `Paths()` order, that yields a truthy value. */
  function FirstTruthyPath(analysis: Json, paths: seq<(string, string)>): (r: Option<Json>)
    ensures r.Some? ==> Truthy(r)
    ensures r.None? <==> forall k :: 0 <= k < |paths| ==> !Truthy(PathValue(analysis, paths[k]))
    ensures forall k :: 0 <= k < |paths| && Truthy(PathValue(analysis, paths[k]))
                        && (forall j :: 0 <= j < k ==> !Truthy(PathValue(analysis, paths[j])))
                        ==> r == PathValue(analysis, paths[k])
  {
    if |paths| == 0 then None
    else if Truthy(PathValue(analysis, paths[0])) then PathValue(analysis, paths[0])
    else
      assert forall k :: 1 <= k < |paths| ==> paths[1..][k - 1] == paths[k];
      FirstTruthyPath(analysis, paths[1..])
  }

  /** The front end commits to the first truthy block, so it agrees with a search over all four
      paths whenever the simplified block is not truthy or its element 0 yields a truthy field. */
  lemma {:induction false} CommittedBlockAgreesWithSearch(analysis: Json)
    requires !Truthy(Member(Some(analysis), UrgencyBlockS)) || Truthy(UrgencyValue(analysis))
    ensures Truthy(UrgencyValue(analysis)) ==> UrgencyValue(analysis) == FirstTruthyPath(analysis, Paths())
    ensures !Truthy(UrgencyValue(analysis)) ==> FirstTruthyPath(analysis, Paths()) == None
  {
    var ps := Paths();
    var p0, p1, p2, p3 := PathValue(analysis, ps[0]), PathValue(analysis, ps[1]),
                          PathValue(analysis, ps[2]), PathValue(analysis, ps[3]);
    assert ps[1..][0] == ps[1] && ps[1..][1..][0] == ps[2] && ps[1..][1..][1..][0] == ps[3];
    assert ps[1..][1..][1..][1..] == [];
    assert FirstTruthyPath(analysis, ps[1..][1..][1..]) == if Truthy(p3) then p3 else None;
    assert FirstTruthyPath(analysis, ps[1..][1..]) == if Truthy(p2) then p2 else FirstTruthyPath(analysis, ps[1..][1..][1..]);
    assert FirstTruthyPath(analysis, ps[1..]) == if Truthy(p1) then p1 else FirstTruthyPath(analysis, ps[1..][1..]);
    assert FirstTruthyPath(analysis, ps) == if Truthy(p0) then p0 else FirstTruthyPath(analysis, ps[1..]);
    if Truthy(Member(Some(analysis), UrgencyBlockS)) {
      assert UrgencyValue(analysis) == Or(p0, p1);
    } else {
      assert First(Member(Some(analysis), UrgencyBlockS)) == None;
      assert p0 == None && p1 == None;
      assert UrgencyValue(analysis) == Or(p2, p3);
    }
  }

  /** A populated simplified block whose element 0 lacks the field hides a traditional block
      that has it: the four-path search finds the value, the front end does not. */
  lemma {:induction false} CommittedBlockCanMissField()
    ensures var a := JObj(map[UrgencyBlockS := JArr([JObj(map[])]),
                              UrgencyBlockT := JArr([JObj(map[UrgencyFieldS := JStr("高")])])]);
            UrgencyValue(a) == None && FirstTruthyPath(a, Paths()) == Some(JStr("高"))
  {
    var a := JObj(map[UrgencyBlockS := JArr([JObj(map[])]),
                      UrgencyBlockT := JArr([JObj(map[UrgencyFieldS := JStr("高")])])]);
    assert Member(Some(a), UrgencyBlockS) == Some(JArr([JObj(map[])]));
    assert Member(Some(a), UrgencyBlockT) == Some(JArr([JObj(map[UrgencyFieldS := JStr("高")])]));
    var ps := Paths();
    assert PathValue(a, ps[0]) == None;
    assert PathValue(a, ps[1]) == None;
    assert PathValue(a, ps[2]) == Some(JStr("高"));
    assert ps[1..][0] == ps[1] && ps[1..][1..][0] == ps[2];
    assert FirstTruthyPath(a, ps[1..][1..]) == Some(JStr("高"));
    assert FirstTruthyPath(a, ps[1..]) == Some(JStr("高"));
  }
}

=== FILE: highlight.dfy ===
/** Search-term highlighting: the regex escaping of the term, the case-insensitive split of a text
    into plain and marked pieces used by the result list, and the `<mark>` wrapping of the rendered
    analysis. The term is matched as a literal, which is what the escaping achieves. */
module Highlight {
  import opened Wrappers
  import Text

  /** The characters the escaping prefixes with a backslash. */
  predicate IsRegexSpecial(c: char) {
    c in ".*+?^${}()|[]\\"
  }

  /** `term.replace(/[.*+?^${}()|[\]\\]/g, '\\$&')`. */
  function EscapeRegex(s: string): (r: string)
    ensures |r| >= |s|
    ensures (forall k :: 0 <= k < |s| ==> !IsRegexSpecial(s[k])) ==> r == s
  {
    if |s| == 0 then []
    else (if IsRegexSpecial(s[0]) then ['\\', s[0]] else [s[0]]) + EscapeRegex(s[1..])
  }

  /** Reads an escaped pattern back as the literal it matches. */
  function UnescapeRegex(p: string): string
    decreases |p|
  {
    if |p| == 0 then []
    else if p[0] == '\\' && |p| > 1 then [p[1]] + UnescapeRegex(p[2..])
    else [p[0]] + UnescapeRegex(p[1..])
  }

  /** The escaped pattern matches exactly the term's own characters. */
  lemma {:induction false} EscapeRoundTrip(s: string)
    ensures UnescapeRegex(EscapeRegex(s)) == s
  {
    if |s| > 0 {
      EscapeRoundTrip(s[1..]);
      var e := EscapeRegex(s);
      if IsRegexSpecial(s[0]) {
        assert e[0] == '\\' && e[1] == s[0] && e[2..] == EscapeRegex(s[1..]);
      } else {
        assert s[0] != '\\';
        assert e[0] == s[0] && e[1..] == EscapeRegex(s[1..]);
      }
    }
  }

  /** One piece of a highlighted text. */
  datatype Piece = Plain(text: string) | Marked(text: string)

  function Flatten(ps: seq<Piece>): string {
    if |ps| == 0 then [] else ps[0].text + Flatten(ps[1..])
  }

  /** The pieces alternate plain, marked, plain, and so on, and start and end with a plain one. */
  predicate Alternating(ps: seq<Piece>) {
    |ps| % 2 == 1 && forall i :: 0 <= i < |ps| ==> (ps[i].Marked? <==> i % 2 == 1)
  }

  lemma {:induction false} LowerSlice(s: string, i: nat, j: nat)
    requires i <= j <= |s|
    ensures Text.Lower(s[i..j]) == Text.Lower(s)[i..j]
  {
  }

  /** No occurrence of `t` lies wholly before the first one. */
  lemma {:induction false} NoneBeforeFirst(s: string, t: string, k: nat)
    requires |t| > 0 && Text.Find(s, t) == Some(k)
    ensures !Text.Contains(s[..k], t)
  {
    if Text.Contains(s[..k], t) {
      var i :| 0 <= i <= k && Text.OccursAt(s[..k], t, i);
      assert s[..k][i..i + |t|] == s[i..i + |t|];
      assert i < k && Text.OccursAt(s, t, i);
    }
  }

  /** Every marked piece is, up to letter case, the term. */
  predicate MarksTerm(ps: seq<Piece>, t: string) {
    forall i :: 0 <= i < |ps| && ps[i].Marked? ==> Text.Lower(ps[i].text) == t
  }

  /** No plain piece holds the term in any letter case. */
  predicate PlainAvoidsTerm(ps: seq<Piece>, t: string) {
    forall i :: 0 <= i < |ps| && ps[i].Plain? ==> !Text.Contains(Text.Lower(ps[i].text), t)
  }

  /** Every marked piece is the leftmost occurrence of the term once the plain piece before it is
      read: the scan resumes right after a match and takes the first occurrence it meets. */
  predicate LeftmostMarks(ps: seq<Piece>, t: string) {
    forall i :: 1 <= i < |ps| && ps[i].Marked? ==>
      Text.Find(Text.Lower(ps[i - 1].text + ps[i].text), t) == Some(|ps[i - 1].text|)
  }

  /** Prefixing a plain piece and a marked piece keeps each of the three piece properties. */
  lemma {:induction false} PrefixPair(before: string, hit: string, rest: seq<Piece>, t: string)
    requires Alternating(rest) && MarksTerm(rest, t) && PlainAvoidsTerm(rest, t)
    requires Text.Lower(hit) == t && !Text.Contains(Text.Lower(before), t)
    ensures Alternating([Plain(before), Marked(hit)] + rest)
    ensures MarksTerm([Plain(before), Marked(hit)] + rest, t)
    ensures PlainAvoidsTerm([Plain(before), Marked(hit)] + rest, t)
    ensures Flatten([Plain(before), Marked(hit)] + rest) == before + hit + Flatten(rest)
  {
    var r := [Plain(before), Marked(hit)] + rest;
    assert forall i :: 2 <= i < |r| ==> r[i] == rest[i - 2];
    assert r[1..][1..] == rest;
  }

  /** Prefixing a plain piece and the leftmost occurrence after it keeps every mark leftmost. */
  lemma {:induction false} PrefixPairLeftmost(before: string, hit: string, rest: seq<Piece>, t: string)
    requires Alternating(rest) && LeftmostMarks(rest, t)
    requires Text.Find(Text.Lower(before + hit), t) == Some(|before|)
    ensures LeftmostMarks([Plain(before), Marked(hit)] + rest, t)
  {
    var r := [Plain(before), Marked(hit)] + rest;
    assert r[0].text + r[1].text == before + hit;
    assert forall i :: 2 <= i < |r| ==> r[i] == rest[i - 2];
    forall i | 3 <= i < |r| && r[i].Marked?
      ensures Text.Find(Text.Lower(r[i - 1].text + r[i].text), t) == Some(|r[i - 1].text|)
    {
      assert r[i] == rest[i - 2] && r[i - 1] == rest[i - 3];
    }
  }

  /** `text.split(/(term)/gi)` with every captured piece marked: the text cut at the
      non-overlapping case-insensitive occurrences of `t`, which is already lower-cased. */
  function SplitMatches(text: string, t: string): seq<Piece>
    requires |t| > 0
  {
    SplitLowered(text, Text.Lower(text), t)
  }

  /** The cut of `text` at the occurrences of `t` in `low`, its lower-cased copy. */
  function SplitLowered(text: string, low: string, t: string): seq<Piece>
    requires |t| > 0 && |low| == |text|
    decreases |text|
  {
    match Text.Find(low, t)
    case None => [Plain(text)]
    case Some(k) =>
      [Plain(text[..k]), Marked(text[k..k + |t|])] + SplitLowered(text[k + |t|..], low[k + |t|..], t)
  }

  /** The pieces rebuild the text, alternate plain and marked, mark only the term, leave no
      occurrence of it in a plain piece and mark each leftmost occurrence. */
  lemma {:induction false} SplitMatchesPieces(text: string, t: string)
    requires |t| > 0
    ensures var r := SplitMatches(text, t);
            Flatten(r) == text && Alternating(r) && MarksTerm(r, t) && PlainAvoidsTerm(r, t)
            && LeftmostMarks(r, t)
  {
    SplitLoweredPieces(text, Text.Lower(text), t);
  }

  /** `low` is `text` lower-cased, position by position. */
  predicate LowerCopy(low: string, text: string) {
    |low| == |text| && forall k :: 0 <= k < |text| ==> low[k] == Text.LowerChar(text[k])
  }

  lemma {:induction false} LowerCopySlice(low: string, text: string, i: nat, j: nat)
    requires LowerCopy(low, text) && i <= j <= |text|
    ensures LowerCopy(low[i..j], text[i..j]) && Text.Lower(text[i..j]) == low[i..j]
  {
    assert forall k :: 0 <= k < j - i ==> low[i..j][k] == low[i + k] && text[i..j][k] == text[i + k];
  }

  /** What the first occurrence in the lower-cased copy says about the text around it. */
  lemma {:induction false} FirstOccurrence(text: string, low: string, t: string, k: nat)
    requires |t| > 0 && LowerCopy(low, text) && Text.Find(low, t) == Some(k)
    ensures k + |t| <= |text|
    ensures Text.Lower(text[k..k + |t|]) == t && !Text.Contains(Text.Lower(text[..k]), t)
    ensures LowerCopy(low[k + |t|..], text[k + |t|..])
  {
    LowerCopySlice(low, text, k, k + |t|);
    LowerCopySlice(low, text, 0, k);
    LowerCopySlice(low, text, k + |t|, |text|);
    NoneBeforeFirst(low, t, k);
    assert low[..k] == low[0..k] && text[..k] == text[0..k];
    assert low[k + |t|..] == low[k + |t|..|text|] && text[k + |t|..] == text[k + |t|..|text|];
  }

  /** The first occurrence is still the first one in the text read up to its end. */
  lemma {:induction false} FirstOccurrenceLeftmost(text: string, low: string, t: string, k: nat)
    requires |t| > 0 && LowerCopy(low, text) && Text.Find(low, t) == Some(k)
    ensures k + |t| <= |text|
    ensures Text.Find(Text.Lower(text[..k] + text[k..k + |t|]), t) == Some(k)
  {
    var n := k + |t|;
    assert text[..k] + text[k..n] == text[0..n];
    LowerCopySlice(low, text, 0, n);
    assert low[0..n] == low[..n];
    Text.FindPrefix(low, t, k, n);
  }

  lemma {:induction false} SplitLoweredStep(text: string, low: string, t: string, k: nat)
    requires |t| > 0 && |low| == |text| && Text.Find(low, t) == Some(k)
    ensures k + |t| <= |text|
    ensures SplitLowered(text, low, t)
            == [Plain(text[..k]), Marked(text[k..k + |t|])] + SplitLowered(text[k + |t|..], low[k + |t|..], t)
  {
  }

  lemma {:induction false} SplitLoweredPieces(text: string, low: string, t: string)
    requires |t| > 0 && LowerCopy(low, text)
    ensures var r := SplitLowered(text, low, t);
            Flatten(r) == text && Alternating(r) && MarksTerm(r, t) && PlainAvoidsTerm(r, t)
            && LeftmostMarks(r, t)
    decreases |text|
  {
    match Text.Find(low, t)
    case None =>
      LowerCopySlice(low, text, 0, |text|);
      assert text[0..|text|] == text && low[0..|text|] == low;
      assert Flatten([Plain(text)]) == text + [];
    case Some(k) =>
      var rest := text[k + |t|..];
      FirstOccurrence(text, low, t, k);
      SplitLoweredStep(text, low, t, k);
      SplitLoweredPieces(rest, low[k + |t|..], t);
      FirstOccurrenceLeftmost(text, low, t, k);
      PrefixPair(text[..k], text[k..k + |t|], SplitLowered(rest, low[k + |t|..], t), t);
      PrefixPairLeftmost(text[..k], text[k..k + |t|], SplitLowered(rest, low[k + |t|..], t), t);
      Text.Reassemble(text, k, k + |t|);
  }

  /** `highlightText(text, term)`: the text unchanged when either is empty, otherwise its pieces. */
  function HighlightText(text: string, term: string): (r: seq<Piece>)
    ensures Flatten(r) == text
    ensures Alternating(r)
    ensures term == [] || text == [] ==> r == [Plain(text)]
    ensures MarksTerm(r, Text.Lower(term))
    ensures term != [] ==> PlainAvoidsTerm(r, Text.Lower(term)) && LeftmostMarks(r, Text.Lower(term))
  {
    if term == [] || text == [] then
      assert Flatten([Plain(text)]) == text + [];
      [Plain(text)]
    else
      SplitMatchesPieces(text, Text.Lower(term));
      SplitMatches(text, Text.Lower(term))
  }

  /** The markup with every marked piece wrapped in `<mark>` tags. */
  function Render(ps: seq<Piece>): string {
    if |ps| == 0 then []
    else
      (match ps[0]
       case Plain(s) => s
       case Marked(s) => "<mark>" + s + "</mark>") + Render(ps[1..])
  }

  /** `rawMarkup.replace(/(term)/gi, '<mark>$1</mark>')`, untouched when the term is empty. */
  function MarkAll(markup: string, term: string): (r: string)
    ensures term != [] ==> r == Render(HighlightText(markup, term))
  {
    if term == [] then markup
    else
      if markup == [] then
        assert SplitMatches(markup, Text.Lower(term)) == [Plain(markup)];
        Render(SplitMatches(markup, Text.Lower(term)))
      else Render(SplitMatches(markup, Text.Lower(term)))
  }

  /** Markup holding no occurrence of the term, in any letter case, is returned unchanged. */
  lemma {:induction false} MarkAllNoMatch(markup: string, term: string)
    ensures !Text.Contains(Text.Lower(markup), Text.Lower(term)) ==> MarkAll(markup, term) == markup
  {
    if term != [] {
      assert Render([Plain(markup)]) == markup + [];
    }
  }

  /** Without upper-case letters, marking is the plain replacement of every occurrence of the term
      by the term wrapped in `<mark>` tags. */
  lemma {:induction false} MarkedPiecesAreReplace(markup: string, t: string)
    requires |t| > 0 && Text.Lower(markup) == markup
    ensures Render(SplitMatches(markup, t)) == Text.Replace(markup, t, "<mark>" + t + "</mark>")
  {
    RenderSelfSplit(markup, t);
  }

  /** Cutting a text at the occurrences found in itself and rendering is replacement. */
  lemma {:induction false} RenderSelfSplit(s: string, t: string)
    requires |t| > 0
    ensures Render(SplitLowered(s, s, t)) == Text.Replace(s, t, "<mark>" + t + "</mark>")
    decreases |s|
  {
    match Text.Find(s, t)
    case None =>
      assert Render([Plain(s)]) == s + [];
    case Some(k) =>
      var rest := s[k + |t|..];
      var tail := SplitLowered(rest, rest, t);
      SplitLoweredStep(s, s, t, k);
      assert s[k..k + |t|] == t;
      assert SplitLowered(s, s, t) == [Plain(s[..k]), Marked(t)] + tail;
      RenderSelfSplit(rest, t);
      Text.ReplaceFirst(s, t, "<mark>" + t + "</mark>", k);
      RenderPair(s[..k], t, tail);
  }

  lemma {:induction false} RenderPair(before: string, hit: string, rest: seq<Piece>)
    ensures Render([Plain(before), Marked(hit)] + rest) == before + ("<mark>" + hit + "</mark>") + Render(rest)
  {
    var ps := [Plain(before), Marked(hit)] + rest;
    assert ps[1..][1..] == rest;
  }

  lemma {:induction false} MarkAllIsReplace(markup: string, term: string)
    ensures term != [] && Text.Lower(term) == term && Text.Lower(markup) == markup ==>
              MarkAll(markup, term) == Text.Replace(markup, term, "<mark>" + term + "</mark>")
  {
    if term != [] && Text.Lower(term) == term && Text.Lower(markup) == markup {
      MarkedPiecesAreReplace(markup, term);
    }
  }
}

=== FILE: js.dfy ===
/** The loosely-typed analysis payload as the front end sees it after `JSON.parse`, together with
    the two JavaScript operations the field lookups are built from: optional chaining (`?.[k]`)
    and the short-circuit `||`. `None` stands for `undefined`. */
module Js {
  import opened Wrappers
  import Text

  /** A parsed JSON value. Numbers are integers in this model. */
  datatype Json =
    | JNull
    | JBool(b: bool)
    | JNum(n: int)
    | JStr(s: string)
    | JArr(items: seq<Json>)
    | JObj(fields: map<string, Json>)

  /** JavaScript truthiness. `undefined`, `null`, `false`, `0` and `""` are falsy; every array and
      every object, even an empty one, is truthy. */
  predicate Truthy(v: Option<Json>) {
    match v
    case None => false
    case Some(JNull) => false
    case Some(JBool(b)) => b
    case Some(JNum(n)) => n != 0
    case Some(JStr(s)) => s != []
    case Some(JArr(_)) => true
    case Some(JObj(_)) => true
  }

  /** `a || b`: the left operand when it is truthy, otherwise the right one, whatever it is. */
  function Or(a: Option<Json>, b: Option<Json>): (r: Option<Json>)
    ensures r == a || r == b
    ensures Truthy(r) <==> Truthy(a) || Truthy(b)
  {
    if Truthy(a) then a else b
  }

  /** `a || d` where `d` is a defined value, so the result is always defined. */
  function OrElse(a: Option<Json>, d: Json): (r: Json)
    ensures Truthy(a) ==> Some(r) == a
    ensures !Truthy(a) ==> r == d
  {
    if Truthy(a) then a.value else d
  }

  /** `v?.[key]` for a key that names neither an array index nor a built-in property (every key
      the mail client looks up is such a CJK label). Only objects carry such a key. */
  function Member(v: Option<Json>, key: string): (r: Option<Json>)
    ensures r.Some? <==> v.Some? && v.value.JObj? && key in v.value.fields
    ensures r.Some? ==> r.value == v.value.fields[key]
  {
    match v
    case Some(JObj(m)) => if key in m then Some(m[key]) else None
    case _ => None
  }

  /** `v?.[0]`: an array's first element, an object's `"0"` entry, a string's first character. */
  function First(v: Option<Json>): (r: Option<Json>)
    ensures v.Some? && v.value.JArr? ==> (r.Some? <==> |v.value.items| > 0)
    ensures v.Some? && v.value.JArr? && |v.value.items| > 0 ==> r == Some(v.value.items[0])
    ensures v.None? || v.value.JNull? || v.value.JBool? || v.value.JNum? ==> r.None?
  {
    match v
    case Some(JArr(items)) => if |items| > 0 then Some(items[0]) else None
    case Some(JObj(m)) => if "0" in m then Some(m["0"]) else None
    case Some(JStr(s)) => if |s| > 0 then Some(JStr([s[0]])) else None
    case _ => None
  }

  /** `String(v)`: how the front end turns a non-string value into text. Array elements that are
      `null` render as the empty string, as in `Array.prototype.join`. */
  function Display(v: Json): string {
    match v
    case JNull => "null"
    case JBool(b) => if b then "true" else "false"
    case JNum(n) => Text.IntToString(n)
    case JStr(s) => s
    case JArr(items) => DisplayItems(items)
    case JObj(_) => "[object Object]"
  }

  function DisplayItems(items: seq<Json>): string
    decreases items
  {
    if |items| == 0 then ""
    else
      var head := if items[0].JNull? then "" else Display(items[0]);
      if |items| == 1 then head else head + "," + DisplayItems(items[1..])
  }
}

=== FILE: mailbox.dfy ===
/** The mailbox view of the application shell: the email record, the three filter cycles, the
    conjunctive filter, year/month/day bucketing, and the replacement of an updated email in the
    visible lists. */
module Mailbox {
  import opened Wrappers
  import opened Js
  import Fields
  import Text

  /** One row of the email list as the front end receives it. */
  datatype Email = Email(
    id: int,
    subject: string,
    fromName: string,
    fromEmail: string,
    receivedDate: string,
    isRead: bool,
    isStarred: bool,
    rawBody: string,
    analysisMarkdown: string,
    analysis: Json)

  /** The fields a status request may carry; an absent field is not sent. */
  datatype StatusUpdate = StatusUpdate(isStarred: Option<bool>, isRead: Option<bool>)

  const All := "all"
  const UrgencyStates: seq<string> := [All, "高", "中", "低"]
  const ReadStates: seq<string> := [All, "unread", "read"]
  const StarredStates: seq<string> := [All, "starred"]

  predicate Distinct(xs: seq<string>) {
    forall i, j :: 0 <= i < j < |xs| ==> xs[i] != xs[j]
  }

  /** `Array.prototype.indexOf`: the first position of `x`, or -1. */
  function IndexOf(xs: seq<string>, x: string): (r: int)
    ensures -1 <= r < |xs|
    ensures r >= 0 ==> xs[r] == x && forall k :: 0 <= k < r ==> xs[k] != x
    ensures r == -1 <==> x !in xs
  {
    if |xs| == 0 then -1
    else if xs[0] == x then 0
    else
      var r := IndexOf(xs[1..], x);
      if r == -1 then -1 else r + 1
  }

  /** `states[(states.indexOf(s) + 1) % states.length]`: one press of a filter button. */
  function Cycle(states: seq<string>, s: string): string
    requires |states| > 0
  {
    states[(IndexOf(states, s) + 1) % |states|]
  }

  /** Pressing a filter button `k` times. */
  function Press(states: seq<string>, k: nat, s: string): string
    requires |states| > 0
  {
    if k == 0 then s else Press(states, k - 1, Cycle(states, s))
  }

  /** A value that is not in the cycle restarts it at its first state. */
  lemma {:induction false} CycleUnknownRestarts(states: seq<string>, s: string)
    requires |states| > 0 && s !in states
    ensures Cycle(states, s) == states[0]
  {
  }

  lemma {:induction false} ModBelow(x: nat, n: nat)
    requires x < n
    ensures x % n == x
  {
  }

  lemma {:induction false} ModOnce(x: nat, n: nat)
    requires n <= x < 2 * n
    ensures x % n == x - n
  {
  }

  lemma {:induction false} IndexOfDistinct(states: seq<string>, i: nat)
    requires Distinct(states) && i < |states|
    ensures IndexOf(states, states[i]) == i
  {
    assert states[i] in states;
  }

  /** One press moves from the `i`-th state to the next, wrapping after the last. */
  lemma {:induction false} CycleStep(states: seq<string>, i: nat)
    requires Distinct(states) && i < |states|
    ensures Cycle(states, states[i]) == states[if i + 1 < |states| then i + 1 else 0]
  {
    var n := |states|;
    IndexOfDistinct(states, i);
    if i + 1 < n { ModBelow(i + 1, n); } else { ModOnce(i + 1, n); }
    var j := (IndexOf(states, states[i]) + 1) % n;
    assert j == if i + 1 < n then i + 1 else 0;
  }

  /** From the `i`-th state, `k` presses reach the `(i + k) mod n`-th state, for any `k`. */
  lemma {:induction false} PressAdvances(states: seq<string>, i: nat, k: nat)
    requires Distinct(states) && i < |states|
    ensures Press(states, k, states[i]) == states[(i + k) % |states|]
    decreases k
  {
    var n := |states|;
    if k <= n {
      PressWraps(states, i, k);
      if i + k < n { ModBelow(i + k, n); } else { ModOnce(i + k, n); }
    } else {
      PressSplit(states, n, k - n, states[i]);
      PressWraps(states, i, n);
      PressAdvances(states, i, k - n);
      ModShift(i + k - n, n);
    }
  }

  /** Pressing `a + b` times is pressing `a` times, then `b` times. */
  lemma {:induction false} PressSplit(states: seq<string>, a: nat, b: nat, s: string)
    requires |states| > 0
    ensures Press(states, a + b, s) == Press(states, b, Press(states, a, s))
    decreases a
  {
    if a > 0 {
      PressStep(states, a + b, s);
      PressSplit(states, a - 1, b, Cycle(states, s));
    }
  }

  lemma {:induction false} ModShift(x: nat, n: nat)
    requires n > 0
    ensures (x + n) % n == x % n
  {
    var q, r := x / n, x % n;
    assert x == q * n + r;
    assert x + n == (q + 1) * n + r;
    ModUnique(x + n, n, q + 1, r);
  }

  /** The remainder is determined by any quotient-remainder split. */
  lemma {:induction false} ModUnique(y: int, n: int, q: int, r: int)
    requires n > 0 && 0 <= r < n && y == q * n + r
    ensures y % n == r
  {
    var q2, r2 := y / n, y % n;
    assert y == q2 * n + r2 && 0 <= r2 < n;
    assert q * n - q2 * n == (q - q2) * n;
    if q > q2 {
      MulAtLeast(q - q2, n);
    } else if q < q2 {
      assert q2 * n - q * n == (q2 - q) * n;
      MulAtLeast(q2 - q, n);
    }
  }

  lemma {:induction false} MulAtLeast(d: int, n: int)
    requires d >= 1 && n > 0
    ensures d * n >= n
    decreases d
  {
    if d > 1 {
      MulAtLeast(d - 1, n);
      assert d * n == (d - 1) * n + n;
    }
  }

  /** The same, with the wrap-around written out: at most one pass over the end. */
  lemma {:induction false} PressWraps(states: seq<string>, i: nat, k: nat)
    requires Distinct(states) && i < |states| && k <= |states|
    ensures Press(states, k, states[i]) == states[if i + k < |states| then i + k else i + k - |states|]
    decreases k
  {
    var n := |states|;
    if k > 0 {
      var i' := if i + 1 < n then i + 1 else 0;
      CycleStep(states, i);
      PressStep(states, k, states[i]);
      PressWraps(states, i', k - 1);
    }
  }

  lemma {:induction false} PressStep(states: seq<string>, k: nat, s: string)
    requires |states| > 0 && k > 0
    ensures Press(states, k, s) == Press(states, k - 1, Cycle(states, s))
  {
  }

  /** Every cycle has period exactly its length: `n` presses come back, fewer do not. */
  lemma {:induction false} CyclePeriod(states: seq<string>, i: nat, k: nat)
    requires Distinct(states) && i < |states|
    ensures Press(states, |states|, states[i]) == states[i]
    ensures 0 < k < |states| ==> Press(states, k, states[i]) != states[i]
  {
    var n := |states|;
    PressWraps(states, i, n);
    if 0 < k < n {
      PressWraps(states, i, k);
    }
  }

  /** The three buttons: all → 高 → 中 → 低 → all, all → unread → read → all, all → starred → all. */
  lemma {:induction false} FilterCycles()
    ensures Cycle(UrgencyStates, All) == "高" && Cycle(UrgencyStates, "高") == "中"
    ensures Cycle(UrgencyStates, "中") == "低" && Cycle(UrgencyStates, "低") == All
    ensures Cycle(ReadStates, All) == "unread" && Cycle(ReadStates, "unread") == "read"
    ensures Cycle(ReadStates, "read") == All
    ensures Cycle(StarredStates, All) == "starred" && Cycle(StarredStates, "starred") == All
    ensures Distinct(UrgencyStates) && Distinct(ReadStates) && Distinct(StarredStates)
  {
    UrgencyCycle();
    ReadCycle();
    StarredCycle();
  }

  lemma {:induction false} UrgencyCycle()
    ensures Distinct(UrgencyStates)
    ensures Cycle(UrgencyStates, All) == "高" && Cycle(UrgencyStates, "高") == "中"
    ensures Cycle(UrgencyStates, "中") == "低" && Cycle(UrgencyStates, "低") == All
  {
    assert "高"[0] != "中"[0] && "高"[0] != "低"[0] && "中"[0] != "低"[0];
    CycleStep(UrgencyStates, 0);
    CycleStep(UrgencyStates, 1);
    CycleStep(UrgencyStates, 2);
    CycleStep(UrgencyStates, 3);
  }

  lemma {:induction false} ReadCycle()
    ensures Distinct(ReadStates)
    ensures Cycle(ReadStates, All) == "unread" && Cycle(ReadStates, "unread") == "read"
    ensures Cycle(ReadStates, "read") == All
  {
    assert All[0] != "read"[0];
    CycleStep(ReadStates, 0);
    CycleStep(ReadStates, 1);
    CycleStep(ReadStates, 2);
  }

  lemma {:induction false} StarredCycle()
    ensures Distinct(StarredStates)
    ensures Cycle(StarredStates, All) == "starred" && Cycle(StarredStates, "starred") == All
  {
    assert All[0] != "starred"[0];
    CycleStep(StarredStates, 0);
    CycleStep(StarredStates, 1);
  }

  predicate MatchesUrgency(e: Email, f: string) {
    f == All || Fields.UrgencyValue(e.analysis) == Some(JStr(f))
  }

  predicate MatchesRead(e: Email, f: string) {
    f == All || (f == "read" && e.isRead) || (f == "unread" && !e.isRead)
  }

  predicate MatchesStarred(e: Email, f: string) {
    f == All || (f == "starred" && e.isStarred)
  }

  predicate Visible(e: Email, urgency: string, read: string, starred: string) {
    MatchesUrgency(e, urgency) && MatchesRead(e, read) && MatchesStarred(e, starred)
  }

  /** `filteredEmails`: the emails passing all three filters, in their original order. */
  function Filter(es: seq<Email>, urgency: string, read: string, starred: string): (r: seq<Email>)
    ensures |r| <= |es|
    ensures forall i :: 0 <= i < |r| ==> r[i] in es && Visible(r[i], urgency, read, starred)
    ensures urgency == All && read == All && starred == All ==> r == es
  {
    if |es| == 0 then []
    else
      var rest := Filter(es[..|es| - 1], urgency, read, starred);
      var last := es[|es| - 1];
      if Visible(last, urgency, read, starred) then rest + [last] else rest
  }

  /** The filtered list holds each visible email as often as the input does, and no other. */
  lemma {:induction false} FilterCounts(es: seq<Email>, u: string, r: string, s: string)
    ensures forall x :: multiset(Filter(es, u, r, s))[x] == if Visible(x, u, r, s) then multiset(es)[x] else 0
    decreases |es|
  {
    if |es| > 0 {
      var front := es[..|es| - 1];
      var last := es[|es| - 1];
      FilterCounts(front, u, r, s);
      FilterLast(es, u, r, s);
      FrontLast(es);
      KeptCounts(Filter(es, u, r, s), Filter(front, u, r, s), front, last, x => Visible(x, u, r, s));
    }
  }

  /** A non-empty list is its front followed by its last element. */
  lemma {:induction false} FrontLast<T>(xs: seq<T>)
    requires |xs| > 0
    ensures xs == xs[..|xs| - 1] + [xs[|xs| - 1]]
  {
  }

  /** The count step of a filter by any criterion: one more email, kept or not. */
  lemma {:induction false} KeptCounts(kept: seq<Email>, keptFront: seq<Email>, front: seq<Email>, last: Email, keep: Email -> bool)
    requires kept == keptFront + (if keep(last) then [last] else [])
    requires forall x :: multiset(keptFront)[x] == if keep(x) then multiset(front)[x] else 0
    ensures forall x :: multiset(kept)[x] == if keep(x) then multiset(front + [last])[x] else 0
  {
    var tail := if keep(last) then [last] else [];
    assert multiset(kept) == multiset(keptFront) + multiset(tail);
    assert multiset(front + [last]) == multiset(front) + multiset{last};
    forall x ensures multiset(kept)[x] == if keep(x) then multiset(front + [last])[x] else 0 {
      assert multiset(tail)[x] == if keep(x) then multiset{last}[x] else 0;
    }
  }

  /** Filtering distributes over concatenation: the result is an order-preserving subsequence. */
  lemma {:induction false} FilterAppend(a: seq<Email>, b: seq<Email>, u: string, r: string, s: string)
    ensures Filter(a + b, u, r, s) == Filter(a, u, r, s) + Filter(b, u, r, s)
    decreases |b|
  {
    if |b| == 0 {
      assert a + b == a;
    } else {
      var b' := b[..|b| - 1];
      var last := b[|b| - 1];
      var tail := if Visible(last, u, r, s) then [last] else [];
      assert (a + b)[..|a + b| - 1] == a + b';
      assert (a + b)[|a + b| - 1] == last;
      FilterAppend(a, b', u, r, s);
      FilterLast(a + b, u, r, s);
      FilterLast(b, u, r, s);
      assert Filter(a, u, r, s) + Filter(b', u, r, s) + tail == Filter(a, u, r, s) + (Filter(b', u, r, s) + tail);
    }
  }

  /** The filter of a list is the filter of all but its last email, then that email if visible. */
  lemma {:induction false} FilterLast(es: seq<Email>, u: string, r: string, s: string)
    requires |es| > 0
    ensures Filter(es, u, r, s)
            == Filter(es[..|es| - 1], u, r, s) + (if Visible(es[|es| - 1], u, r, s) then [es[|es| - 1]] else [])
  {
    var rest := Filter(es[..|es| - 1], u, r, s);
    assert rest + [] == rest;
  }

  /** Filtering by all three criteria is filtering by each one in turn. */
  lemma {:induction false} FilterConjunction(es: seq<Email>, u: string, r: string, s: string)
    ensures Filter(es, u, r, s) == Filter(Filter(Filter(es, u, All, All), All, r, All), All, All, s)
    decreases |es|
  {
    if |es| > 0 {
      FilterConjunction(es[..|es| - 1], u, r, s);
      var a := Filter(es[..|es| - 1], u, All, All);
      var b := Filter(a, All, r, All);
      var last := es[|es| - 1];
      if MatchesUrgency(last, u) {
        assert Filter(es, u, All, All) == a + [last];
        assert (a + [last])[..|a + [last]| - 1] == a;
        if MatchesRead(last, r) {
          assert Filter(a + [last], All, r, All) == b + [last];
          assert (b + [last])[..|b + [last]| - 1] == b;
        }
      }
    }
  }

  /** What the date parser yields: calendar year, zero-based month, day of month, in local time. */
  datatype LocalDate = LocalDate(year: int, monthIndex: int, day: int)

  /** A bucket key: year, one-based month, day. */
  datatype DayKey = DayKey(year: int, month: int, day: int)

  /** The bucket an email belongs to, or none when its date does not parse. */
  function BucketOf(parse: string -> Option<LocalDate>, e: Email): Option<DayKey> {
    match parse(e.receivedDate)
    case None => None
    case Some(d) => Some(DayKey(d.year, d.monthIndex + 1, d.day))
  }

  /** The emails of one bucket, in their original order. */
  function InBucket(es: seq<Email>, parse: string -> Option<LocalDate>, k: DayKey): seq<Email> {
    if |es| == 0 then []
    else
      var rest := InBucket(es[..|es| - 1], parse, k);
      if BucketOf(parse, es[|es| - 1]) == Some(k) then rest + [es[|es| - 1]] else rest
  }

  /** `groupedEmails`: every email pushed, in order, onto the list of its bucket. */
  function Group(es: seq<Email>, parse: string -> Option<LocalDate>): (r: map<DayKey, seq<Email>>)
    ensures forall k :: k in r ==> r[k] != []
    ensures forall k :: k in r ==> forall i :: 0 <= i < |r[k]| ==> r[k][i] in es && BucketOf(parse, r[k][i]) == Some(k)
  {
    if |es| == 0 then map[]
    else
      var g := Group(es[..|es| - 1], parse);
      var e := es[|es| - 1];
      match BucketOf(parse, e)
      case None => g
      case Some(k) => g[k := (if k in g then g[k] else []) + [e]]
  }

  /** Each bucket holds exactly the emails whose date parses to its key, in their original order,
      and there is a bucket for every parsed date and for nothing else. */
  lemma {:induction false} GroupIsBucketFilter(es: seq<Email>, parse: string -> Option<LocalDate>, k: DayKey)
    ensures k in Group(es, parse) <==> InBucket(es, parse, k) != []
    ensures k in Group(es, parse) ==> Group(es, parse)[k] == InBucket(es, parse, k)
    decreases |es|
  {
    if |es| > 0 {
      GroupIsBucketFilter(es[..|es| - 1], parse, k);
    }
  }

  /** An email is in the bucket of its own date, and in no other. */
  lemma {:induction false} BucketMembership(es: seq<Email>, parse: string -> Option<LocalDate>, k: DayKey, e: Email)
    requires e in es
    ensures e in InBucket(es, parse, k) <==> BucketOf(parse, e) == Some(k)
    decreases |es|
  {
    var init := es[..|es| - 1];
    var last := es[|es| - 1];
    assert es == init + [last];
    if e in init {
      BucketMembership(init, parse, k, e);
    } else {
      assert e == last;
      if BucketOf(parse, e) != Some(k) {
        InBucketContents(init, parse, k);
      }
    }
  }

  lemma {:induction false} InBucketContents(es: seq<Email>, parse: string -> Option<LocalDate>, k: DayKey)
    ensures forall x :: x in InBucket(es, parse, k) ==> x in es && BucketOf(parse, x) == Some(k)
    decreases |es|
  {
    if |es| > 0 {
      InBucketContents(es[..|es| - 1], parse, k);
    }
  }

  /** An email whose date does not parse is in no bucket. */
  lemma {:induction false} UnparseableInNoBucket(es: seq<Email>, parse: string -> Option<LocalDate>, e: Email)
    requires e in es && parse(e.receivedDate).None?
    ensures forall k :: k in Group(es, parse) ==> e !in Group(es, parse)[k]
  {
    forall k | k in Group(es, parse)
      ensures e !in Group(es, parse)[k]
    {
      GroupIsBucketFilter(es, parse, k);
      BucketMembership(es, parse, k, e);
    }
  }

  /** The year, month and day levels of the bucket tree. */
  function Years(g: map<DayKey, seq<Email>>): set<int> {
    set k | k in g :: k.year
  }

  function Months(g: map<DayKey, seq<Email>>, year: int): set<int> {
    set k | k in g && k.year == year :: k.month
  }

  function Days(g: map<DayKey, seq<Email>>, year: int, month: int): set<int> {
    set k | k in g && k.year == year && k.month == month :: k.day
  }

  /** `list.map(e => e.id === id ? updated : e)`. */
  function ReplaceById(list: seq<Email>, id: int, updated: Email): (r: seq<Email>)
    ensures |r| == |list|
    ensures forall i :: 0 <= i < |list| && list[i].id == id ==> r[i] == updated
    ensures forall i :: 0 <= i < |list| && list[i].id != id ==> r[i] == list[i]
  {
    if |list| == 0 then []
    else [if list[0].id == id then updated else list[0]] + ReplaceById(list[1..], id, updated)
  }

  /** The state an update response touches: the email list, the search results, the selection. */
  datatype View = View(emails: seq<Email>, searchResults: seq<Email>, selected: Option<Email>)

  /** A successful status or urgency update: the returned email replaces the one with the same
      id in both lists, and replaces the selection only when the ids match. */
  function ApplyUpdate(v: View, id: int, updated: Email): (r: View)
    ensures r.emails == ReplaceById(v.emails, id, updated)
    ensures r.searchResults == ReplaceById(v.searchResults, id, updated)
    ensures v.selected.Some? && v.selected.value.id == id ==> r.selected == Some(updated)
    ensures !(v.selected.Some? && v.selected.value.id == id) ==> r.selected == v.selected
  {
    View(ReplaceById(v.emails, id, updated), ReplaceById(v.searchResults, id, updated),
         if v.selected.Some? && v.selected.value.id == id then Some(updated) else v.selected)
  }

  /** An update for an id nobody holds changes nothing. */
  lemma {:induction false} ApplyUpdateUnknownId(v: View, id: int, updated: Email)
    requires forall e :: e in v.emails + v.searchResults ==> e.id != id
    requires v.selected.None? || v.selected.value.id != id
    ensures ApplyUpdate(v, id, updated) == v
  {
    var r := ApplyUpdate(v, id, updated);
    assert forall i :: 0 <= i < |v.emails| ==> v.emails[i] in v.emails + v.searchResults;
    assert forall i :: 0 <= i < |v.searchResults| ==> v.searchResults[i] in v.emails + v.searchResults;
    assert r.emails == v.emails;
    assert r.searchResults == v.searchResults;
  }

  /** The outcome of a status or urgency request: an HTTP response with its status and the
      email it carries, or a failure before any response (`fetch` rejects with a message). */
  datatype Reply = Response(status: int, email: Email) | NetworkError(message: string)

  /** The message `new Error(`HTTP 错误! 状态: ${status}`)` carries. */
  function HttpError(status: int): string {
    "HTTP 错误! 状态: " + Text.IntToString(status)
  }

  /** The part of the application state an update reply touches, with the loading flag and
      the error message that decide what the page shows. */
  datatype Screen = Screen(view: View, loading: bool, error: Option<string>)

  /** What the page renders: the loading note, the failure note, or the mailbox itself. */
  datatype Page = LoadingPage | ErrorPage(message: string) | MailboxPage(view: View)

  /** `if (loading) …; if (error) …;`: an empty error message is falsy and shows no failure. */
  function PageOf(s: Screen): (p: Page)
    ensures p.LoadingPage? <==> s.loading
    ensures p.ErrorPage? <==> !s.loading && s.error.Some? && s.error.value != []
    ensures p.ErrorPage? ==> p.message == s.error.value
    ensures p.MailboxPage? ==> p.view == s.view
  {
    if s.loading then LoadingPage
    else if s.error.Some? && s.error.value != [] then ErrorPage(s.error.value)
    else MailboxPage(s.view)
  }

  /** The `try`/`catch` around an update: a 2xx response applies the returned email; any other
      status throws the HTTP error, and a network failure throws its own message; the `catch`
      records the message and changes nothing else. */
  function OnUpdateReply(s: Screen, id: int, reply: Reply): (r: Screen)
    ensures reply.Response? && 200 <= reply.status <= 299 ==>
              r == s.(view := ApplyUpdate(s.view, id, reply.email))
    ensures reply.Response? && !(200 <= reply.status <= 299) ==>
              r == s.(error := Some(HttpError(reply.status)))
    ensures reply.NetworkError? ==> r == s.(error := Some(reply.message))
    ensures r.loading == s.loading
  {
    match reply
    case Response(status, email) =>
      if 200 <= status <= 299 then s.(view := ApplyUpdate(s.view, id, email))
      else s.(error := Some(HttpError(status)))
    case NetworkError(m) => s.(error := Some(m))
  }

  /** A rejected update replaces the whole page with the failure note, whatever was shown, and
      leaves the lists and the selection as they were. */
  lemma {:induction false} FailedUpdateShowsError(s: Screen, id: int, reply: Reply)
    requires !s.loading
    requires reply.Response? ==> !(200 <= reply.status <= 299)
    requires reply.NetworkError? ==> reply.message != []
    ensures OnUpdateReply(s, id, reply).view == s.view
    ensures PageOf(OnUpdateReply(s, id, reply))
            == ErrorPage(if reply.Response? then HttpError(reply.status) else reply.message)
  {
    if reply.Response? {
      assert |HttpError(reply.status)| > 0;
    }
  }

  /** A successful update with no error pending shows the mailbox with the returned email in
      place. */
  lemma {:induction false} SuccessfulUpdateShown(s: Screen, id: int, e: Email)
    requires !s.loading && (s.error.None? || s.error.value == [])
    ensures PageOf(OnUpdateReply(s, id, Response(200, e))) == MailboxPage(ApplyUpdate(s.view, id, e))
  {
  }

  /** `handleSelectEmail`: selecting an unread email first asks for it to be marked read; the
      selection is set either way. */
  function SelectEmail(e: Option<Email>): (r: (seq<(int, StatusUpdate)>, Option<Email>))
    ensures r.1 == e
    ensures |r.0| <= 1
    ensures |r.0| == 1 <==> e.Some? && !e.value.isRead
    ensures |r.0| == 1 ==> r.0[0] == (e.value.id, StatusUpdate(None, Some(true)))
  {
    if e.Some? && !e.value.isRead then ([(e.value.id, StatusUpdate(None, Some(true)))], e)
    else ([], e)
  }
}

=== FILE: organize.dfy ===
/** The maintenance pass over the stored emails: every email with analysis markdown has the
    markdown cleaned and the stored map parsed again from the cleaned text. */
module Organize {
  import opened Wrappers
  import Text
  import Parser
  import Seqs

  /** A stored email as the pass reads it: its id and its markdown column, which may be NULL. */
  datatype Row = Row(id: int, markdown: Option<string>)

  /** The write the pass issues for one email: the cleaned markdown and the map parsed from it. */
  datatype Update = Update(id: int, markdown: string, analysis: Parser.Analysis)

  /** An email is processed when its markdown is neither NULL nor empty. */
  predicate HasMarkdown(row: Row) {
    row.markdown.Some? && row.markdown.value != []
  }

  /** The processed emails, in their stored order, as (id, markdown) pairs. */
  function Processed(rows: seq<Row>): (r: seq<(int, string)>)
    ensures |r| <= |rows|
    decreases |rows|
  {
    if |rows| == 0 then []
    else
      var last := rows[|rows| - 1];
      Processed(rows[..|rows| - 1]) + (if HasMarkdown(last) then [(last.id, last.markdown.value)] else [])
  }

  /** The write for one processed email. */
  function UpdateFor(id: int, markdown: string, split: string -> seq<Parser.RawSection>): (r: Update)
    ensures r.id == id
    ensures r.analysis == Parser.ParseMarkdown(r.markdown, split)
    ensures Settled(r.markdown) ==> Parser.Cleanup(r.markdown) == r.markdown
  {
    var cleaned := Parser.Cleanup(markdown);
    var u := Update(id, cleaned, Parser.ParseMarkdown(cleaned, split));
    if Settled(cleaned) then
      Parser.CleanupKeepsCanonical(cleaned);
      u
    else u
  }

  /** The writes for a run of processed emails, one each, in order. */
  function Writes(ps: seq<(int, string)>, split: string -> seq<Parser.RawSection>): seq<Update> {
    Seqs.Map((p: (int, string)) => UpdateFor(p.0, p.1, split), ps)
  }

  /** `organize_database_entries`: one write per email with markdown, in order; emails without
      markdown are skipped. `split` stands for the regex split of the cleaned text into sections. */
  method OrganizeEntries(rows: seq<Row>, split: string -> seq<Parser.RawSection>) returns (updates: seq<Update>)
    ensures rows == [] ==> updates == []
    ensures |updates| == |Processed(rows)|
    ensures forall i :: 0 <= i < |updates| ==>
              updates[i] == UpdateFor(Processed(rows)[i].0, Processed(rows)[i].1, split)
  {
    updates := [];
    if |rows| == 0 {
      return;
    }
    var n := 0;
    while n < |rows|
      invariant 0 <= n <= |rows|
      invariant updates == Writes(Processed(rows[..n]), split)
    {
      WritesStep(rows, n, split);
      var row := rows[n];
      if row.markdown.Some? && row.markdown.value != [] {
        updates := updates + [UpdateFor(row.id, row.markdown.value, split)];
      }
      n := n + 1;
    }
    assert rows[..n] == rows;
  }

  lemma {:induction false} WritesStep(rows: seq<Row>, n: nat, split: string -> seq<Parser.RawSection>)
    requires n < |rows|
    ensures Writes(Processed(rows[..n + 1]), split)
            == Writes(Processed(rows[..n]), split)
               + (if HasMarkdown(rows[n]) then [UpdateFor(rows[n].id, rows[n].markdown.value, split)] else [])
  {
    ProcessedStep(rows, n);
    var f := (p: (int, string)) => UpdateFor(p.0, p.1, split);
    var extra := if HasMarkdown(rows[n]) then [(rows[n].id, rows[n].markdown.value)] else [];
    Seqs.MapAppend(f, Processed(rows[..n]), extra);
  }

  lemma {:induction false} ProcessedStep(rows: seq<Row>, n: nat)
    requires n < |rows|
    ensures Processed(rows[..n + 1])
            == Processed(rows[..n]) + (if HasMarkdown(rows[n]) then [(rows[n].id, rows[n].markdown.value)] else [])
  {
    assert rows[..n + 1][..n] == rows[..n];
  }

  /** Every processed email's id is one of the stored ids. */
  lemma {:induction false} ProcessedFromRows(rows: seq<Row>, i: nat)
    requires i < |Processed(rows)|
    ensures exists j :: 0 <= j < |rows| && rows[j].id == Processed(rows)[i].0
                        && rows[j].markdown == Some(Processed(rows)[i].1) && HasMarkdown(rows[j])
    decreases |rows|
  {
    var front := rows[..|rows| - 1];
    if i < |Processed(front)| {
      ProcessedFromRows(front, i);
      var j :| 0 <= j < |front| && front[j].id == Processed(front)[i].0
               && front[j].markdown == Some(Processed(front)[i].1) && HasMarkdown(front[j]);
      assert rows[j] == front[j];
    } else {
      assert rows[|rows| - 1].id == Processed(rows)[i].0;
    }
  }

  /** An email without markdown is never written, when ids are distinct as the table's primary
      key makes them. */
  lemma {:induction false} SkippedNotWritten(rows: seq<Row>, j: nat)
    requires j < |rows| && !HasMarkdown(rows[j])
    requires forall a, b :: 0 <= a < b < |rows| ==> rows[a].id != rows[b].id
    ensures forall i :: 0 <= i < |Processed(rows)| ==> Processed(rows)[i].0 != rows[j].id
  {
    forall i | 0 <= i < |Processed(rows)| ensures Processed(rows)[i].0 != rows[j].id {
      ProcessedFromRows(rows, i);
      var j2 :| 0 <= j2 < |rows| && rows[j2].id == Processed(rows)[i].0
                && rows[j2].markdown == Some(Processed(rows)[i].1) && HasMarkdown(rows[j2]);
      assert j2 != j;
    }
  }

  /** The rows as they read after the pass has written `updates`. */
  function Rewritten(updates: seq<Update>): (r: seq<Row>)
    ensures |r| == |updates|
    ensures forall i :: 0 <= i < |r| ==> r[i] == Row(updates[i].id, Some(updates[i].markdown))
  {
    seq(|updates|, i requires 0 <= i < |updates| => Row(updates[i].id, Some(updates[i].markdown)))
  }

  /** A markdown the pass leaves alone: it has the canonical summary header and no leading rule. */
  predicate Settled(md: string) {
    md != [] && Text.Contains(md, Parser.SummaryHeader) && !Text.StartsWith(Text.Strip(md), "---")
  }

  /** Running the pass again over its own output writes the same thing when every cleaned
      markdown is settled. */
  lemma {:induction false} SecondPassSame(rows: seq<Row>, split: string -> seq<Parser.RawSection>, updates: seq<Update>)
    requires |updates| == |Processed(rows)|
    requires forall i :: 0 <= i < |updates| ==>
               updates[i] == UpdateFor(Processed(rows)[i].0, Processed(rows)[i].1, split)
    requires forall i :: 0 <= i < |updates| ==> Settled(updates[i].markdown)
    ensures |Processed(Rewritten(updates))| == |updates|
    ensures forall i :: 0 <= i < |updates| ==>
              UpdateFor(Processed(Rewritten(updates))[i].0, Processed(Rewritten(updates))[i].1, split) == updates[i]
  {
    AllProcessed(updates);
    forall i | 0 <= i < |updates|
      ensures UpdateFor(Processed(Rewritten(updates))[i].0, Processed(Rewritten(updates))[i].1, split) == updates[i]
    {
      Parser.CleanupKeepsCanonical(updates[i].markdown);
    }
  }

  /** Rows that all have markdown are all processed, in order. */
  lemma {:induction false} AllProcessed(updates: seq<Update>)
    requires forall i :: 0 <= i < |updates| ==> updates[i].markdown != []
    ensures Processed(Rewritten(updates)) == seq(|updates|, i requires 0 <= i < |updates| => (updates[i].id, updates[i].markdown))
    decreases |updates|
  {
    if |updates| > 0 {
      var front := updates[..|updates| - 1];
      AllProcessed(front);
      assert Rewritten(updates)[..|updates| - 1] == Rewritten(front);
    }
  }
}

=== FILE: parser.dfy ===
/** The analysis markdown as the store reads it: the header rewrites and rule removal that clean
    it, and the parse of the cleaned text into sections of `key: value` entries. */
module Parser {
  import opened Wrappers
  import Text
  import Seqs

  // ---------------------------------------------------------------------------------------------
  // Cleanup

  const SummaryHeader := "### 邮件摘要"

  /** The header spellings rewritten to the canonical one, in the order they are rewritten. */
  const HeaderVariants: seq<string> := ["## 邮件摘要", "## 郵件摘要", "### 意见摘要"]

  /** The header rewrites, applied only when the canonical header is absent. */
  function NormaliseHeaders(md: string): (r: string)
    ensures Text.Contains(md, SummaryHeader) ==> r == md
    ensures (forall v :: v in HeaderVariants ==> !Text.Contains(md, v)) ==> r == md
  {
    if Text.Contains(md, SummaryHeader) then md
    else
      var a := Text.Replace(md, HeaderVariants[0], SummaryHeader);
      var b := Text.Replace(a, HeaderVariants[1], SummaryHeader);
      Text.Replace(b, HeaderVariants[2], SummaryHeader)
  }

  /** The cleanup shared by the parser and the reorganisation pass: header rewrites, then a
      leading `---` (after trimming) is dropped and the rest trimmed again. */
  function Cleanup(md: string): (r: string)
    ensures var t := Text.Strip(NormaliseHeaders(md));
            Text.StartsWith(t, "---") ==> AfterRuleIs(t, r) && |r| + 3 <= |NormaliseHeaders(md)|
    ensures !Text.StartsWith(Text.Strip(NormaliseHeaders(md)), "---") ==> r == NormaliseHeaders(md)
  {
    DropRule(NormaliseHeaders(md))
  }

  /** `r` is what follows the leading rule of the trimmed text `t`: a trimmed suffix of `t` with
      only whitespace between the rule and it. */
  predicate AfterRuleIs(t: string, r: string) {
    && |r| + 3 <= |t|
    && t[|t| - |r|..] == r
    && Text.AllSpace(t[3..|t| - |r|])
    && Text.Trimmed(r)
  }

  /** A text whose trimmed form opens with `---` loses the rule and whatever whitespace follows
      it; any other text is kept. */
  function DropRule(n: string): (r: string)
    ensures Text.StartsWith(Text.Strip(n), "---") ==> AfterRuleIs(Text.Strip(n), r) && |r| + 3 <= |n|
    ensures !Text.StartsWith(Text.Strip(n), "---") ==> r == n
  {
    var t := Text.Strip(n);
    if Text.StartsWith(t, "---") then
      AfterRule(t);
      Text.Strip(t[3..])
    else n
  }

  /** What follows a rule at the head of a trimmed text strips to a suffix of it, with only
      whitespace between the rule and that suffix. */
  lemma {:induction false} AfterRule(t: string)
    requires Text.Trimmed(t) && |t| >= 3
    ensures AfterRuleIs(t, Text.Strip(t[3..]))
  {
    var x := t[3..];
    assert x != [] ==> x[|x| - 1] == t[|t| - 1];
    Text.StripLeading(x);
    var r := Text.Strip(x);
    Seqs.SuffixSlices(t, 3, |x| - |r|);
  }

  /** A text that already has the canonical header and does not open with a rule is kept as is. */
  lemma {:induction false} CleanupKeepsCanonical(md: string)
    requires Text.Contains(md, SummaryHeader) && !Text.StartsWith(Text.Strip(md), "---")
    ensures Cleanup(md) == md
  {
  }

  /** `t` still occurs once text is put around it. */
  lemma {:induction false} ContainsWithin(a: string, core: string, b: string, t: string)
    requires Text.Contains(core, t)
    ensures Text.Contains(a + core + b, t)
  {
    var i :| 0 <= i <= |core| && Text.OccursAt(core, t, i);
    assert (a + core + b)[|a| + i..|a| + i + |t|] == core[i..i + |t|];
    assert Text.OccursAt(a + core + b, t, |a| + i);
  }

  /** The canonical header inside the text switches the rewrites off. */
  lemma {:induction false} RuledKeepsHeaders(pad: string, gap: string, core: string, tail: string)
    requires Text.Contains(core, SummaryHeader)
    ensures NormaliseHeaders(pad + "---" + gap + core + tail) == pad + "---" + gap + core + tail
  {
    assert pad + "---" + gap + core + tail == (pad + "---" + gap) + core + tail;
    ContainsWithin(pad + "---" + gap, core, tail, SummaryHeader);
  }

  /** Trimming, dropping the rule, and trimming again leaves the core. */
  lemma {:induction false} RuleStrips(pad: string, gap: string, core: string, tail: string)
    requires Text.AllSpace(pad) && Text.AllSpace(gap) && Text.AllSpace(tail)
    requires Text.Trimmed(core) && core != []
    ensures var md := pad + "---" + gap + core + tail;
            Text.Strip(md) == "---" + gap + core && Text.Strip(Text.Strip(md)[3..]) == core
  {
    var ruled := "---" + gap + core;
    RuleShape(pad, gap, core, tail);
    Text.StripPadded(pad, ruled, tail);
    Text.StripPadded(gap, core, []);
  }

  lemma {:induction false} RuleShape(pad: string, gap: string, core: string, tail: string)
    requires core != []
    ensures var ruled := "---" + gap + core;
            && ruled[0] == '-' && ruled[|ruled| - 1] == core[|core| - 1]
            && pad + "---" + gap + core + tail == pad + ruled + tail
            && ruled[3..] == gap + core + []
  {
    var ruled := "---" + gap + core;
    assert ruled[3..] == gap + core;
    Assoc(pad, "---", gap);
    Assoc(pad, "---" + gap, core);
  }

  lemma {:induction false} Assoc<T>(a: seq<T>, b: seq<T>, c: seq<T>)
    ensures a + b + c == a + (b + c)
  {
  }

  /** A leading rule with whitespace around it is dropped, and the text after it trimmed, for
      any text the header rewrites leave alone. */
  lemma {:induction false} CleanupDropsRule(pad: string, gap: string, core: string, tail: string)
    requires Text.AllSpace(pad) && Text.AllSpace(gap) && Text.AllSpace(tail)
    requires Text.Trimmed(core)
    requires NormaliseHeaders(pad + "---" + gap + core + tail) == pad + "---" + gap + core + tail
    ensures Cleanup(pad + "---" + gap + core + tail) == core
  {
    var md := pad + "---" + gap + core + tail;
    RuleThenCore(pad, gap, core, tail);
    assert Text.StartsWith(Text.Strip(md), "---");
  }

  /** The stripped text opens with the rule, and what follows the rule strips to the core. */
  lemma {:induction false} RuleThenCore(pad: string, gap: string, core: string, tail: string)
    requires Text.AllSpace(pad) && Text.AllSpace(gap) && Text.AllSpace(tail)
    requires Text.Trimmed(core)
    ensures var md := pad + "---" + gap + core + tail;
            |Text.Strip(md)| >= 3 && Text.Strip(md)[..3] == "---" && Text.Strip(Text.Strip(md)[3..]) == core
  {
    if core != [] {
      RuleStrips(pad, gap, core, tail);
      RuleOpens(gap, core);
    } else {
      RuleAloneCleans(pad, gap, tail);
    }
  }

  lemma {:induction false} RuleOpens(gap: string, core: string)
    ensures var t := "---" + gap + core; |t| >= 3 && t[..3] == "---"
  {
    var t := "---" + gap + core;
    assert t[..3] == "---";
  }

  lemma {:induction false} RuleAloneCleans(pad: string, gap: string, tail: string)
    requires Text.AllSpace(pad) && Text.AllSpace(gap) && Text.AllSpace(tail)
    ensures var md := pad + "---" + gap + [] + tail;
            Text.Strip(md) == "---" && Text.Strip(Text.Strip(md)[3..]) == []
  {
    var md := pad + "---" + gap + [] + tail;
    assert md == pad + "---" + (gap + tail);
    assert Text.AllSpace(gap + tail);
    RuleAlone(pad, gap + tail);
    assert "---"[3..] == [];
  }

  /** A rule with only whitespace around it strips to the rule. */
  lemma {:induction false} RuleAlone(pad: string, rest: string)
    requires Text.AllSpace(pad) && Text.AllSpace(rest)
    ensures Text.Strip(pad + "---" + rest) == "---"
  {
    Text.StripPadded(pad, "---", rest);
  }

  /** A text with the canonical header is left alone by the rewrites. */
  lemma {:induction false} CleanupDropsRuleCanonical(pad: string, gap: string, core: string, tail: string)
    requires Text.AllSpace(pad) && Text.AllSpace(gap) && Text.AllSpace(tail)
    requires Text.Trimmed(core) && Text.Contains(core, SummaryHeader)
    ensures Cleanup(pad + "---" + gap + core + tail) == core
  {
    RuledKeepsHeaders(pad, gap, core, tail);
    CleanupDropsRule(pad, gap, core, tail);
  }

  // ---------------------------------------------------------------------------------------------
  // Parsing the cleaned markdown

  /** One parsed entry: its `key: value` pairs. */
  type Item = map<string, string>

  /** The stored analysis: each section key mapped to the section's entries. */
  type Analysis = map<string, seq<Item>>

  /** A section as the section splitter hands it over: its title and the pieces the entry
      splitter cut its content into. Both splitters are regular expressions this model does not
      reproduce. */
  datatype RawSection = RawSection(title: string, pieces: seq<string>)

  /** `s.partition(':')`: the text before the first colon and the text after it; the whole text
      and nothing when there is no colon. */
  function Partition(s: string): (r: (string, string))
    ensures forall k :: 0 <= k < |r.0| ==> r.0[k] != ':'
    ensures Text.Contains(s, ":") ==> r.0 + ":" + r.1 == s
    ensures !Text.Contains(s, ":") ==> r == (s, [])
  {
    match Text.Find(s, ":")
    case None =>
      assert forall k :: 0 <= k < |s| ==> s[k] != ':' by {
        forall k | 0 <= k < |s| ensures s[k] != ':' {
          assert s[k..k + 1] == [s[k]];
          assert !Text.OccursAt(s, ":", k);
        }
      }
      (s, [])
    case Some(i) =>
      forall k | 0 <= k < i ensures s[k] != ':' {
        assert s[k..k + 1] == [s[k]];
        assert !Text.OccursAt(s, ":", k);
      }
      assert s[..i] + ":" + s[i + 1..] == s by {
        assert s[i..i + 1] == ":";
      }
      (s[..i], s[i + 1..])
  }

  /** A later line of an entry defines `key` when, stripped, it holds a colon and the text
      before that colon, stripped, is `key`. */
  predicate Defines(line: string, key: string) {
    var l := Text.Strip(line);
    Text.Contains(l, ":") && Text.Strip(Partition(l).0) == key
  }

  /** No line of `lines` defines `key`. */
  predicate NoneDefines(lines: seq<string>, key: string) {
    forall l :: l in lines ==> !Defines(l, key)
  }

  /** The value a defining line gives its key. */
  function ValueOf(line: string): string {
    Text.Strip(Partition(Text.Strip(line)).1)
  }

  /** One later line: when, stripped, it holds a colon, the pair it defines is added or
      overwritten. */
  function SubLine(item: Item, line: string): Item {
    var l := Text.Strip(line);
    if Text.Contains(l, ":") then item[Text.Strip(Partition(l).0) := ValueOf(line)] else item
  }

  /** A line sets the key it defines to its value and leaves every other key as it was. */
  lemma {:induction false} SubLineEffect(item: Item, line: string, key: string)
    ensures Defines(line, key) ==> key in SubLine(item, line) && SubLine(item, line)[key] == ValueOf(line)
    ensures !Defines(line, key) ==> (key in SubLine(item, line) <==> key in item)
    ensures !Defines(line, key) && key in item ==> SubLine(item, line)[key] == item[key]
  {
  }

  /** The later lines of an entry, each one that holds a colon adding or overwriting a pair. */
  function SubLines(item: Item, lines: seq<string>): Item
    decreases |lines|
  {
    if |lines| == 0 then item else SubLines(SubLine(item, lines[0]), lines[1..])
  }

  /** A key is present exactly when it was already there or some line defines it. */
  lemma {:induction false} SubLinesKeys(item: Item, lines: seq<string>, key: string)
    ensures key in SubLines(item, lines) <==> key in item || exists i :: 0 <= i < |lines| && Defines(lines[i], key)
    decreases |lines|
  {
    if |lines| > 0 {
      var item' := SubLine(item, lines[0]);
      SubLinesKeys(item', lines[1..], key);
      SubLineEffect(item, lines[0], key);
      assert key in item' <==> key in item || Defines(lines[0], key);
      if exists i :: 0 <= i < |lines| && Defines(lines[i], key) {
        var i :| 0 <= i < |lines| && Defines(lines[i], key);
        if i > 0 {
          assert lines[1..][i - 1] == lines[i];
        }
      }
      if exists i :: 0 <= i < |lines| - 1 && Defines(lines[1..][i], key) {
        var i :| 0 <= i < |lines| - 1 && Defines(lines[1..][i], key);
        assert lines[i + 1] == lines[1..][i];
      }
    }
  }

  /** The later lines can be read in two runs. */
  lemma {:induction false} SubLinesAppend(item: Item, a: seq<string>, b: seq<string>)
    ensures SubLines(item, a + b) == SubLines(SubLines(item, a), b)
    decreases |a|
  {
    if |a| > 0 {
      assert (a + b)[0] == a[0];
      assert (a + b)[1..] == a[1..] + b;
      SubLinesAppend(SubLine(item, a[0]), a[1..], b);
    } else {
      assert a + b == b;
    }
  }

  /** The last line defining a key gives its value. */
  lemma {:induction false} SubLinesLastWins(item: Item, lines: seq<string>, i: nat, key: string)
    requires i < |lines| && Defines(lines[i], key)
    requires NoneDefines(lines[i + 1..], key)
    ensures key in SubLines(item, lines) && SubLines(item, lines)[key] == ValueOf(lines[i])
  {
    var before, from := lines[..i], lines[i..];
    assert lines == before + from;
    SubLinesAppend(item, before, from);
    var item' := SubLines(item, before);
    assert from[0] == lines[i] && from[1..] == lines[i + 1..];
    SubLineEffect(item', from[0], key);
    SubLinesUntouched(SubLine(item', from[0]), from[1..], key);
  }

  /** A key no line defines keeps the value it had. */
  lemma {:induction false} SubLinesUntouched(item: Item, lines: seq<string>, key: string)
    requires key in item
    requires NoneDefines(lines, key)
    ensures key in SubLines(item, lines) && SubLines(item, lines)[key] == item[key]
    decreases |lines|
  {
    if |lines| > 0 {
      SubLineEffect(item, lines[0], key);
      assert forall l :: l in lines[1..] ==> l in lines;
      SubLinesUntouched(SubLine(item, lines[0]), lines[1..], key);
    }
  }

  /** One entry: its first line split at the first colon into a stripped key and value, then
      its later lines. */
  function ParseEntry(entry: string): (r: Item)
    ensures var first := Partition(Text.Split(entry, "\n")[0]);
            Text.Strip(first.0) in r
  {
    var lines := Text.Split(entry, "\n");
    var first := Partition(lines[0]);
    var item := map[Text.Strip(first.0) := Text.Strip(first.1)];
    SubLinesKeys(item, lines[1..], Text.Strip(first.0));
    SubLines(item, lines[1..])
  }

  /** An entry is its first pair followed by its later lines. */
  lemma {:induction false} ParseEntryLater(entry: string, head: string, later: seq<string>)
    requires Text.Split(entry, "\n") == [head] + later
    ensures var first := Partition(head);
            ParseEntry(entry) == SubLines(map[Text.Strip(first.0) := Text.Strip(first.1)], later)
  {
    var lines := Text.Split(entry, "\n");
    assert lines[0] == head && lines[1..] == later;
  }

  /** The first line's key keeps the first line's stripped value when no later line sets it. */
  lemma {:induction false} ParseEntryFirstKey(entry: string, head: string, later: seq<string>)
    requires Text.Split(entry, "\n") == [head] + later
    requires NoneDefines(later, Text.Strip(Partition(head).0))
    ensures ParseEntry(entry)[Text.Strip(Partition(head).0)] == Text.Strip(Partition(head).1)
  {
    var first := Partition(head);
    var key := Text.Strip(first.0);
    ParseEntryLater(entry, head, later);
    SubLinesUntouched(map[key := Text.Strip(first.1)], later, key);
  }

  /** A later line that sets the first line's key again wins when it is the last to set it. */
  lemma {:induction false} ParseEntryKeySetAgain(entry: string, head: string, later: seq<string>, i: nat)
    requires Text.Split(entry, "\n") == [head] + later
    requires i < |later| && Defines(later[i], Text.Strip(Partition(head).0))
    requires NoneDefines(later[i + 1..], Text.Strip(Partition(head).0))
    ensures ParseEntry(entry)[Text.Strip(Partition(head).0)] == ValueOf(later[i])
  {
    var first := Partition(head);
    var key := Text.Strip(first.0);
    var item := map[key := Text.Strip(first.1)];
    ParseEntryLater(entry, head, later);
    SubLinesLastWins(item, later, i, key);
  }

  /** An entry of one line without a colon becomes its text as a key with an empty value. */
  lemma {:induction false} LoneLineEntry(entry: string)
    requires !Text.Contains(entry, "\n") && !Text.Contains(entry, ":")
    ensures ParseEntry(entry) == map[Text.Strip(entry) := []]
  {
    OneLineEntry(entry);
    var blank: string := [];
    Text.StripTrimmed(blank);
  }

  /** An entry of one line is just its first pair. */
  lemma {:induction false} OneLineEntry(entry: string)
    requires !Text.Contains(entry, "\n")
    ensures var first := Partition(entry);
            ParseEntry(entry) == map[Text.Strip(first.0) := Text.Strip(first.1)]
  {
    var lines := Text.Split(entry, "\n");
    assert lines == [entry];
    assert lines[1..] == [];
  }

  /** The non-blank texts of `xs`, in order. */
  function NonBlank(xs: seq<string>): (r: seq<string>)
    ensures |r| <= |xs|
    ensures forall i :: 0 <= i < |r| ==> r[i] != [] && r[i] in xs
    ensures forall x :: x in xs && x != [] ==> x in r
  {
    if |xs| == 0 then []
    else
      var rest := NonBlank(xs[1..]);
      assert forall x :: x in xs[1..] ==> x in xs;
      assert forall x :: x in xs ==> x == xs[0] || x in xs[1..];
      if xs[0] != [] then [xs[0]] + rest else rest
  }

  /** Keeping the non-blank texts commutes with joining lists, so they keep their order. */
  lemma {:induction false} NonBlankAppend(a: seq<string>, b: seq<string>)
    ensures NonBlank(a + b) == NonBlank(a) + NonBlank(b)
    decreases |a|
  {
    if |a| > 0 {
      assert (a + b)[1..] == a[1..] + b;
      NonBlankAppend(a[1..], b);
    } else {
      assert a + b == b;
    }
  }

  /** `[e.strip() for e in entries if e.strip()]`. */
  function EntryTexts(pieces: seq<string>): (r: seq<string>)
    ensures |r| <= |pieces|
    ensures forall i :: 0 <= i < |r| ==> r[i] != [] && Text.Trimmed(r[i])
    ensures forall i :: 0 <= i < |r| ==> exists m :: 0 <= m < |pieces| && r[i] == Text.Strip(pieces[m])
    ensures forall m :: 0 <= m < |pieces| && Text.Strip(pieces[m]) != [] ==> Text.Strip(pieces[m]) in r
  {
    var stripped := Seqs.Map(Text.Strip, pieces);
    var r := NonBlank(stripped);
    assert forall i :: 0 <= i < |r| ==> exists m :: 0 <= m < |pieces| && r[i] == stripped[m];
    r
  }

  /** One piece gives its stripped text, or nothing when that is blank. */
  lemma {:induction false} EntryTextsOne(p: string)
    ensures EntryTexts([p]) == (if Text.Strip(p) == [] then [] else [Text.Strip(p)])
  {
    assert Seqs.Map(Text.Strip, [p]) == [Text.Strip(p)];
    NonBlankOne(Text.Strip(p));
  }

  lemma {:induction false} NonBlankOne(x: string)
    ensures NonBlank([x]) == (if x == [] then [] else [x])
  {
    assert [x][1..] == [];
  }

  /** The comprehension commutes with joining piece lists: the entries keep the pieces' order. */
  lemma {:induction false} EntryTextsAppend(a: seq<string>, b: seq<string>)
    ensures EntryTexts(a + b) == EntryTexts(a) + EntryTexts(b)
  {
    Seqs.MapAppend(Text.Strip, a, b);
    NonBlankAppend(Seqs.Map(Text.Strip, a), Seqs.Map(Text.Strip, b));
  }

  /** The entries of a section, parsed in order. */
  function Items(pieces: seq<string>): seq<Item> {
    var es := EntryTexts(pieces);
    seq(|es|, i requires 0 <= i < |es| => ParseEntry(es[i]))
  }

  /** The section key: the title stripped and lower-cased, spaces replaced by underscores. */
  function SectionKey(title: string): (r: string)
    ensures |r| == |Text.Strip(title)|
    ensures forall k :: 0 <= k < |r| ==> r[k] == Underscored(Text.LowerChar(Text.Strip(title)[k]))
    ensures forall k :: 0 <= k < |r| ==> r[k] != ' '
  {
    Text.ReplaceChar(Text.Lower(Text.Strip(title)), ' ', '_');
    Text.Replace(Text.Lower(Text.Strip(title)), " ", "_")
  }

  /** A space turned into an underscore; any other character kept. */
  function Underscored(c: char): (d: char)
    ensures d != ' '
  {
    if c == ' ' then '_' else c
  }

  /** The sections' keys, in order. */
  function Keys(ss: seq<RawSection>): (r: seq<string>)
    ensures |r| == |ss| && forall i :: 0 <= i < |ss| ==> r[i] == SectionKey(ss[i].title)
  {
    Seqs.Map(KeyOf, ss)
  }

  function KeyOf(s: RawSection): string {
    SectionKey(s.title)
  }

  lemma {:induction false} KeysStep(ss: seq<RawSection>)
    requires |ss| > 0
    ensures Keys(ss) == Keys(ss[..|ss| - 1]) + [SectionKey(ss[|ss| - 1].title)]
  {
    var front, last := ss[..|ss| - 1], ss[|ss| - 1];
    assert ss == front + [last];
    Seqs.MapAppend(KeyOf, front, [last]);
    assert Seqs.Map(KeyOf, [last]) == [KeyOf(last)];
  }

  /** The sections, in order, each assigning its key; a later section with the same key
      replaces an earlier one. */
  function Sections(ss: seq<RawSection>): (r: Analysis)
    ensures forall key :: key in r <==> key in Keys(ss)
    decreases |ss|
  {
    if |ss| == 0 then map[]
    else
      var front := ss[..|ss| - 1];
      var last := ss[|ss| - 1];
      var rest := Sections(front);
      KeysStep(ss);
      rest[SectionKey(last.title) := Items(last.pieces)]
  }

  /** The value under a key is the entries of the last section with that key. */
  lemma {:induction false} LastSectionWins(ss: seq<RawSection>, i: nat)
    requires i < |ss|
    requires forall m :: i < m < |ss| ==> SectionKey(ss[m].title) != SectionKey(ss[i].title)
    ensures Sections(ss)[SectionKey(ss[i].title)] == Items(ss[i].pieces)
    decreases |ss|
  {
    if i < |ss| - 1 {
      var front := ss[..|ss| - 1];
      assert front[i] == ss[i];
      LastSectionWins(front, i);
    }
  }

  /** `parse_markdown_to_json`: an empty text gives the empty map; otherwise the cleaned text is
      split into sections (`split` stands for the section and entry splitters) and parsed. */
  function ParseMarkdown(md: string, split: string -> seq<RawSection>): (r: Analysis)
    ensures md == [] ==> r == map[]
    ensures md != [] ==> forall key :: key in r <==> key in Keys(split(Cleanup(md)))
  {
    if md == [] then map[] else Sections(split(Cleanup(md)))
  }
}

=== FILE: processor.dfy ===
/** Preparing an email for the language model: which image links are kept, how data URIs
    (section 3 of RFC 2397) are normalised, and the single user message that carries the
    email's metadata, text and images. */
module Processor {
  import opened Wrappers
  import Text

  // ---------------------------------------------------------------------------------------------
  // Image links

  /** A path names a GIF when, lower-cased, it ends in `.gif`. */
  predicate IsGif(path: string) {
    Text.EndsWith(Text.Lower(path), ".gif")
  }

  /** A link whose URL path parses (`pathOf` gives `None` where `urllib.parse.urlparse` raises,
      as it does for a malformed IPv6 host) and does not name a GIF. */
  predicate Keeps(pathOf: string -> Option<string>, u: string) {
    pathOf(u).Some? && !IsGif(pathOf(u).value)
  }

  /** The `img` element at `i` carries a link whose parse raises. */
  predicate RaisesAt(sources: seq<Option<string>>, pathOf: string -> Option<string>, i: nat)
    requires i < |sources|
  {
    sources[i].Some? && pathOf(sources[i].value).None?
  }

  /** The `src` attributes of the `img` elements, in document order, that are kept: those whose URL
      path parses and is not a GIF. `pathOf` stands for `urllib.parse.urlparse(url).path`, which
      leaves the query and fragment out. */
  function KeptImages(sources: seq<Option<string>>, pathOf: string -> Option<string>): (r: seq<string>)
    ensures |r| <= |sources|
    ensures forall k :: 0 <= k < |r| ==> pathOf(r[k]).Some? && !IsGif(pathOf(r[k]).value)
    decreases |sources|
  {
    if |sources| == 0 then []
    else
      (match sources[0]
       case Some(u) => if Keeps(pathOf, u) then [u] else []
       case None => [])
      + KeptImages(sources[1..], pathOf)
  }

  /** Keeping images commutes with splitting the document: the kept links keep document order. */
  lemma {:induction false} KeptImagesAppend(a: seq<Option<string>>, b: seq<Option<string>>, pathOf: string -> Option<string>)
    ensures KeptImages(a + b, pathOf) == KeptImages(a, pathOf) + KeptImages(b, pathOf)
    decreases |a|
  {
    if |a| > 0 {
      assert (a + b)[1..] == a[1..] + b;
      KeptImagesAppend(a[1..], b, pathOf);
    } else {
      assert a + b == b;
    }
  }

  /** A link is kept exactly when some `img` carries it and its path parses and is not a GIF. */
  lemma {:induction false} KeptImagesMembers(sources: seq<Option<string>>, pathOf: string -> Option<string>, u: string)
    ensures u in KeptImages(sources, pathOf) <==> Some(u) in sources && Keeps(pathOf, u)
    decreases |sources|
  {
    if |sources| > 0 {
      KeptImagesMembers(sources[1..], pathOf, u);
      assert sources == [sources[0]] + sources[1..];
    }
  }

  /** The position of the first `img` whose link fails to parse, if any. */
  function FirstRaise(sources: seq<Option<string>>, pathOf: string -> Option<string>): (r: Option<nat>)
    ensures r.None? <==> forall i :: 0 <= i < |sources| ==> !RaisesAt(sources, pathOf, i)
    ensures r.Some? ==> r.value < |sources| && RaisesAt(sources, pathOf, r.value)
                        && forall i :: 0 <= i < r.value ==> !RaisesAt(sources, pathOf, i)
    decreases |sources|
  {
    if |sources| == 0 then None
    else if RaisesAt(sources, pathOf, 0) then Some(0)
    else
      match FirstRaise(sources[1..], pathOf)
      case None =>
        assert forall i :: 1 <= i < |sources| ==> (RaisesAt(sources, pathOf, i) <==> RaisesAt(sources[1..], pathOf, i - 1));
        None
      case Some(j) =>
        assert forall i :: 1 <= i < |sources| ==> (RaisesAt(sources, pathOf, i) <==> RaisesAt(sources[1..], pathOf, i - 1));
        assert RaisesAt(sources, pathOf, j + 1);
        Some(j + 1)
  }

  /** What `process_email_for_chatgpt` returns. */
  datatype Extracted = Extracted(text: string, imageUrls: seq<string>)

  /** `process_email_for_chatgpt`: nothing for empty HTML; otherwise the kept image links and the
      extracted text (`text` stands for the HTML parser's paragraph text). A link whose parse
      raises ends the `try`: the text stays empty and only the links kept before it are returned. */
  function ProcessEmail(html: string, sources: seq<Option<string>>, pathOf: string -> Option<string>, text: string): (r: Extracted)
    ensures html == [] ==> r == Extracted([], [])
    ensures html != [] && FirstRaise(sources, pathOf).None? ==>
              r.text == text && forall u :: u in r.imageUrls <==> Some(u) in sources && Keeps(pathOf, u)
    ensures html != [] && FirstRaise(sources, pathOf).Some? ==>
              var j := FirstRaise(sources, pathOf).value;
              r.text == [] && forall u :: u in r.imageUrls <==> Some(u) in sources[..j] && Keeps(pathOf, u)
  {
    if html == [] then Extracted([], [])
    else
      var upto := match FirstRaise(sources, pathOf) case None => |sources| case Some(j) => j;
      assert sources[..upto] == sources || FirstRaise(sources, pathOf).Some?;
      assert forall u :: u in KeptImages(sources[..upto], pathOf) <==> Some(u) in sources[..upto] && Keeps(pathOf, u) by {
        forall u ensures u in KeptImages(sources[..upto], pathOf) <==> Some(u) in sources[..upto] && Keeps(pathOf, u) {
          KeptImagesMembers(sources[..upto], pathOf, u);
        }
      }
      Extracted(if FirstRaise(sources, pathOf).None? then text else [], KeptImages(sources[..upto], pathOf))
  }

  /** A link that fails to parse loses the text and every link after it, even ones that would be
      kept. */
  lemma {:induction false} RaiseDropsText(html: string, before: seq<Option<string>>, bad: string, after: seq<Option<string>>,
                                          pathOf: string -> Option<string>, text: string)
    requires html != [] && pathOf(bad).None?
    requires forall i :: 0 <= i < |before| ==> !RaisesAt(before, pathOf, i)
    ensures ProcessEmail(html, before + [Some(bad)] + after, pathOf, text)
            == Extracted([], KeptImages(before, pathOf))
  {
    var s := before + [Some(bad)] + after;
    assert forall i :: 0 <= i < |before| ==> (RaisesAt(s, pathOf, i) <==> RaisesAt(before, pathOf, i));
    assert RaisesAt(s, pathOf, |before|);
    FirstRaiseIs(s, pathOf, |before|);
    assert s[..|before|] == before;
  }

  /** The first raising position is the one with a raise and none before it. */
  lemma {:induction false} FirstRaiseIs(sources: seq<Option<string>>, pathOf: string -> Option<string>, j: nat)
    requires j < |sources| && RaisesAt(sources, pathOf, j)
    requires forall i :: 0 <= i < j ==> !RaisesAt(sources, pathOf, i)
    ensures FirstRaise(sources, pathOf) == Some(j)
  {
  }

  // ---------------------------------------------------------------------------------------------
  // Data URIs

  /** `s.split(c)[0]`: the text before the first `c`, or all of it. */
  function Upto(s: string, c: char): (r: string)
    ensures |r| <= |s| && r == s[..|r|]
    ensures forall k :: 0 <= k < |r| ==> r[k] != c
    ensures |r| < |s| ==> s[|r|] == c
  {
    if |s| == 0 || s[0] == c then [] else [s[0]] + Upto(s[1..], c)
  }

  /** The text before the first `c` keeps any prefix that has no `c`. */
  lemma {:induction false} UptoKeepsPrefix(s: string, c: char, pre: string)
    requires Text.StartsWith(s, pre) && Free(pre, c)
    ensures Text.StartsWith(Upto(s, c), pre)
  {
  }

  /** `Upto` stops at the first `c`, so it is determined by the text up to there. */
  lemma {:induction false} UptoOf(x: string, c: char, rest: string)
    requires Free(x, c)
    ensures Upto(x, c) == x
    ensures Upto(x + [c] + rest, c) == x
    decreases |x|
  {
    if |x| > 0 {
      UptoOf(x[1..], c, rest);
      assert (x + [c] + rest)[1..] == x[1..] + [c] + rest;
      assert [x[0]] + x[1..] == x;
    }
  }

  /** Characters that cannot occur in a MIME type as the rewrite extracts it. */
  predicate PlainMime(m: string) {
    forall k :: 0 <= k < |m| ==> m[k] != ':' && m[k] != ';' && m[k] != ','
  }

  /** The image URL as it is sent: a `data:image` URI is rebuilt as `data:<mime>;base64,<data>`,
      its mime type taken between the first `:` and the next `:` or `;` of the part before the
      first comma, and such a URI without a comma raises; any other URL is sent as it is. */
  function CleanUrl(url: string): (r: Result<string, string>)
    ensures !Text.StartsWith(url, "data:image") ==> r == Success(url)
    ensures r.Failure? <==> Text.StartsWith(url, "data:image") && forall k :: 0 <= k < |url| ==> url[k] != ','
  {
    if Text.StartsWith(url, "data:image") then
      var header := Upto(url, ',');
      if |header| == |url| then Failure("not enough values to unpack")
      else
        var data := url[|header| + 1..];
        var p := Upto(header, ';');
        Success("data:" + Mime(p) + ";base64," + data)
    else Success(url)
  }

  /** `p.split(':')[1]` for a `p` that has a colon. */
  function Mime(p: string): (m: string)
    ensures PlainColonFree(m)
  {
    var head := Upto(p, ':');
    if |head| < |p| then Upto(p[|head| + 1..], ':') else []
  }

  predicate PlainColonFree(m: string) {
    forall k :: 0 <= k < |m| ==> m[k] != ':'
  }

  predicate Free(s: string, c: char) {
    forall k :: 0 <= k < |s| ==> s[k] != c
  }

  lemma {:induction false} FreeConcat(a: string, b: string, c: char)
    requires Free(a, c) && Free(b, c)
    ensures Free(a + b, c)
  {
    assert forall k :: |a| <= k < |a + b| ==> (a + b)[k] == b[k - |a|];
  }

  /** The rebuilt URI from its three pieces: the part before the comma, the part of that before
      the first `;`, and the data after the comma. */
  lemma {:induction false} CleanUrlOf(url: string, header: string, p: string, data: string)
    requires Text.StartsWith(url, "data:image")
    requires Free(header, ',') && url == header + [','] + data
    requires p == Upto(header, ';')
    ensures CleanUrl(url) == Success("data:" + Mime(p) + ";base64," + data)
  {
    UptoOf(header, ',', data);
    assert url[|header| + 1..] == data;
  }

  /** The mime type of `data:<mime>...` when `mime` has no colon. */
  lemma {:induction false} MimeOf(mime: string)
    requires Free(mime, ':')
    ensures Mime("data:" + mime) == mime
  {
    assert "data:" + mime == "data" + [':'] + mime;
    UptoOf("data", ':', mime);
    assert ("data:" + mime)[5..] == mime;
    UptoOf(mime, ':', []);
    assert mime + [':'] + [] == mime + [':'];
  }

  /** A data URI with any parameters is rebuilt with just its mime type and `;base64`. */
  lemma {:induction false} CleanDataUri(mime: string, params: string, payload: string)
    requires Text.StartsWith(mime, "image") && PlainMime(mime)
    requires params == [] || params[0] == ';'
    requires Free(params, ',')
    ensures CleanUrl("data:" + mime + params + "," + payload) == Success("data:" + mime + ";base64," + payload)
  {
    var head := "data:" + mime;
    var header := head + params;
    assert Free(head, ',') by {
      FreeConcat("data:", mime, ',');
    }
    FreeConcat(head, params, ',');
    assert ("data:" + mime + params + "," + payload)[..10] == "data:image";
    if params == [] {
      assert header == head;
      UptoOf(head, ';', []);
    } else {
      assert header == head + [';'] + params[1..];
      UptoOf(head, ';', params[1..]);
    }
    assert "data:" + mime + params + "," + payload == header + [','] + payload;
    CleanUrlOf("data:" + mime + params + "," + payload, header, head, payload);
    MimeOf(mime);
  }

  /** Rebuilding is idempotent: a rebuilt URI is rebuilt to itself. */
  lemma {:induction false} CleanUrlIdempotent(url: string)
    requires CleanUrl(url).Success?
    ensures CleanUrl(CleanUrl(url).value) == CleanUrl(url)
  {
    if Text.StartsWith(url, "data:image") {
      var m, data := RebuiltParts(url);
      Literals();
      CleanDataUri(m, ";base64", data);
      Base64Comma(m, data);
    }
  }

  lemma {:induction false} Base64Comma(m: string, data: string)
    ensures "data:" + m + ";base64" + "," + data == "data:" + m + ";base64," + data
  {
    assert ";base64" + "," == ";base64,";
  }

  /** A text holding `c` is the part before its first `c`, the `c`, and the rest. */
  lemma {:induction false} UptoCut(s: string, c: char)
    requires exists k :: 0 <= k < |s| && s[k] == c
    ensures |Upto(s, c)| < |s| && s == Upto(s, c) + [c] + s[|Upto(s, c)| + 1..]
  {
    var n := |Upto(s, c)|;
    assert s == s[..n] + [s[n]] + s[n + 1..];
  }

  /** A rebuilt URI is `data:<mime>;base64,<data>` for an image mime type without separators. */
  lemma {:induction false} RebuiltParts(url: string) returns (m: string, data: string)
    requires CleanUrl(url).Success? && Text.StartsWith(url, "data:image")
    ensures CleanUrl(url) == Success("data:" + m + ";base64," + data)
    ensures Text.StartsWith(m, "image") && PlainMime(m)
  {
    Literals();
    var header := Upto(url, ',');
    var p := Upto(header, ';');
    data := url[|header| + 1..];
    UptoCut(url, ',');
    CleanUrlOf(url, header, p, data);
    UptoKeepsPrefix(url, ',', "data:image");
    UptoKeepsPrefix(header, ';', "data:image");
    m := Mime(p);
    MimeIsImage(p, header);
  }

  /** The mime type read from a `data:image` header is an image type without separators. */
  lemma {:induction false} MimeIsImage(p: string, header: string)
    requires Text.StartsWith(p, "data:image") && Free(header, ',') && p == Upto(header, ';')
    ensures Text.StartsWith(Mime(p), "image") && PlainMime(Mime(p))
  {
    Literals();
    SplitPrefix(p, "data:", "image");
    var q := p[5..];
    MimeAfterData(p, q);
    FreeUpto(header, ';', ',');
    FreeUpto(header, ';', ';');
    FreeTail(p, ';', 5);
    FreeTail(p, ',', 5);
    ImageType(q);
  }

  lemma {:induction false} SplitPrefix(s: string, a: string, b: string)
    requires Text.StartsWith(s, a + b)
    ensures Text.StartsWith(s, a) && Text.StartsWith(s[|a|..], b) && s == a + s[|a|..]
  {
    assert s[..|a|] == (a + b)[..|a|] == a;
    assert s[|a|..][..|b|] == (a + b)[|a|..] == b;
  }

  /** `split(':')[1]` of a text starting `data:` is what follows, up to the next colon. */
  lemma {:induction false} MimeAfterData(p: string, q: string)
    requires p == "data:" + q
    ensures Mime(p) == Upto(q, ':')
  {
    Literals();
    assert p == "data" + [':'] + q;
    UptoOf("data", ':', q);
    assert p[|"data"| + 1..] == q;
  }

  lemma {:induction false} ImageType(q: string)
    requires Text.StartsWith(q, "image") && Free(q, ';') && Free(q, ',')
    ensures Text.StartsWith(Upto(q, ':'), "image") && PlainMime(Upto(q, ':'))
  {
    FreeUpto(q, ':', ';');
    FreeUpto(q, ':', ',');
    Literals();
    UptoKeepsPrefix(q, ':', "image");
  }

  /** The separators the literals of the rewrite do and do not contain. */
  lemma {:induction false} Literals()
    ensures Free("image", ':') && Free("data", ':') && |"data"| == 4
    ensures Free("data:image", ',') && Free("data:image", ';') && "data:image" == "data:" + "image"
    ensures Free(";base64", ',') && ";base64"[0] == ';' && |"data:"| == 5
  {
    assert "image"[0] == 'i' && "image"[1] == 'm' && "image"[2] == 'a' && "image"[3] == 'g' && "image"[4] == 'e';
    assert "data"[0] == 'd' && "data"[1] == 'a' && "data"[2] == 't' && "data"[3] == 'a';
  }

  lemma {:induction false} FreeUpto(s: string, c: char, d: char)
    requires Free(s, d) || c == d
    ensures Free(Upto(s, c), d)
  {
    if c != d {
      FreePrefix(s, d, |Upto(s, c)|);
    }
  }

  lemma {:induction false} FreePrefix(s: string, c: char, n: nat)
    requires Free(s, c) && n <= |s|
    ensures Free(s[..n], c)
  {
    assert forall k :: 0 <= k < n ==> s[..n][k] == s[k];
  }

  lemma {:induction false} FreeTail(s: string, c: char, n: nat)
    requires Free(s, c) && n <= |s|
    ensures Free(s[n..], c)
  {
    assert forall k :: 0 <= k < |s| - n ==> s[n..][k] == s[n + k];
  }

  // ---------------------------------------------------------------------------------------------
  // The message

  datatype Part = TextPart(text: string) | ImagePart(url: string, detail: string)

  datatype Message = Message(role: string, content: seq<Part>)

  /** The header lines put before the email text. */
  function Metadata(from: string, subject: string, date: string): string {
    "发件人: " + from + "\n主题: " + subject + "\n日期: " + date + "\n\n"
  }

  /** One image part per link, in order, or the first failure. */
  function ImageParts(urls: seq<string>): (r: Result<seq<Part>, string>)
    ensures r.Success? <==> forall i :: 0 <= i < |urls| ==> CleanUrl(urls[i]).Success?
    ensures r.Success? ==> |r.value| == |urls|
    ensures r.Success? ==> forall i :: 0 <= i < |urls| ==> r.value[i] == ImagePart(CleanUrl(urls[i]).value, "auto")
    decreases |urls|
  {
    if |urls| == 0 then Success([])
    else
      match CleanUrl(urls[0])
      case Failure(e) => Failure(e)
      case Success(u) =>
        match ImageParts(urls[1..])
        case Failure(e) => Failure(e)
        case Success(rest) => Success([ImagePart(u, "auto")] + rest)
  }

  /** `format_for_chatgpt_messages`: exactly one user message, whose first part is the text (the
      metadata and the text, or empty when there is no text) and then one part per image. */
  function FormatMessages(from: string, subject: string, date: string, text: string, urls: seq<string>)
    : (r: Result<seq<Message>, string>)
    ensures r.Success? <==> forall i :: 0 <= i < |urls| ==> CleanUrl(urls[i]).Success?
    ensures r.Success? ==> |r.value| == 1 && r.value[0].role == "user"
    ensures r.Success? ==> var parts := r.value[0].content;
              && |parts| == |urls| + 1
              && parts[0] == TextPart(if text == [] then [] else Metadata(from, subject, date) + text)
              && forall i :: 0 <= i < |urls| ==> parts[i + 1] == ImagePart(CleanUrl(urls[i]).value, "auto")
  {
    var first := TextPart(if text == [] then [] else Metadata(from, subject, date) + text);
    match ImageParts(urls)
    case Failure(e) => Failure(e)
    case Success(images) =>
      assert forall i :: 0 <= i < |images| ==> ([first] + images)[i + 1] == images[i];
      Success([Message("user", [first] + images)])
  }

  /** The email text is recovered from the text part by dropping the metadata lines. */
  lemma {:induction false} TextRecoverable(from: string, subject: string, date: string, text: string, urls: seq<string>)
    requires FormatMessages(from, subject, date, text, urls).Success?
    ensures var t := FormatMessages(from, subject, date, text, urls).value[0].content[0].text;
            text == (if t == [] then [] else t[|Metadata(from, subject, date)|..])
  {
    var m := Metadata(from, subject, date);
    assert |m| > 0 by {
      assert m[0] == '发';
    }
  }
}

=== FILE: query.dfy ===
/** The search bar: the highlight term taken from a query, the field-prefix suggestions, and
    which of its four dropdown states the bar shows. */
module Query {
  import opened Wrappers
  import Text
  import Mailbox

  /** Splitting at a separator that occurs gives at least two pieces, and the pieces after the
      first, joined again, are the text after the separator's first occurrence. */
  lemma {:induction false} TailAfterFirst(q: string, sep: string)
    requires |sep| > 0
    ensures Text.Find(q, sep).None? ==> Text.Split(q, sep) == [q]
    ensures Text.Find(q, sep).Some? ==>
              var k := Text.Find(q, sep).value;
              |Text.Split(q, sep)| > 1 && Text.Join(Text.Split(q, sep)[1..], sep) == q[k + |sep|..]
  {
    var f := Text.Find(q, sep);
    if f.Some? {
      SplitTail(q, sep, f.value);
    } else {
      assert !Text.Contains(q, sep);
    }
  }

  lemma {:induction false} SplitTail(q: string, sep: string, k: nat)
    requires |sep| > 0 && Text.Find(q, sep) == Some(k)
    ensures |Text.Split(q, sep)| > 1 && Text.Join(Text.Split(q, sep)[1..], sep) == q[k + |sep|..]
  {
    var rest := q[k + |sep|..];
    var tail := Text.Split(rest, sep);
    Text.SplitFirst(q, sep, k);
    assert ([q[..k]] + tail)[1..] == tail;
    Text.JoinSplit(rest, sep);
  }

  /** `getHighlightTerm`, shared by the search bar and the detail view: empty for an empty query,
      otherwise everything after the first colon, or the whole query when it has none. */
  function HighlightTerm(q: string): (r: string)
    ensures Text.Find(q, ":").None? ==> r == q
    ensures Text.Find(q, ":").Some? ==> r == q[Text.Find(q, ":").value + 1..]
  {
    if q == [] then []
    else
      var parts := Text.Split(q, ":");
      TailAfterFirst(q, ":");
      if |parts| > 1 then Text.Join(parts[1..], ":") else parts[0]
  }

  /** Only the first colon separates the field from the term; later colons belong to the term. */
  lemma {:induction false} HighlightKeepsLaterColons(field: string, term: string)
    requires !Text.Contains(field, ":")
    ensures HighlightTerm(field + ":" + term) == term
  {
    var q := field + ":" + term;
    assert Text.OccursAt(q, ":", |field|);
    assert Text.Contains(q, ":");
    var k := Text.Find(q, ":").value;
    if k < |field| {
      assert Text.OccursAt(field, ":", k);
    }
    assert q[|field| + 1..] == term;
  }

  /** The declared search prefixes, in the order the dropdown lists them. */
  const Prefixes: seq<string> := ["/from:", "/subject:", "/body:", "/analysis:"]

  /** The typed field: the text before the first colon, lower-cased. */
  function InputPrefix(v: string): (r: string)
    ensures Text.Find(v, ":").None? ==> r == Text.Lower(v)
    ensures Text.Find(v, ":").Some? ==> r == Text.Lower(v[..Text.Find(v, ":").value])
  {
    match Text.Find(v, ":")
    case None => Text.Lower(Text.Split(v, ":")[0])
    case Some(k) =>
      Text.SplitFirst(v, ":", k);
      Text.Lower(Text.Split(v, ":")[0])
  }

  /** The prefixes, in order, whose lower-case form starts with `pre`. */
  function KeepMatching(ps: seq<string>, pre: string): (r: seq<string>)
    ensures |r| <= |ps|
    ensures forall p :: p in r <==> p in ps && Text.StartsWith(Text.Lower(p), pre)
  {
    if |ps| == 0 then []
    else (if Text.StartsWith(Text.Lower(ps[0]), pre) then [ps[0]] else []) + KeepMatching(ps[1..], pre)
  }

  /** `handleInputChange`: suggestions appear only for input that starts with a slash. */
  function Suggestions(v: string): (r: seq<string>)
    ensures !Text.StartsWith(v, "/") ==> r == []
    ensures forall p :: p in r <==>
              Text.StartsWith(v, "/") && p in Prefixes && Text.StartsWith(Text.Lower(p), InputPrefix(v))
  {
    if Text.StartsWith(v, "/") then KeepMatching(Prefixes, InputPrefix(v)) else []
  }

  /** Keeping distributes over concatenation: the kept prefixes are listed in declared order. */
  lemma {:induction false} KeepMatchingAppend(a: seq<string>, b: seq<string>, pre: string)
    ensures KeepMatching(a + b, pre) == KeepMatching(a, pre) + KeepMatching(b, pre)
    decreases |a|
  {
    if |a| == 0 {
      assert a + b == b;
    } else {
      assert (a + b)[0] == a[0];
      assert (a + b)[1..] == a[1..] + b;
      KeepMatchingAppend(a[1..], b, pre);
      var h: seq<string> := if Text.StartsWith(Text.Lower(a[0]), pre) then [a[0]] else [];
      assert h + (KeepMatching(a[1..], pre) + KeepMatching(b, pre))
             == h + KeepMatching(a[1..], pre) + KeepMatching(b, pre);
    }
  }

  /** When every prefix matches, all of them are kept, in declared order. */
  lemma {:induction false} KeepMatchingAll(ps: seq<string>, pre: string)
    requires forall k :: 0 <= k < |ps| ==> Text.StartsWith(Text.Lower(ps[k]), pre)
    ensures KeepMatching(ps, pre) == ps
    decreases |ps|
  {
    if |ps| > 0 {
      KeepMatchingAll(ps[1..], pre);
      assert [ps[0]] + ps[1..] == ps;
    }
  }

  /** A lone slash offers every prefix, in declared order. */
  lemma {:induction false} SlashOffersAll()
    ensures Suggestions("/") == Prefixes
  {
    assert Text.Find("/", ":").None? by {
      assert "/"[0..1] == ['/'];
      assert !Text.OccursAt("/", ":", 0);
    }
    assert Text.Lower("/")[0] == '/';
    assert InputPrefix("/") == "/";
    forall k | 0 <= k < |Prefixes|
      ensures Text.StartsWith(Text.Lower(Prefixes[k]), "/")
    {
      assert Prefixes[k][0] == '/';
      assert Text.Lower(Prefixes[k])[..1] == ['/'];
    }
    KeepMatchingAll(Prefixes, "/");
  }

  /** The text the search bar holds and the suggestions it lists. */
  datatype SearchBox = SearchBox(query: string, suggestions: seq<string>)

  /** Typing sets the query and recomputes the suggestions. */
  function OnInput(v: string): (b: SearchBox)
    ensures b.query == v
    ensures forall p :: p in b.suggestions ==> p in Prefixes && Text.StartsWith(v, "/")
  {
    SearchBox(v, Suggestions(v))
  }

  /** `handleSuggestionClick`: the query becomes the prefix and the suggestions close. */
  function OnSuggestionClick(prefix: string): (b: SearchBox)
    ensures b.query == prefix && b.suggestions == []
  {
    SearchBox(prefix, [])
  }

  /** A query that is just a field prefix highlights nothing. */
  lemma {:induction false} PrefixAloneHighlightsNothing(field: string)
    requires !Text.Contains(field, ":")
    ensures HighlightTerm(OnSuggestionClick(field + ":").query) == []
  {
    HighlightKeepsLaterColons(field, []);
    assert field + ":" + [] == field + ":";
  }

  /** What the dropdown under the search bar shows. */
  datatype Dropdown =
    | Hidden
    | SearchingNote
    | SuggestionList(prefixes: seq<string>)
    | ResultList(results: seq<Mailbox.Email>)
    | NoMatchNote

  /** The dropdown is shown while focused with a non-empty query; then a running search wins over
      suggestions, suggestions over results, and an empty result list shows the no-match note. */
  function ShowDropdown(focused: bool, b: SearchBox, searching: bool, results: seq<Mailbox.Email>): (d: Dropdown)
    ensures d.Hidden? <==> !focused || b.query == []
    ensures d.SearchingNote? <==> focused && b.query != [] && searching
    ensures d.SuggestionList? <==> focused && b.query != [] && !searching && b.suggestions != []
    ensures d.SuggestionList? ==> d.prefixes == b.suggestions
    ensures d.ResultList? ==> d.results == results && results != []
    ensures d.NoMatchNote? <==>
              focused && b.query != [] && !searching && b.suggestions == [] && results == []
  {
    if !focused || b.query == [] then Hidden
    else if searching then SearchingNote
    else if |b.suggestions| > 0 then SuggestionList(b.suggestions)
    else if |results| > 0 then ResultList(results)
    else NoMatchNote
  }

  /** The sender line of a result: the display name, or the address when the name is empty. */
  function SenderLine(e: Mailbox.Email): (r: string)
    ensures e.fromName != [] ==> r == e.fromName
    ensures e.fromName == [] ==> r == e.fromEmail
    ensures r == [] <==> e.fromName == [] && e.fromEmail == []
  {
    if e.fromName != [] then e.fromName else e.fromEmail
  }
}

=== FILE: seqs.dfy ===
/** Generic facts about sequences that several modules use. */
module Seqs {
  /** `f` applied to each element, in order. */
  function Map<A, B>(f: A -> B, xs: seq<A>): (r: seq<B>)
    ensures |r| == |xs|
    ensures forall i :: 0 <= i < |xs| ==> r[i] == f(xs[i])
  {
    seq(|xs|, i requires 0 <= i < |xs| => f(xs[i]))
  }

  lemma {:induction false} MapAppend<A, B>(f: A -> B, xs: seq<A>, ys: seq<A>)
    ensures Map(f, xs + ys) == Map(f, xs) + Map(f, ys)
  {
    var l, r := Map(f, xs + ys), Map(f, xs) + Map(f, ys);
    forall i | 0 <= i < |l|
      ensures l[i] == r[i]
    {
      if i < |xs| {
        assert (xs + ys)[i] == xs[i];
      } else {
        assert (xs + ys)[i] == ys[i - |xs|];
      }
    }
  }

  /** Slices of a suffix are slices of the whole. */
  lemma {:induction false} SuffixSlices<T>(t: seq<T>, d: nat, k: nat)
    requires d + k <= |t|
    ensures t[d..][k..] == t[d + k..] && t[d..][..k] == t[d..d + k]
  {
  }
}

=== FILE: session.dfy ===
/** `handleSync` in the application shell: the log buffer and stream handle of one sync, driven by
    the lines the event stream delivers. */
module SyncSession {
  import opened Wrappers
  import Text
  import SyncStream

  const SuccessMarker := "--- 同步成功完成！---"
  const ConnectionLost := "--- 连接错误，同步中断 ---"

  /** Where the session stands; once it leaves `Active` the stream is closed and no further event
      reaches the handlers. */
  datatype Status = Idle | Active | Completed | Errored | Disconnected

  /** The shell state the handlers touch: the log, the stream status, whether the log is shown,
      how many reloads of the email list were issued, the selected email's id, and whether the
      delayed hiding of the log has been scheduled. */
  datatype Shell = Shell(
    log: seq<string>,
    status: Status,
    logVisible: bool,
    reloads: nat,
    selected: Option<int>,
    hideScheduled: bool)

  function Initial(): Shell {
    Shell([], Idle, false, 0, None, false)
  }

  /** Starting a sync empties the log, shows it, and opens the stream. */
  function Start(s: Shell): (r: Shell)
    ensures r.log == [] && r.status == Active && r.logVisible
    ensures r.reloads == s.reloads && r.selected == s.selected
  {
    s.(log := [], status := Active, logVisible := true)
  }

  /** `eventSource.onmessage` for one line. */
  function OnMessage(s: Shell, line: string): (r: Shell)
    ensures s.status != Active ==> r == s
    ensures s.status == Active ==> |r.log| == |s.log| + 1 && r.log[..|s.log|] == s.log
    ensures s.status == Active && Text.StartsWith(line, "ERROR:") ==>
              r.log[|s.log|] == line && r.status == Errored && r.reloads == s.reloads && r.selected == s.selected
    ensures s.status == Active && line == SyncStream.Complete ==>
              r.log[|s.log|] == SuccessMarker && r.status == Completed && r.reloads == s.reloads + 1
              && r.selected.None? && r.hideScheduled
    ensures s.status == Active && !SyncStream.IsTerminal(line) ==> r == s.(log := s.log + [line])
  {
    if s.status != Active then s
    else if Text.StartsWith(line, "ERROR:") then
      assert line != SyncStream.Complete by { assert line[0] == 'E'; }
      s.(log := s.log + [line], status := Errored)
    else if line == SyncStream.Complete then
      s.(log := s.log + [SuccessMarker], status := Completed, reloads := s.reloads + 1,
         selected := None, hideScheduled := true)
    else s.(log := s.log + [line])
  }

  /** `eventSource.onerror`: the connection-lost marker, and the stream is closed. */
  function OnTransportError(s: Shell): (r: Shell)
    ensures s.status != Active ==> r == s
    ensures s.status == Active ==> r == s.(log := s.log + [ConnectionLost], status := Disconnected)
  {
    if s.status != Active then s else s.(log := s.log + [ConnectionLost], status := Disconnected)
  }

  /** The lines of one stream, handled in arrival order. */
  function Feed(s: Shell, lines: seq<string>): Shell
    decreases |lines|
  {
    if |lines| == 0 then s else Feed(OnMessage(s, lines[0]), lines[1..])
  }

  /** The log only grows, and at most one reload is issued however many lines arrive. */
  lemma {:induction false} FeedGrowsLog(s: Shell, lines: seq<string>)
    ensures |s.log| <= |Feed(s, lines).log| && Feed(s, lines).log[..|s.log|] == s.log
    ensures Feed(s, lines).reloads <= s.reloads + (if s.status == Active then 1 else 0)
    ensures s.status != Active ==> Feed(s, lines) == s
    decreases |lines|
  {
    if |lines| > 0 {
      var t := OnMessage(s, lines[0]);
      FeedGrowsLog(t, lines[1..]);
      assert t.log[..|s.log|] == s.log;
      assert Feed(s, lines).log[..|t.log|][..|s.log|] == Feed(s, lines).log[..|s.log|];
    }
  }

  /** What the log shows for a delivered line: the sentinel is replaced by the success marker. */
  function Shown(line: string): string {
    if line == SyncStream.Complete then SuccessMarker else line
  }

  /** A stream whose only terminal line is its last leaves every line in the log, the sentinel
      shown as the success marker, and reloads exactly when that last line is the sentinel. */
  lemma {:induction false} FeedUntilTerminal(s: Shell, lines: seq<string>)
    requires s.status == Active && |lines| >= 1
    requires OnlyLastTerminal(lines)
    requires SyncStream.IsTerminal(lines[|lines| - 1])
    ensures Feed(s, lines).log == s.log + lines[..|lines| - 1] + [Shown(lines[|lines| - 1])]
    ensures Feed(s, lines).status == (if lines[|lines| - 1] == SyncStream.Complete then Completed else Errored)
    ensures Feed(s, lines).reloads == s.reloads + (if lines[|lines| - 1] == SyncStream.Complete then 1 else 0)
    ensures lines[|lines| - 1] == SyncStream.Complete ==>
              Feed(s, lines).selected.None? && Feed(s, lines).hideScheduled
    ensures lines[|lines| - 1] != SyncStream.Complete ==> Feed(s, lines).selected == s.selected
    decreases |lines|
  {
    var last := lines[|lines| - 1];
    var t := OnMessage(s, lines[0]);
    if |lines| == 1 {
      assert last == lines[0];
      assert Feed(s, lines) == Feed(t, []);
    } else {
      assert !SyncStream.IsTerminal(lines[0]);
      assert t == s.(log := s.log + [lines[0]]);
      assert OnlyLastTerminal(lines[1..]) by {
        assert forall i :: 0 <= i < |lines| - 2 ==> lines[1..][i] == lines[i + 1];
      }
      FeedUntilTerminal(t, lines[1..]);
      ConsFront(lines);
      LogRegroup(s.log, lines[0], lines[1..][..|lines| - 2], Shown(last));
    }
  }

  /** The front of a list of two or more is its head, then the front of its tail. */
  lemma {:induction false} ConsFront<T>(xs: seq<T>)
    requires |xs| >= 2
    ensures xs[..|xs| - 1] == [xs[0]] + xs[1..][..|xs| - 2] && xs[1..][|xs| - 2] == xs[|xs| - 1]
  {
  }

  lemma {:induction false} LogRegroup<T>(log: seq<T>, x: T, mid: seq<T>, y: T)
    ensures log + [x] + mid + [y] == log + ([x] + mid) + [y]
  {
  }

  predicate Quiet(run: SyncStream.Run) {
    forall i :: 0 <= i < |run.output| ==> !SyncStream.IsTerminal(Text.Strip(run.output[i]))
  }

  predicate NoneTerminal(a: seq<string>) {
    forall i :: 0 <= i < |a| ==> !SyncStream.IsTerminal(a[i])
  }

  /** No line before the last one ends the stream. */
  predicate OnlyLastTerminal(a: seq<string>) {
    forall i :: 0 <= i < |a| - 1 ==> !SyncStream.IsTerminal(a[i])
  }

  lemma {:induction false} MarkersNotTerminal(name: string)
    ensures !SyncStream.IsTerminal(SyncStream.StartMarker(name))
    ensures !SyncStream.IsTerminal(SyncStream.DoneMarker(name))
  {
    assert SyncStream.StartMarker(name)[0] == '-';
    assert SyncStream.DoneMarker(name)[0] == '-';
  }

  /** The start marker, the relayed output of a quiet script and the done marker hold no
      terminal line. */
  lemma {:induction false} QuietTranscript(name: string, run: SyncStream.Run)
    requires Quiet(run)
    ensures NoneTerminal([SyncStream.StartMarker(name)] + SyncStream.Relay(run.output))
    ensures NoneTerminal([SyncStream.StartMarker(name)] + SyncStream.Relay(run.output) + [SyncStream.DoneMarker(name)])
  {
    MarkersNotTerminal(name);
    var relayed := SyncStream.Relay(run.output);
    assert NoneTerminal(relayed);
    assert NoneTerminal([SyncStream.StartMarker(name)]);
    assert NoneTerminal([SyncStream.DoneMarker(name)]);
    NoneTerminalConcat([SyncStream.StartMarker(name)], relayed);
    NoneTerminalConcat([SyncStream.StartMarker(name)] + relayed, [SyncStream.DoneMarker(name)]);
  }

  lemma {:induction false} NoneTerminalConcat(a: seq<string>, b: seq<string>)
    requires NoneTerminal(a) && NoneTerminal(b)
    ensures NoneTerminal(a + b)
  {
    forall i | 0 <= i < |a + b|
      ensures !SyncStream.IsTerminal((a + b)[i])
    {
      if i >= |a| {
        assert (a + b)[i] == b[i - |a|];
      }
    }
  }

  /** Lines that never end the stream, followed by a list whose only terminal line is its last. */
  lemma {:induction false} QuietPrefix(a: seq<string>, b: seq<string>)
    requires NoneTerminal(a) && OnlyLastTerminal(b)
    ensures OnlyLastTerminal(a + b)
  {
    forall i | 0 <= i < |a + b| - 1
      ensures !SyncStream.IsTerminal((a + b)[i])
    {
      if i >= |a| {
        assert (a + b)[i] == b[i - |a|];
      } else {
        assert (a + b)[i] == a[i];
      }
    }
  }

  /** The stream of the scripts from the first onward, split after the first script's part. */
  lemma {:induction false} RunScriptsShape(scripts: seq<(string, SyncStream.Run)>)
    requires |scripts| > 0
    ensures var head := [SyncStream.StartMarker(scripts[0].0)] + SyncStream.Relay(scripts[0].1.output);
            var r := SyncStream.RunScripts(scripts);
            && (SyncStream.Succeeded(scripts[0].1) ==>
                  r == head + [SyncStream.DoneMarker(scripts[0].0)] + SyncStream.RunScripts(scripts[1..]))
            && (!SyncStream.Succeeded(scripts[0].1) ==> |r| == |head| + 1 && r[..|head|] == head)
  {
    var name := scripts[0].0;
    var head := [SyncStream.StartMarker(name)] + SyncStream.Relay(scripts[0].1.output);
    var r := SyncStream.RunScripts(scripts);
    match scripts[0].1.ending
    case Raised(notFound, message) =>
      EndedPrefix(head, SyncStream.RaisedLine(notFound, message));
    case Exited(code) =>
      if code != 0 {
        EndedPrefix(head, SyncStream.FailureLine(name, code));
      } else {
        var rest := SyncStream.RunScripts(scripts[1..]);
        EndedWhole(head + [SyncStream.DoneMarker(name)], rest);
      }
  }

  lemma {:induction false} EndedPrefix(events: seq<string>, last: string)
    ensures |SyncStream.Ended(events, last)| == |events| + 1 && SyncStream.Ended(events, last)[..|events|] == events
  {
    assert (events + [last])[..|events|] == events;
  }

  lemma {:induction false} EndedWhole(events: seq<string>, rest: seq<string>)
    requires |rest| > 0
    ensures SyncStream.Ended(events + rest[..|rest| - 1], rest[|rest| - 1]) == events + rest
  {
    assert rest[..|rest| - 1] + [rest[|rest| - 1]] == rest;
    assert events + rest[..|rest| - 1] + [rest[|rest| - 1]] == events + (rest[..|rest| - 1] + [rest[|rest| - 1]]);
  }

  /** When no script prints a line that looks terminal, only the stream's last event is terminal. */
  lemma {:induction false} QuietScripts(scripts: seq<(string, SyncStream.Run)>)
    requires forall i :: 0 <= i < |scripts| ==> Quiet(scripts[i].1)
    ensures OnlyLastTerminal(SyncStream.RunScripts(scripts))
  {
    if |scripts| > 0 {
      var name := scripts[0].0;
      var run := scripts[0].1;
      var head := [SyncStream.StartMarker(name)] + SyncStream.Relay(run.output);
      var r := SyncStream.RunScripts(scripts);
      QuietTranscript(name, run);
      RunScriptsShape(scripts);
      if SyncStream.Succeeded(run) {
        assert forall i :: 0 <= i < |scripts| - 1 ==> scripts[1..][i] == scripts[i + 1];
        QuietScripts(scripts[1..]);
        QuietPrefix(head + [SyncStream.DoneMarker(name)], SyncStream.RunScripts(scripts[1..]));
      } else {
        assert r == head + [r[|head|]];
        QuietPrefix(head, [r[|head|]]);
      }
    }
  }

  /** One whole sync: starting the session and feeding it what the endpoint generates. When no
      script prints a terminal-looking line, the session completes, reloading once, exactly when
      both scripts exit with 0, and errs otherwise; the log holds every event. */
  lemma {:induction false} SyncEndToEnd(s: Shell, interpreterPresent: bool, update: SyncStream.Run, organize: SyncStream.Run)
    requires Quiet(update) && Quiet(organize)
    ensures var events := SyncStream.Generate(interpreterPresent, update, organize);
            var r := Feed(Start(s), events);
            && r.log == events[..|events| - 1] + [Shown(events[|events| - 1])]
            && (r.status == Completed <==>
                  interpreterPresent && SyncStream.Succeeded(update) && SyncStream.Succeeded(organize))
            && (r.status != Completed ==> r.status == Errored && r.reloads == s.reloads)
            && (r.status == Completed ==> r.reloads == s.reloads + 1 && r.selected.None?)
  {
    var events := SyncStream.Generate(interpreterPresent, update, organize);
    if interpreterPresent {
      var scripts := [(SyncStream.UpdateScript, update), (SyncStream.OrganizeScript, organize)];
      QuietScripts(scripts);
    }
    FeedUntilTerminal(Start(s), events);
    assert [] + events[..|events| - 1] == events[..|events| - 1];
  }

  /** A run of progress lines then the sentinel: three log entries, the third the success
      marker, one reload, no selection. */
  lemma {:induction false} ProgressThenComplete(s: Shell)
    ensures var r := Feed(Start(s), ["Connecting...", "Fetched 10 messages", SyncStream.Complete]);
            && r.status == Completed && |r.log| == 3 && r.log[2] == SuccessMarker
            && r.reloads == s.reloads + 1 && r.selected.None?
  {
    var lines := ["Connecting...", "Fetched 10 messages", SyncStream.Complete];
    assert !SyncStream.IsTerminal(lines[0]) by { assert lines[0][0] == 'C'; }
    assert !SyncStream.IsTerminal(lines[1]) by { assert lines[1][0] == 'F'; }
    FeedUntilTerminal(Start(s), lines);
  }

  /** A lone error line: one log entry, the session errs, no reload. */
  lemma {:induction false} LoneError(s: Shell)
    ensures var r := Feed(Start(s), ["ERROR: auth failed"]);
            && r.status == Errored && r.log == ["ERROR: auth failed"] && r.reloads == s.reloads
  {
    assert Text.StartsWith("ERROR: auth failed", "ERROR:");
  }
}

=== FILE: sidebar.dfy ===
/** The sidebar: the within-day ordering of emails, the descending order of year, month and day
    headings, and the map of expanded headings. */
module Sidebar {
  import opened Wrappers
  import Text
  import Fields
  import opened Mailbox
  import Sorting

  /** `getUrgencyValue`: 高 = 1, 中 = 2, 低 = 3, anything else 4. */
  function UrgencyRank(u: Fields.Urgency): (r: nat)
    ensures 1 <= r <= 4
    ensures r == 1 <==> u == Fields.High
    ensures r == 2 <==> u == Fields.Medium
    ensures r == 3 <==> u == Fields.Low
  {
    match u
    case High => 1
    case Medium => 2
    case Low => 3
    case Unrated => 4
  }

  function RankOf(e: Email): nat {
    UrgencyRank(Fields.UrgencyOf(e.analysis))
  }

  predicate IsAsciiLetter(c: char) {
    'a' <= c <= 'z' || 'A' <= c <= 'Z'
  }

  /** The ideograph range U+4E00 to U+9FA5 of the title pattern. */
  predicate IsIdeograph(c: char) {
    0x4E00 <= c as int <= 0x9FA5
  }

  /** `getTitleTypeValue`: by the first character, 1 for a digit, 2 for an ASCII letter, 3 for an
      ideograph, 4 otherwise (including the empty title). */
  function TitleType(title: string): (r: nat)
    ensures 1 <= r <= 4
    ensures r == 1 <==> |title| > 0 && Text.IsDigit(title[0])
    ensures r == 2 <==> |title| > 0 && IsAsciiLetter(title[0])
    ensures r == 3 <==> |title| > 0 && IsIdeograph(title[0])
  {
    if |title| == 0 then 4
    else if Text.IsDigit(title[0]) then 1
    else if IsAsciiLetter(title[0]) then 2
    else if IsIdeograph(title[0]) then 3
    else 4
  }

  function SummaryOf(e: Email): string {
    Fields.SummaryText(e.analysis, e.subject)
  }

  /** The comparator returns a value `<= 0`: lexicographic on urgency rank, title type, and
      `localeCompare(a, b, 'zh-Hans-CN') <= 0` on the summaries, which is the parameter `le`. */
  predicate Le(le: (string, string) -> bool, a: Email, b: Email) {
    || RankOf(a) < RankOf(b)
    || (RankOf(a) == RankOf(b) && TitleType(SummaryOf(a)) < TitleType(SummaryOf(b)))
    || (RankOf(a) == RankOf(b) && TitleType(SummaryOf(a)) == TitleType(SummaryOf(b))
        && le(SummaryOf(a), SummaryOf(b)))
  }

  /** The composite comparator inherits totality and transitivity from the locale order. */
  function Comparator(le: (string, string) -> bool): (r: (Email, Email) -> bool)
    ensures Sorting.TotalPreorder(le) ==> Sorting.TotalPreorder(r)
  {
    LeTotalPreorder(le);
    (a: Email, b: Email) => Le(le, a, b)
  }

  lemma {:induction false} LeTotalPreorder(le: (string, string) -> bool)
    ensures Sorting.TotalPreorder(le) ==>
              && (forall a, b :: Le(le, a, b) || Le(le, b, a))
              && (forall a, b, d :: Le(le, a, b) && Le(le, b, d) ==> Le(le, a, d))
  {
    if Sorting.TotalPreorder(le) {
      forall a, b, d | Le(le, a, b) && Le(le, b, d)
        ensures Le(le, a, d)
      {
      }
      forall a, b
        ensures Le(le, a, b) || Le(le, b, a)
      {
      }
    }
  }

  /** `sortEmails`: a fresh list holding the same emails, each not above the next one. */
  function SortDay(le: (string, string) -> bool, es: seq<Email>): (r: seq<Email>)
    ensures multiset(r) == multiset(es)
    ensures Sorting.TotalPreorder(le) ==> forall i, j :: 0 <= i < j < |r| ==> Le(le, r[i], r[j])
  {
    var r := Sorting.Sort(Comparator(le), es);
    assert Sorting.TotalPreorder(le) ==> forall i, j :: 0 <= i < j < |r| ==> Comparator(le)(r[i], r[j]);
    r
  }

  /** Within a day, a 高 email comes before every 中, 低 or unrated one. */
  lemma {:induction false} HighFirst(le: (string, string) -> bool, es: seq<Email>, i: nat, j: nat)
    requires Sorting.TotalPreorder(le)
    requires i < |SortDay(le, es)| && j < |SortDay(le, es)|
    requires Fields.UrgencyOf(SortDay(le, es)[i].analysis) == Fields.High
    requires Fields.UrgencyOf(SortDay(le, es)[j].analysis) != Fields.High
    ensures i < j
  {
  }

  /** Sorting a day that is already sorted changes nothing. */
  lemma {:induction false} SortDayIdempotent(le: (string, string) -> bool, es: seq<Email>)
    requires Sorting.TotalPreorder(le)
    ensures SortDay(le, SortDay(le, es)) == SortDay(le, es)
  {
    Sorting.SortIdempotent(Comparator(le), es);
  }

  /** `Object.keys(level).sort((a, b) => b - a)`: the keys of one heading level, largest first. */
  function Descending(keys: seq<int>): (r: seq<int>)
    ensures multiset(r) == multiset(keys)
    ensures forall i, j :: 0 <= i < j < |r| ==> r[i] >= r[j]
  {
    var ge := (a: int, b: int) => a >= b;
    assert Sorting.TotalPreorder(ge);
    var r := Sorting.Sort(ge, keys);
    assert forall i, j :: 0 <= i < j < |r| ==> ge(r[i], r[j]);
    r
  }

  /** Object keys are distinct, so the headings come strictly from largest to smallest. */
  lemma {:induction false} DescendingStrict(keys: seq<int>, i: nat, j: nat)
    requires forall a, b :: 0 <= a < b < |keys| ==> keys[a] != keys[b]
    requires i < j < |Descending(keys)|
    ensures Descending(keys)[i] > Descending(keys)[j]
  {
    var r := Descending(keys);
    if r[i] == r[j] {
      Sorting.RepeatCount(r, i, j);
      Sorting.DistinctCount(keys, r[i]);
      assert false;
    }
  }

  /** The expanded-heading map; a key that was never set reads as collapsed. */
  type Expanded = map<string, bool>

  predicate IsOpen(m: Expanded, key: string) {
    key in m && m[key]
  }

  function YearKey(y: int): string {
    Text.IntToString(y)
  }

  function MonthKey(y: int, mo: int): string {
    Text.IntToString(y) + "-" + Text.IntToString(mo)
  }

  function DayHeadingKey(y: int, mo: int, d: int): string {
    Text.IntToString(y) + "-" + Text.IntToString(mo) + "-" + Text.IntToString(d)
  }

  /** The map the sidebar starts from: every year of the tree open, nothing else set. */
  function InitialExpanded(g: map<DayKey, seq<Email>>): (m: Expanded)
    ensures forall k :: k in m <==> exists y :: y in Years(g) && k == YearKey(y)
    ensures forall k :: k in m ==> m[k]
  {
    map y | y in Years(g) :: YearKey(y) := true
  }

  /** `toggleExpand`: flips one heading and leaves every other entry as it was. */
  function ToggleExpand(m: Expanded, key: string): (r: Expanded)
    ensures IsOpen(r, key) <==> !IsOpen(m, key)
    ensures key in r
    ensures forall k :: k != key ==> (k in r <==> k in m) && (k in m ==> r[k] == m[k])
  {
    m[key := !IsOpen(m, key)]
  }

  /** Toggling the same heading twice leaves it open exactly when it was open. */
  lemma {:induction false} ToggleTwice(m: Expanded, key: string)
    ensures IsOpen(ToggleExpand(ToggleExpand(m, key), key), key) == IsOpen(m, key)
  {
  }

  /** `toggleAllChildren`: if any listed child is open, close them all; otherwise open them all.
      Keys outside the list keep their entries. */
  function ToggleAllChildren(m: Expanded, children: seq<string>): (r: Expanded)
    ensures (exists k :: k in children && IsOpen(m, k)) ==> forall k :: k in children ==> k in r && !r[k]
    ensures (forall k :: k in children ==> !IsOpen(m, k)) ==> forall k :: k in children ==> IsOpen(r, k)
    ensures forall k :: k !in children ==> (k in r <==> k in m) && (k in m ==> r[k] == m[k])
  {
    var anyOpen := exists k :: k in children && IsOpen(m, k);
    m + map k | k in children :: !anyOpen
  }

  /** After a toggle-all, the children are either all open or all closed. */
  lemma {:induction false} ToggleAllUniform(m: Expanded, children: seq<string>, a: string, b: string)
    requires a in children && b in children
    ensures IsOpen(ToggleAllChildren(m, children), a) == IsOpen(ToggleAllChildren(m, children), b)
  {
  }
}

=== FILE: sorting.dfy ===
/** A stable insertion sort over a caller-supplied comparator, standing in for
    `Array.prototype.sort` with a comparison function. `le(a, b)` holds when the comparison
    function returns a value `<= 0` for `(a, b)`. */
module Sorting {

  /** A comparator that orders any two values and is transitive. */
  ghost predicate TotalPreorder<T(!new)>(le: (T, T) -> bool) {
    && (forall x, y :: le(x, y) || le(y, x))
    && (forall x, y, z :: le(x, y) && le(y, z) ==> le(x, z))
  }

  ghost predicate Sorted<T>(le: (T, T) -> bool, s: seq<T>) {
    forall i, j :: 0 <= i < j < |s| ==> le(s[i], s[j])
  }

  /** Places `x` after the last element of `s` that is not above it. */
  function Insert<T>(le: (T, T) -> bool, x: T, s: seq<T>): (r: seq<T>)
    ensures multiset(r) == multiset(s) + multiset{x}
    ensures |r| == |s| + 1
  {
    if |s| == 0 then [x]
    else if le(s[|s| - 1], x) then s + [x]
    else
      var init := s[..|s| - 1];
      assert s == init + [s[|s| - 1]];
      Insert(le, x, init) + [s[|s| - 1]]
  }

  /** Every element of an insertion is the inserted value or one of the list's. */
  lemma {:induction false} InsertElements<T>(le: (T, T) -> bool, x: T, s: seq<T>, y: T)
    requires y in Insert(le, x, s)
    ensures y == x || y in s
  {
    assert y in multiset(Insert(le, x, s));
  }

  /** Appending a value that is not below anything already present keeps a list sorted. */
  lemma {:induction false} SortedAppend<T>(le: (T, T) -> bool, r: seq<T>, top: T)
    requires Sorted(le, r)
    requires forall y :: y in r ==> le(y, top)
    ensures Sorted(le, r + [top])
  {
    forall i, j | 0 <= i < j < |r| + 1
      ensures le((r + [top])[i], (r + [top])[j])
    {
      assert (r + [top])[i] == r[i];
      if j < |r| {
        assert (r + [top])[j] == r[j];
      }
    }
  }

  lemma {:induction false} InsertSorted<T(!new)>(le: (T, T) -> bool, x: T, s: seq<T>)
    ensures TotalPreorder(le) && Sorted(le, s) ==> Sorted(le, Insert(le, x, s))
    decreases |s|
  {
    if TotalPreorder(le) && Sorted(le, s) && |s| > 0 && !le(s[|s| - 1], x) {
      var init := s[..|s| - 1];
      var top := s[|s| - 1];
      assert Sorted(le, init);
      InsertSorted(le, x, init);
      var r := Insert(le, x, init);
      assert le(x, top);
      forall y | y in r
        ensures le(y, top)
      {
        InsertElements(le, x, init, y);
        if y != x {
          var i :| 0 <= i < |init| && init[i] == y;
          assert s[i] == y;
        }
      }
      SortedAppend(le, r, top);
    }
  }

  /** Insertion sort: the same values, ordered by the comparator. Values that tie keep their
      original order (`SortStable`). */
  function Sort<T(!new)>(le: (T, T) -> bool, s: seq<T>): (r: seq<T>)
    ensures multiset(r) == multiset(s)
    ensures |r| == |s|
    ensures TotalPreorder(le) ==> Sorted(le, r)
  {
    if |s| == 0 then []
    else
      var init := s[..|s| - 1];
      assert s == init + [s[|s| - 1]];
      InsertSorted(le, s[|s| - 1], Sort(le, init));
      Insert(le, s[|s| - 1], Sort(le, init))
  }

  /** Sorting an already sorted list leaves it as it is. */
  lemma {:induction false} SortSortedIsIdentity<T(!new)>(le: (T, T) -> bool, s: seq<T>)
    requires TotalPreorder(le) && Sorted(le, s)
    ensures Sort(le, s) == s
    decreases |s|
  {
    if |s| > 0 {
      var init := s[..|s| - 1];
      assert Sorted(le, init);
      SortSortedIsIdentity(le, init);
      if |init| > 0 {
        assert le(init[|init| - 1], s[|s| - 1]);
      }
      assert init + [s[|s| - 1]] == s;
    }
  }

  /** The elements of `s` that tie with `x` (each is ordered before the other), in order. */
  function Ties<T>(le: (T, T) -> bool, s: seq<T>, x: T): (r: seq<T>)
    ensures |r| <= |s|
  {
    if |s| == 0 then []
    else Ties(le, s[..|s| - 1], x) + (if le(s[|s| - 1], x) && le(x, s[|s| - 1]) then [s[|s| - 1]] else [])
  }

  /** Inserting into a sorted list puts the new value after every value it ties with. */
  lemma {:induction false} InsertTies<T(!new)>(le: (T, T) -> bool, v: T, s: seq<T>, x: T)
    requires TotalPreorder(le) && Sorted(le, s)
    ensures Ties(le, Insert(le, v, s), x) == Ties(le, s, x) + (if le(v, x) && le(x, v) then [v] else [])
    decreases |s|
  {
    var tv: seq<T> := if le(v, x) && le(x, v) then [v] else [];
    if |s| == 0 {
      assert Insert(le, v, s) == [v];
      assert [v][..0] == [];
    } else if le(s[|s| - 1], v) {
      assert (s + [v])[..|s|] == s;
    } else {
      var init := s[..|s| - 1];
      var top := s[|s| - 1];
      var tt: seq<T> := if le(top, x) && le(x, top) then [top] else [];
      assert Sorted(le, init);
      InsertTies(le, v, init, x);
      var r := Insert(le, v, init);
      assert Insert(le, v, s) == r + [top];
      assert (r + [top])[..|r|] == r;
      assert Ties(le, Insert(le, v, s), x) == Ties(le, init, x) + tv + tt;
      assert !(le(top, x) && le(x, v));
      assert Ties(le, s, x) == Ties(le, init, x) + tt;
      TiesSwap(Ties(le, init, x), tv, tt);
    }
  }

  lemma {:induction false} TiesSwap<T>(a: seq<T>, b: seq<T>, c: seq<T>)
    requires b == [] || c == []
    ensures a + b + c == a + c + b
  {
    if b == [] {
      assert a + b == a && a + c + b == a + c;
    } else {
      assert a + c == a && a + b + c == a + b;
    }
  }

  /** The sort is stable: the values that tie with any `x` come out in their original order. */
  lemma {:induction false} SortStable<T(!new)>(le: (T, T) -> bool, s: seq<T>, x: T)
    requires TotalPreorder(le)
    ensures Ties(le, Sort(le, s), x) == Ties(le, s, x)
    decreases |s|
  {
    if |s| > 0 {
      var init := s[..|s| - 1];
      SortStable(le, init, x);
      InsertTies(le, s[|s| - 1], Sort(le, init), x);
    }
  }

  /** Sorting twice gives the same list as sorting once. */
  lemma {:induction false} SortIdempotent<T(!new)>(le: (T, T) -> bool, s: seq<T>)
    requires TotalPreorder(le)
    ensures Sort(le, Sort(le, s)) == Sort(le, s)
  {
    SortSortedIsIdentity(le, Sort(le, s));
  }

  /** A list with no repeated value holds each value at most once. */
  lemma {:induction false} DistinctCount<T>(s: seq<T>, x: T)
    requires forall i, j :: 0 <= i < j < |s| ==> s[i] != s[j]
    ensures multiset(s)[x] <= 1
  {
    if |s| > 0 {
      assert s == [s[0]] + s[1..];
      DistinctCount(s[1..], x);
      if s[0] == x {
        assert x !in s[1..];
      }
    }
  }

  /** Two positions of a list holding the same value make that value occur twice. */
  lemma {:induction false} RepeatCount<T>(s: seq<T>, i: nat, j: nat)
    requires i < j < |s| && s[i] == s[j]
    ensures multiset(s)[s[i]] >= 2
  {
    assert s == s[..i] + [s[i]] + s[i + 1..j] + [s[j]] + s[j + 1..];
  }
}

=== FILE: store.dfy ===
/** The analysis store: how a sender header is split into name and address, which columns a
    status update writes, and how an urgency change is written into both the stored map and the
    markdown. The cleaning and parsing of the markdown are in `Parser`. */
module Store {
  import opened Wrappers
  import Text
  import Js
  import Fields
  import Parser

  // ---------------------------------------------------------------------------------------------
  // The sender header

  /** Length of the first line: the index of the first newline, or the whole length. */
  function LineEnd(s: string): (n: nat)
    ensures n <= |s|
    ensures forall k :: 0 <= k < n ==> s[k] != '\n'
    ensures n < |s| ==> s[n] == '\n'
  {
    if |s| == 0 || s[0] == '\n' then 0 else 1 + LineEnd(s[1..])
  }

  /** The last index holding `c`. */
  function LastIndexOf(s: string, c: char): (r: Option<nat>)
    ensures r.Some? ==> r.value < |s| && s[r.value] == c
    ensures r.Some? ==> forall k :: r.value < k < |s| ==> s[k] != c
    ensures r.None? ==> forall k :: 0 <= k < |s| ==> s[k] != c
  {
    if |s| == 0 then None
    else if s[|s| - 1] == c then Some(|s| - 1)
    else LastIndexOf(s[..|s| - 1], c)
  }

  /** Where `re.match(r'(.*)<(.+)>', s)` puts its brackets. The dot stops at a newline, so the
      match lies in the first line; both groups are greedy, so the closing bracket is the line's
      last `>` and the opening one the last `<` leaving at least one character before it. */
  function Brackets(s: string): (r: Option<(nat, nat)>)
    ensures r.Some? ==> var (i, j) := r.value;
              i + 2 <= j < LineEnd(s) && s[i] == '<' && s[j] == '>'
              && (forall k :: j < k < LineEnd(s) ==> s[k] != '>')
              && (forall k :: i < k < j - 1 ==> s[k] != '<')
    ensures r.None? <==>
              !exists i, j :: 0 <= i && i + 2 <= j < LineEnd(s) && s[i] == '<' && s[j] == '>'
  {
    var n := LineEnd(s);
    var line := s[..n];
    match LastIndexOf(line, '>')
    case None => None
    case Some(j) =>
      if j < 2 then None
      else
        match LastIndexOf(line[..j - 1], '<')
        case None =>
          assert forall i :: 0 <= i < j - 1 ==> line[..j - 1][i] == s[i];
          None
        case Some(i) => Some((i, j))
  }

  /** `_parse_from_address`: nothing for a missing or empty header; for `Name <addr>` the name
      without surrounding whitespace and double quotes and the address without surrounding
      whitespace; otherwise no name and the whole header as the address. */
  function ParseFromAddress(from: Option<string>): (r: (string, string))
    ensures from.None? || from == Some([]) ==> r == ([], [])
    ensures from.Some? && from.value != [] && Brackets(from.value).None? ==> r == ([], from.value)
    ensures from.Some? && Brackets(from.value).Some? ==>
              var b := Brackets(from.value).value;
              r == (Text.StripChar(Text.Strip(from.value[..b.0]), '"'), Text.Strip(from.value[b.0 + 1..b.1]))
  {
    if from.None? || from.value == [] then ([], [])
    else
      var s := from.value;
      match Brackets(s)
      case None => ([], s)
      case Some((i, j)) => (Text.StripChar(Text.Strip(s[..i]), '"'), Text.Strip(s[i + 1..j]))
  }

  /** Stripping a quote-wrapped text whose own ends are not quotes gives back the text. */
  lemma {:induction false} UnquoteWrapped(name: string)
    requires name == [] || (name[0] != '"' && name[|name| - 1] != '"')
    ensures Text.StripChar("\"" + name + "\"", '"') == name
  {
    var q := "\"" + name + "\"";
    var inner := name + "\"";
    assert q[1..] == inner;
    assert Text.StripChar(q, '"') == Text.StripChar(inner, '"');
    if name == [] {
      assert inner[1..] == [];
    } else {
      assert inner[0] == name[0];
      assert inner[..|inner| - 1] == name;
      assert Text.StripChar(inner, '"') == Text.StripChar(name, '"');
    }
  }

  /** The last `c` is at `i` when nothing after `i` is a `c`. */
  lemma {:induction false} LastIndexAt(s: string, c: char, i: nat)
    requires i < |s| && s[i] == c && forall k :: i < k < |s| ==> s[k] != c
    ensures LastIndexOf(s, c) == Some(i)
    decreases |s|
  {
    if i < |s| - 1 {
      LastIndexAt(s[..|s| - 1], c, i);
    }
  }

  /** The brackets of `shown <addr>` are the ones written around the address. */
  lemma {:induction false} BracketsAround(shown: string, addr: string)
    requires addr != []
    requires forall k :: 0 <= k < |shown| ==> shown[k] != '\n'
    requires forall k :: 0 <= k < |addr| ==> addr[k] != '\n' && addr[k] != '<'
    ensures var s := shown + " <" + addr + ">";
            Brackets(s) == Some((|shown| + 1, |s| - 1))
  {
    var s := shown + " <" + addr + ">";
    var i := |shown| + 1;
    var j := |s| - 1;
    assert forall k :: 0 <= k < |shown| ==> s[k] == shown[k];
    assert forall k :: i < k < j ==> s[k] == addr[k - i - 1];
    LineEndAll(s);
    assert s[..|s|] == s;
    LastIndexAt(s, '>', j);
    var front := s[..j - 1];
    assert forall k :: i < k < |front| ==> front[k] == addr[k - i - 1];
    LastIndexAt(front, '<', i);
  }

  /** The header's two parts are read off the bracket positions. */
  lemma {:induction false} ParseAtBrackets(s: string, i: nat, j: nat)
    requires s != [] && Brackets(s) == Some((i, j))
    ensures ParseFromAddress(Some(s)) == (Text.StripChar(Text.Strip(s[..i]), '"'), Text.Strip(s[i + 1..j]))
  {
  }

  /** A one-line name stays one line once quoted. */
  lemma {:induction false} QuotedOneLine(name: string)
    requires forall k :: 0 <= k < |name| ==> name[k] != '\n'
    ensures var q := "\"" + name + "\"";
            forall k :: 0 <= k < |q| ==> q[k] != '\n'
  {
    var q := "\"" + name + "\"";
    forall k | 0 <= k < |q|
      ensures q[k] != '\n'
    {
      if 0 < k < |q| - 1 {
        assert q[k] == name[k - 1];
      }
    }
  }

  /** The two parts of `shown <addr>` are read off around the brackets written there. */
  lemma {:induction false} ShownParts(shown: string, addr: string)
    requires addr != []
    requires forall k :: 0 <= k < |shown| ==> shown[k] != '\n'
    requires forall k :: 0 <= k < |addr| ==> addr[k] != '\n' && addr[k] != '<'
    ensures var s := shown + " <" + addr + ">"; var i := |shown| + 1;
            ParseFromAddress(Some(s)) == (Text.StripChar(Text.Strip(s[..i]), '"'), Text.Strip(s[i + 1..|s| - 1]))
  {
    var s := shown + " <" + addr + ">";
    BracketsAround(shown, addr);
    ParseAtBrackets(s, |shown| + 1, |s| - 1);
  }

  /** `shown <addr>` splits into the unquoted `shown` and `addr`. */
  lemma {:induction false} ParseShown(shown: string, addr: string)
    requires Text.Trimmed(shown) && Text.Trimmed(addr) && addr != []
    requires forall k :: 0 <= k < |shown| ==> shown[k] != '\n'
    requires forall k :: 0 <= k < |addr| ==> addr[k] != '\n' && addr[k] != '<'
    ensures ParseFromAddress(Some(shown + " <" + addr + ">")) == (Text.StripChar(shown, '"'), addr)
  {
    StripShownParts(shown, addr);
    ShownParts(shown, addr);
  }

  /** Both parts around the brackets of `shown <addr>` are already stripped. */
  lemma {:induction false} StripShownParts(shown: string, addr: string)
    requires Text.Trimmed(shown) && Text.Trimmed(addr)
    ensures var s := shown + " <" + addr + ">"; var i := |shown| + 1;
            Text.Strip(s[..i]) == shown && Text.Strip(s[i + 1..|s| - 1]) == addr
  {
    var s := shown + " <" + addr + ">";
    var i := |shown| + 1;
    assert s[..i] == shown + " ";
    StripSpaceAfter(shown);
    assert s[i + 1..|s| - 1] == addr;
    Text.StripTrimmed(addr);
  }

  lemma {:induction false} StripSpaceAfter(x: string)
    requires Text.Trimmed(x)
    ensures Text.Strip(x + " ") == x
  {
    Text.StripPadded([], x, " ");
    assert [] + x + " " == x + " ";
  }

  /** A header written as `Name <addr>` or `"Name" <addr>` reads back as its name and address,
      for a one-line, trimmed name and a non-empty, trimmed address holding no `<`. */
  lemma {:induction false} FromAddressRoundTrip(name: string, addr: string, quoted: bool)
    requires Text.Trimmed(name) && (name == [] || (name[0] != '"' && name[|name| - 1] != '"'))
    requires Text.Trimmed(addr) && addr != []
    requires forall k :: 0 <= k < |name| ==> name[k] != '\n'
    requires forall k :: 0 <= k < |addr| ==> addr[k] != '\n' && addr[k] != '<'
    ensures var shown := if quoted then "\"" + name + "\"" else name;
            ParseFromAddress(Some(shown + " <" + addr + ">")) == (name, addr)
  {
    if quoted {
      QuotedOneLine(name);
      var shown := "\"" + name + "\"";
      assert shown[0] == '"' && shown[|shown| - 1] == '"';
      ParseShown(shown, addr);
      UnquoteWrapped(name);
    } else {
      ParseShown(name, addr);
      assert Text.StripChar(name, '"') == name;
    }
  }

  lemma {:induction false} LineEndAll(s: string)
    requires forall k :: 0 <= k < |s| ==> s[k] != '\n'
    ensures LineEnd(s) == |s|
  {
    if |s| > 0 {
      LineEndAll(s[1..]);
    }
  }

  /** A header without any `<` is taken whole as the address. */
  lemma {:induction false} BareAddress(s: string)
    requires s != [] && forall k :: 0 <= k < |s| ==> s[k] != '<'
    ensures ParseFromAddress(Some(s)) == ([], s)
  {
  }

  // ---------------------------------------------------------------------------------------------
  // The status update

  /** The parts of the `UPDATE` a status change issues: the column assignments, in order, and
      the parameters, the email id last. */
  datatype Statement = Statement(assignments: seq<string>, params: seq<int>)

  function Flag(b: bool): int {
    if b then 1 else 0
  }

  /** `update_email_status`: the star column, then the read column, each only when given, each
      value stored as 1 or 0; no statement at all when neither is given. */
  function StatusStatement(id: int, starred: Option<bool>, read: Option<bool>): (r: Option<Statement>)
    ensures r.None? <==> starred.None? && read.None?
    ensures r.Some? ==> |r.value.params| == |r.value.assignments| + 1
    ensures r.Some? ==> r.value.params[|r.value.params| - 1] == id
  {
    var a := (if starred.Some? then ["is_starred = ?"] else []) + (if read.Some? then ["is_read = ?"] else []);
    var p := (if starred.Some? then [Flag(starred.value)] else []) + (if read.Some? then [Flag(read.value)] else []);
    if a == [] then None else Some(Statement(a, p + [id]))
  }

  /** The SQL text the statement is issued as. */
  function Sql(st: Statement): string {
    "UPDATE emails SET " + Text.Join(st.assignments, ", ") + " WHERE id = ?"
  }

  /** The two flag columns of a stored row. */
  datatype Flags = Flags(isStarred: int, isRead: int)

  /** What executing the statement does to the row it selects: each assignment takes the next
      parameter. */
  function Execute(row: Flags, assignments: seq<string>, params: seq<int>): Flags
    requires |params| >= |assignments|
    decreases |assignments|
  {
    if |assignments| == 0 then row
    else
      var row' := if assignments[0] == "is_starred = ?" then row.(isStarred := params[0])
                  else if assignments[0] == "is_read = ?" then row.(isRead := params[0])
                  else row;
      Execute(row', assignments[1..], params[1..])
  }

  /** Executing the statement sets exactly the given flags, as 1 or 0, and keeps the other, on
      the row whose id is the last parameter. */
  lemma {:induction false} StatusStatementEffect(id: int, starred: Option<bool>, read: Option<bool>, row: Flags)
    requires starred.Some? || read.Some?
    ensures var st := StatusStatement(id, starred, read).value;
            var after := Execute(row, st.assignments, st.params);
            && after.isStarred == (if starred.Some? then Flag(starred.value) else row.isStarred)
            && after.isRead == (if read.Some? then Flag(read.value) else row.isRead)
            && st.params[|st.params| - 1] == id
  {
    var st := StatusStatement(id, starred, read).value;
    var a := st.assignments;
    var p := st.params;
    if starred.Some? && read.Some? {
      assert a == ["is_starred = ?", "is_read = ?"] && p == [Flag(starred.value), Flag(read.value), id];
      assert a[1..] == ["is_read = ?"] && p[1..] == [Flag(read.value), id];
      assert a[1..][1..] == [] && p[1..][1..] == [id];
      var r1 := row.(isStarred := Flag(starred.value));
      assert Execute(row, a, p) == Execute(r1, a[1..], p[1..]);
      assert Execute(r1, a[1..], p[1..]) == Execute(r1.(isRead := Flag(read.value)), [], [id]);
    } else if starred.Some? {
      assert a == ["is_starred = ?"] && p == [Flag(starred.value), id];
      assert a[1..] == [] && p[1..] == [id];
      assert Execute(row, a, p) == Execute(row.(isStarred := Flag(starred.value)), [], [id]);
    } else {
      assert a == ["is_read = ?"] && p == [Flag(read.value), id];
      assert a[1..] == [] && p[1..] == [id];
      assert Execute(row, a, p) == Execute(row.(isRead := Flag(read.value)), [], [id]);
    }
  }

  // ---------------------------------------------------------------------------------------------
  // The urgency rewrite of the stored map

  /** The block holds a non-empty list whose element 0 has one of the two urgency fields. */
  predicate Usable(a: Parser.Analysis, block: string) {
    block in a && |a[block]| > 0 && (Fields.UrgencyFieldS in a[block][0] || Fields.UrgencyFieldT in a[block][0])
  }

  /** The field `update_email_urgency` overwrites: in the first usable block (simplified label,
      then traditional), the first field present (simplified, then traditional). */
  function UrgencyPath(a: Parser.Analysis): (r: Option<(string, string)>)
    ensures r.Some? ==> r.value.0 in a && |a[r.value.0]| > 0 && r.value.1 in a[r.value.0][0]
    ensures r.None? <==> !Usable(a, Fields.UrgencyBlockS) && !Usable(a, Fields.UrgencyBlockT)
    ensures r.Some? && r.value.0 == Fields.UrgencyBlockT ==> !Usable(a, Fields.UrgencyBlockS)
    ensures r.Some? ==> (r.value.0 == Fields.UrgencyBlockS <==> Usable(a, Fields.UrgencyBlockS))
    ensures r.Some? ==> r.value.0 == Fields.UrgencyBlockS || r.value.0 == Fields.UrgencyBlockT
    ensures r.Some? ==> r.value.1 == Fields.UrgencyFieldS || r.value.1 == Fields.UrgencyFieldT
    ensures r.Some? ==> (r.value.1 == Fields.UrgencyFieldS <==> Fields.UrgencyFieldS in a[r.value.0][0])
  {
    var b := if Usable(a, Fields.UrgencyBlockS) then Some(Fields.UrgencyBlockS)
             else if Usable(a, Fields.UrgencyBlockT) then Some(Fields.UrgencyBlockT)
             else None;
    match b
    case None => None
    case Some(k) =>
      Some((k, if Fields.UrgencyFieldS in a[k][0] then Fields.UrgencyFieldS else Fields.UrgencyFieldT))
  }

  /** The urgency the back end would find: the value at `UrgencyPath`. */
  function StoredUrgency(a: Parser.Analysis): (r: Option<string>)
    ensures r.None? <==> !Usable(a, Fields.UrgencyBlockS) && !Usable(a, Fields.UrgencyBlockT)
    ensures Usable(a, Fields.UrgencyBlockS) && Fields.UrgencyFieldS in a[Fields.UrgencyBlockS][0] ==>
              r == Some(a[Fields.UrgencyBlockS][0][Fields.UrgencyFieldS])
    ensures Usable(a, Fields.UrgencyBlockS) && Fields.UrgencyFieldS !in a[Fields.UrgencyBlockS][0] ==>
              r == Some(a[Fields.UrgencyBlockS][0][Fields.UrgencyFieldT])
    ensures !Usable(a, Fields.UrgencyBlockS) && Usable(a, Fields.UrgencyBlockT) ==>
              r == Some(a[Fields.UrgencyBlockT][0][if Fields.UrgencyFieldS in a[Fields.UrgencyBlockT][0] then Fields.UrgencyFieldS else Fields.UrgencyFieldT])
  {
    match UrgencyPath(a)
    case None => None
    case Some((b, f)) => Some(a[b][0][f])
  }

  /** Element 0 of a block with one field set; the other elements are kept. */
  function SetFirst(block: seq<Parser.Item>, field: string, value: string): (r: seq<Parser.Item>)
    ensures |r| == (if |block| == 0 then 1 else |block|)
    ensures field in r[0] && r[0][field] == value
    ensures |block| > 0 ==> r[0] == block[0][field := value] && r[1..] == block[1..]
    ensures |block| == 0 ==> r == [map[field := value]]
  {
    var b := if |block| == 0 then [map[]] else block;
    [b[0][field := value]] + b[1..]
  }

  /** The JSON half of `update_email_urgency`: the found field is overwritten; when none is
      found, the simplified block's element 0 gets the simplified field, the block and the
      element being created as needed. */
  function UpdateUrgencyJson(a: Parser.Analysis, u: string): (r: Parser.Analysis)
    ensures StoredUrgency(r) == Some(u)
    ensures r.Keys == a.Keys + {if UrgencyPath(a).Some? then UrgencyPath(a).value.0 else Fields.UrgencyBlockS}
    ensures forall k :: k in a && Some(k) != (if UrgencyPath(a).Some? then Some(UrgencyPath(a).value.0) else Some(Fields.UrgencyBlockS))
              ==> r[k] == a[k]
  {
    match UrgencyPath(a)
    case Some((b, f)) =>
      var r := a[b := SetFirst(a[b], f, u)];
      assert UrgencyPath(r) == Some((b, f)) by {
        assert b == Fields.UrgencyBlockS ==> Usable(r, b);
        assert b != Fields.UrgencyBlockS && Fields.UrgencyBlockS in a ==> r[Fields.UrgencyBlockS] == a[Fields.UrgencyBlockS];
        assert Fields.UrgencyFieldS in r[b][0] <==> Fields.UrgencyFieldS in a[b][0];
      }
      r
    case None =>
      var block := if Fields.UrgencyBlockS in a then a[Fields.UrgencyBlockS] else [];
      var r := a[Fields.UrgencyBlockS := SetFirst(block, Fields.UrgencyFieldS, u)];
      assert Usable(r, Fields.UrgencyBlockS);
      r
  }

  /** Element 0 keeps every field but the one written, and the other elements are kept. */
  lemma {:induction false} UpdateUrgencyJsonFrame(a: Parser.Analysis, u: string)
    requires UrgencyPath(a).Some?
    ensures var (b, f) := UrgencyPath(a).value;
            var r := UpdateUrgencyJson(a, u);
            && |r[b]| == |a[b]| && r[b][1..] == a[b][1..]
            && (forall g :: g in a[b][0] && g != f ==> g in r[b][0] && r[b][0][g] == a[b][0][g])
            && r[b][0].Keys == a[b][0].Keys
  {
  }

  /** The stored map as the front end receives it. */
  function ItemJson(it: Parser.Item): Js.Json {
    Js.JObj(map k | k in it :: Js.JStr(it[k]))
  }

  function BlockJson(block: seq<Parser.Item>): (r: Js.Json)
    ensures r.JArr? && |r.items| == |block|
    ensures forall i :: 0 <= i < |block| ==> r.items[i] == ItemJson(block[i])
  {
    Js.JArr(seq(|block|, i requires 0 <= i < |block| => ItemJson(block[i])))
  }

  function ToJson(a: Parser.Analysis): Js.Json {
    Js.JObj(map k | k in a :: BlockJson(a[k]))
  }

  /** After an urgency change the front end shows the new level, unless the update went to the
      traditional block while a simplified block exists: the front end commits to the
      simplified block, which then lacks the field. */
  lemma {:induction false} UrgencyShownAfterUpdate(a: Parser.Analysis, u: string)
    requires u != []
    requires !(Fields.UrgencyBlockS in a && !Usable(a, Fields.UrgencyBlockS) && Usable(a, Fields.UrgencyBlockT))
    ensures Fields.DisplayedUrgency(ToJson(UpdateUrgencyJson(a, u))) == Js.JStr(u)
  {
    var r := UpdateUrgencyJson(a, u);
    assert UrgencyPath(r).value.0 == Fields.UrgencyBlockT ==> Fields.UrgencyBlockS !in r;
    DisplayedStored(r);
  }

  /** The front end shows the stored urgency when it is non-empty, unless it sits in the
      traditional block beside a simplified block the front end commits to. */
  lemma {:induction false} DisplayedStored(r: Parser.Analysis)
    requires StoredUrgency(r).Some? && StoredUrgency(r).value != []
    requires UrgencyPath(r).value.0 == Fields.UrgencyBlockT ==> Fields.UrgencyBlockS !in r
    ensures Fields.DisplayedUrgency(ToJson(r)) == Js.JStr(StoredUrgency(r).value)
  {
    var (b, f) := UrgencyPath(r).value;
    var j := ToJson(r);
    assert Js.Member(Some(j), b) == Some(BlockJson(r[b]));
    assert Js.First(Some(BlockJson(r[b]))) == Some(ItemJson(r[b][0]));
    if f == Fields.UrgencyFieldT {
      assert Fields.UrgencyFieldS !in r[b][0];
    }
  }

  /** The other direction: when the update goes to the traditional block while a simplified
      block exists, the front end shows the unrated label. */
  lemma {:induction false} UrgencyHiddenAfterUpdate(a: Parser.Analysis, u: string)
    requires Fields.UrgencyBlockS in a && !Usable(a, Fields.UrgencyBlockS) && Usable(a, Fields.UrgencyBlockT)
    ensures Fields.DisplayedUrgency(ToJson(UpdateUrgencyJson(a, u))) == Js.JStr(Fields.NotRated)
  {
    var r := UpdateUrgencyJson(a, u);
    var j := ToJson(r);
    assert r[Fields.UrgencyBlockS] == a[Fields.UrgencyBlockS];
    assert Js.Member(Some(j), Fields.UrgencyBlockS) == Some(BlockJson(r[Fields.UrgencyBlockS]));
    if |r[Fields.UrgencyBlockS]| > 0 {
      assert Js.First(Some(BlockJson(r[Fields.UrgencyBlockS]))) == Some(ItemJson(r[Fields.UrgencyBlockS][0]));
    }
  }

  // ---------------------------------------------------------------------------------------------
  // The urgency rewrite of the markdown

  /** The urgency labels of the line pattern `-\s*\*\*(?:紧急|緊急)程度\*\*:\s*`, from the
      first `*` to the colon. */
  const UrgencyKeyS := "**紧急程度**:"
  const UrgencyKeyT := "**緊急程度**:"

  /** Neither label holds a dash or a line break, and both have nine characters. */
  lemma {:induction false} KeyChars()
    ensures |UrgencyKeyS| == 9 && |UrgencyKeyT| == 9
    ensures forall m :: 0 <= m < 9 ==> UrgencyKeyS[m] != '-' && UrgencyKeyS[m] != '\n'
    ensures forall m :: 0 <= m < 9 ==> UrgencyKeyT[m] != '-' && UrgencyKeyT[m] != '\n'
    ensures UrgencyKeyS[0] == '*' && UrgencyKeyT[0] == '*'
  {
  }

  /** The first position at or after `j` that is not whitespace (or the end). */
  function SkipSpace(s: string, j: nat): (k: nat)
    requires j <= |s|
    ensures j <= k <= |s|
    ensures forall m :: j <= m < k ==> Text.IsSpace(s[m])
    ensures k < |s| ==> !Text.IsSpace(s[k])
  {
    var n := Text.LeadingSpace(s[j..]);
    assert forall m :: j <= m < j + n ==> s[m] == s[j..][..n][m - j];
    j + n
  }

  /** The first line break at or after `k` (or the end). */
  function LineEndFrom(s: string, k: nat): (e: nat)
    requires k <= |s|
    ensures k <= e <= |s|
    ensures forall m :: k <= m < e ==> s[m] != '\n'
    ensures e < |s| ==> s[e] == '\n'
  {
    var l := LineEnd(s[k..]);
    assert forall m :: k <= m < k + l ==> s[m] == s[k..][m - k];
    k + l
  }

  /** Where the label would start for a dash at `i`: the first non-whitespace after it. */
  function KeyStart(s: string, i: nat): (j: nat)
    requires i < |s|
    ensures i < j <= |s|
    ensures forall m :: i < m < j ==> Text.IsSpace(s[m])
    ensures j < |s| ==> !Text.IsSpace(s[j])
  {
    SkipSpace(s, i + 1)
  }

  predicate KeyAt(s: string, j: nat) {
    Text.OccursAt(s, UrgencyKeyS, j) || Text.OccursAt(s, UrgencyKeyT, j)
  }

  /** A match of the urgency line pattern at `i`: where its captured prefix ends (after the
      whitespace following the colon, which may cross line breaks) and where the value ends (at
      the next line break, the dot not matching one). */
  function MatchAt(s: string, i: nat): (r: Option<(nat, nat)>)
    ensures r.Some? <==> i < |s| && s[i] == '-' && KeyAt(s, KeyStart(s, i))
    ensures r.Some? ==> var (k, e) := r.value;
              && KeyStart(s, i) + 9 <= k <= e <= |s|
              && (forall m :: KeyStart(s, i) + 9 <= m < k ==> Text.IsSpace(s[m]))
              && (k < |s| ==> !Text.IsSpace(s[k]))
              && (forall m :: k <= m < e ==> s[m] != '\n')
              && (e < |s| ==> s[e] == '\n')
  {
    if i < |s| && s[i] == '-' && KeyAt(s, KeyStart(s, i)) then
      KeyChars();
      var k := SkipSpace(s, KeyStart(s, i) + 9);
      Some((k, LineEndFrom(s, k)))
    else None
  }

  /** The leftmost match at or after `from`. */
  function NextMatch(s: string, from: nat): (r: Option<nat>)
    ensures r.Some? ==> from <= r.value < |s| && MatchAt(s, r.value).Some?
    ensures forall i :: from <= i < (if r.Some? then r.value else |s|) ==> MatchAt(s, i).None?
    decreases |s| - from
  {
    if from >= |s| then None
    else if MatchAt(s, from).Some? then Some(from)
    else NextMatch(s, from + 1)
  }

  /** `urgency_pattern.sub(r"\1" + v, s)`: the leftmost match keeps its prefix and has its value
      replaced by `v`, and the scan resumes on the text after the replaced value (the pattern has
      no anchors or lookbehind, so a match never depends on the text before it). */
  function Substitute(s: string, v: string): (r: string)
    ensures NextMatch(s, 0).None? ==> r == s
    decreases |s|
  {
    match NextMatch(s, 0)
    case None => s
    case Some(i) =>
      var (k, e) := MatchAt(s, i).value;
      s[..k] + v + Substitute(s[e..], v)
  }

  /** The section appended when the markdown has no urgency line. */
  function AppendedSection(v: string): string {
    AppendedHead + UrgencyKeyS + " " + v + "\n"
  }

  /** The appended section up to its label: a blank line, the heading, a blank line, a dash. */
  const AppendedHead := "\n\n### 邮件紧急程度评估\n\n- "

  /** The markdown half of `update_email_urgency`. */
  function UpdateUrgencyMarkdown(md: string, v: string): (r: string)
    ensures NextMatch(md, 0).None? ==> r == Text.Strip(md) + AppendedSection(v)
  {
    if NextMatch(md, 0).Some? then Substitute(md, v) else Text.Strip(md) + AppendedSection(v)
  }

  /** The urgency the markdown states: the value of its first urgency line. */
  function MarkdownUrgency(md: string): Option<string> {
    match NextMatch(md, 0)
    case None => None
    case Some(i) =>
      var (k, e) := MatchAt(md, i).value;
      Some(md[k..e])
  }

  /** A value that reads back as itself: one line, not starting with whitespace. */
  predicate OneLineValue(v: string) {
    v != [] && !Text.IsSpace(v[0]) && forall m :: 0 <= m < |v| ==> v[m] != '\n'
  }

  /** A text that is empty or starts a new line still does after the rewrite. */
  lemma {:induction false} SubstituteHead(u: string, v: string)
    requires u == [] || u[0] == '\n'
    ensures Substitute(u, v) == [] || Substitute(u, v)[0] == '\n'
  {
    if u != [] && NextMatch(u, 0).Some? {
      assert MatchAt(u, 0).None?;
    }
  }

  /** A match only depends on the text from its dash to the end of its label, so it carries over
      to any text holding the same characters elsewhere. */
  lemma {:induction false} MatchTransfer(s: string, i: nat, t: string, i2: nat, n: nat)
    requires i < n <= |s| && i2 + (n - i) <= |t| && s[i..n] == t[i2..i2 + (n - i)]
    requires MatchAt(s, i).Some? && KeyStart(s, i) + 9 <= n
    ensures MatchAt(t, i2).Some? && KeyStart(t, i2) == i2 + (KeyStart(s, i) - i)
  {
    LabelTransfer(s, i, t, i2, n);
  }

  /** The dash and label of a match carry over to a text holding the same characters. */
  lemma {:induction false} LabelTransfer(s: string, i: nat, t: string, i2: nat, n: nat)
    requires i < n <= |s| && i2 + (n - i) <= |t| && s[i..n] == t[i2..i2 + (n - i)]
    requires s[i] == '-' && KeyAt(s, KeyStart(s, i)) && KeyStart(s, i) + 9 <= n
    ensures i2 < |t| && t[i2] == '-' && KeyStart(t, i2) == i2 + (KeyStart(s, i) - i)
    ensures KeyAt(t, KeyStart(t, i2))
  {
    var j := KeyStart(s, i);
    var j2 := i2 + (j - i);
    SliceAgree(s, i, n, t, i2);
    assert t[i2] == '-';
    forall m | i2 < m < j2 ensures Text.IsSpace(t[m]) {
      assert t[m] == s[i + (m - i2)];
    }
    assert t[j2] == s[j];
    KeyStartAt(t, i2, j2);
    assert t[j2..j2 + 9] == s[j..j + 9];
  }

  /** Equal slices agree position by position. */
  lemma {:induction false} SliceAgree(s: string, i: nat, n: nat, t: string, i2: nat)
    requires i <= n <= |s| && i2 + (n - i) <= |t| && s[i..n] == t[i2..i2 + (n - i)]
    ensures forall m :: i <= m < n ==> t[i2 + (m - i)] == s[m]
  {
    forall m | i <= m < n ensures t[i2 + (m - i)] == s[m] {
      assert s[i..n][m - i] == s[m];
      assert t[i2..i2 + (n - i)][m - i] == t[i2 + (m - i)];
    }
  }

  /** The label starts at the first non-whitespace after the dash. */
  lemma {:induction false} KeyStartAt(t: string, i: nat, j: nat)
    requires i < j < |t| && !Text.IsSpace(t[j])
    requires forall m :: i < m < j ==> Text.IsSpace(t[m])
    ensures KeyStart(t, i) == j
  {
  }

  /** A match starting before a dash has its label wholly before that dash. */
  lemma {:induction false} MatchBefore(t: string, i1: nat, i: nat)
    requires i1 < i < |t| && t[i] == '-' && MatchAt(t, i1).Some?
    ensures KeyStart(t, i1) + 9 <= i
  {
    KeyChars();
  }

  /** Where a value is followed by a line break or the end, the match ends right after it. */
  lemma {:induction false} MatchValue(t: string, i: nat, k: nat, v: string)
    requires MatchAt(t, i).Some? && KeyStart(t, i) + 9 <= k <= |t|
    requires forall m :: KeyStart(t, i) + 9 <= m < k ==> Text.IsSpace(t[m])
    requires OneLineValue(v) && k + |v| <= |t| && t[k..k + |v|] == v
    requires k + |v| == |t| || t[k + |v|] == '\n'
    ensures MatchAt(t, i) == Some((k, k + |v|))
  {
    var (k2, e2) := MatchAt(t, i).value;
    assert t[k] == v[0];
    assert k2 == k;
    forall m | k <= m < k + |v| ensures t[m] != '\n' {
      assert t[m] == v[m - k];
    }
  }

  /** The leftmost match is the one every earlier position lacks. */
  lemma {:induction false} FirstMatch(t: string, i: nat)
    requires MatchAt(t, i).Some? && forall i1 :: 0 <= i1 < i ==> MatchAt(t, i1).None?
    ensures NextMatch(t, 0) == Some(i)
  {
  }

  /** A text agreeing with a match-free prefix up to a dash has no match before that dash. */
  lemma {:induction false} SharedPrefixNoMatch(s: string, t: string, i: nat)
    requires i <= |s| && i < |t| && t[i] == '-' && t[..i] == s[..i]
    requires forall i1 :: 0 <= i1 < i ==> MatchAt(s, i1).None?
    ensures forall i1 :: 0 <= i1 < i ==> MatchAt(t, i1).None?
  {
    forall i1 | 0 <= i1 < i ensures MatchAt(t, i1).None? {
      if MatchAt(t, i1).Some? {
        MatchBefore(t, i1, i);
        assert t[i1..i] == t[..i][i1..i] == s[..i][i1..i] == s[i1..i];
        MatchTransfer(t, i1, s, i1, i);
      }
    }
  }

  /** With at least one urgency line, the rewritten text's first urgency line reads `v`. */
  lemma {:induction false} ReplacedRead(s: string, v: string, i: nat)
    requires NextMatch(s, 0) == Some(i) && OneLineValue(v)
    ensures MarkdownUrgency(Substitute(s, v)) == Some(v)
  {
    var (k, e) := MatchAt(s, i).value;
    var rest := Substitute(s[e..], v);
    var t := s[..k] + v + rest;
    ScanStep(s, i, k, e, v);
    assert e == |s| || s[e..][0] == '\n';
    SubstituteHead(s[e..], v);
    RewrittenHead(s, v, i, k, e, rest);
    SpliceSlices(s, k, v, rest);
  }

  /** The match at `i` survives the rewrite with `v` as its value. */
  lemma {:induction false} ReplacedMatch(s: string, i: nat, k: nat, v: string, rest: string)
    requires MatchAt(s, i).Some? && MatchAt(s, i).value.0 == k
    requires OneLineValue(v) && (rest == [] || rest[0] == '\n')
    ensures i < k && s[..i] == (s[..k] + v + rest)[..i]
    ensures MatchAt(s[..k] + v + rest, i) == Some((k, k + |v|))
  {
    var t := s[..k] + v + rest;
    SpliceParts(s, i, k, v, rest);
    MatchTransfer(s, i, t, i, k);
    MatchValue(t, i, k, v);
  }

  /** A text with its tail from `k` replaced by `v` and `rest`, piece by piece. */
  lemma {:induction false} SpliceParts(s: string, i: nat, k: nat, v: string, rest: string)
    requires i <= k <= |s|
    ensures var t := s[..k] + v + rest;
            && |t| == k + |v| + |rest| && s[i..k] == t[i..k] && s[..i] == t[..i]
            && (forall m :: 0 <= m < k ==> t[m] == s[m])
            && t[k..k + |v|] == v
            && (k + |v| < |t| ==> t[k + |v|] == rest[0])
  {
    var t := s[..k] + v + rest;
    assert t[k..k + |v|] == v;
  }

  /** The stripped text is a slice of the text. */
  lemma {:induction false} StripSlice(s: string)
    ensures Text.LeadingSpace(s) + |Text.Strip(s)| <= |s|
    ensures Text.Strip(s) == s[Text.LeadingSpace(s)..Text.LeadingSpace(s) + |Text.Strip(s)|]
  {
  }

  lemma {:induction false} HeadChars()
    ensures |AppendedHead| == 18
    ensures AppendedHead[0] == '\n' && AppendedHead[1] == '\n' && AppendedHead[2] == '#'
    ensures forall m :: 0 <= m < 16 ==> AppendedHead[m] != '-'
    ensures AppendedHead[16] == '-' && AppendedHead[17] == ' '
  {
  }

  /** The appended section, character by character around its urgency line. */
  lemma {:induction false} AppendedChars(v: string)
    ensures |AppendedSection(v)| == 29 + |v|
    ensures AppendedSection(v)[0] == '\n' && AppendedSection(v)[1] == '\n' && AppendedSection(v)[2] == '#'
    ensures forall m :: 0 <= m < 16 ==> AppendedSection(v)[m] != '-'
    ensures AppendedSection(v)[16] == '-' && AppendedSection(v)[17] == ' '
    ensures AppendedSection(v)[18..27] == UrgencyKeyS && AppendedSection(v)[27] == ' '
    ensures AppendedSection(v)[28..28 + |v|] == v && AppendedSection(v)[28 + |v|] == '\n'
  {
    HeadChars();
    KeyChars();
    var x := AppendedSection(v);
    var lead := AppendedHead + UrgencyKeyS + " ";
    assert x == lead + (v + "\n");
    assert |lead| == 28;
    assert forall m :: 0 <= m < 18 ==> x[m] == AppendedHead[m];
    assert x[18..27] == UrgencyKeyS;
    assert x[27] == ' ';
    assert x[28..28 + |v|] == v;
  }

  /** The appended line is a match reading `v`. */
  lemma {:induction false} AppendedMatch(st: string, v: string)
    requires OneLineValue(v)
    ensures |st| + 16 < |st + AppendedSection(v)|
    ensures MatchAt(st + AppendedSection(v), |st| + 16) == Some((|st| + 28, |st| + 28 + |v|))
  {
    AppendedChars(v);
    var x := AppendedSection(v);
    var t := st + x;
    var p := |st| + 16;
    AppendedLabel(st, x);
    assert t[p + 12..p + 12 + |v|] == x[28..28 + |v|];
    assert t[p + 12 + |v|] == x[28 + |v|];
    MatchValue(t, p, p + 12, v);
  }

  /** After any text, the appended section's dash starts a match whose label is the one written. */
  lemma {:induction false} AppendedLabel(st: string, x: string)
    requires |x| > 28 && x[16] == '-' && x[17] == ' ' && x[18..27] == UrgencyKeyS && x[27] == ' '
    ensures var t, p := st + x, |st| + 16;
            MatchAt(t, p).Some? && KeyStart(t, p) == p + 2 && t[p + 11] == ' '
  {
    KeyChars();
    var t := st + x;
    var p := |st| + 16;
    assert t[p] == '-' && t[p + 1] == ' ' && t[p + 2] == '*';
    assert KeyStart(t, p) == p + 2;
    assert t[p + 2..p + 11] == x[18..27];
    assert KeyAt(t, p + 2);
    assert t[p + 11] == x[27];
  }

  /** No match starts in the stripped text or the appended header lines. */
  lemma {:induction false} AppendedNoEarlierMatch(md: string, v: string, i1: nat)
    requires NextMatch(md, 0).None?
    requires i1 < |Text.Strip(md)| + 16
    ensures MatchAt(Text.Strip(md) + AppendedSection(v), i1).None?
  {
    AppendedChars(v);
    var st := Text.Strip(md);
    var t := st + AppendedSection(v);
    if i1 >= |st| {
      assert t[i1] == AppendedSection(v)[i1 - |st|];
    } else {
      StripSlice(md);
      SliceNoMatch(md, Text.LeadingSpace(md), st, AppendedSection(v), i1);
    }
  }

  /** Nothing appended after a slice of a match-free text, when it starts with two line breaks
      and a `#`, creates a match inside the slice. */
  lemma {:induction false} SliceNoMatch(md: string, a: nat, st: string, x: string, i1: nat)
    requires NextMatch(md, 0).None?
    requires a + |st| <= |md| && st == md[a..a + |st|]
    requires |x| > 2 && x[0] == '\n' && x[1] == '\n' && x[2] == '#'
    requires i1 < |st|
    ensures MatchAt(st + x, i1).None?
  {
    if MatchAt(st + x, i1).Some? {
      StraddleFree(st, x, i1);
      PrefixMatch(st, x, i1);
      SliceOfSlice(md, a, a + |st|, i1, |st|);
      MatchInSlice(md, a, st, i1);
    }
  }

  lemma {:induction false} PrefixMatch(st: string, x: string, i1: nat)
    requires i1 < |st| && MatchAt(st + x, i1).Some? && KeyStart(st + x, i1) + 9 <= |st|
    ensures MatchAt(st, i1).Some? && KeyStart(st, i1) + 9 <= |st|
  {
    var t := st + x;
    assert t[i1..|st|] == st[i1..|st|];
    MatchTransfer(t, i1, st, i1, |st|);
  }

  /** A match inside a slice, whose label ends inside it, is a match of the whole text. */
  lemma {:induction false} MatchInSlice(s: string, a: nat, w: string, i1: nat)
    requires i1 < |w| && a + |w| <= |s| && w[i1..|w|] == s[a + i1..a + |w|]
    requires MatchAt(w, i1).Some? && KeyStart(w, i1) + 9 <= |w|
    ensures MatchAt(s, a + i1).Some?
  {
    MatchTransfer(w, i1, s, a + i1, |w|);
  }

  lemma {:induction false} SliceOfSlice(s: string, a: nat, b: nat, i: nat, j: nat)
    requires a <= b <= |s| && i <= j <= b - a
    ensures s[a..b][i..j] == s[a + i..a + j]
  {
    assert forall k :: 0 <= k < j - i ==> s[a..b][i..j][k] == s[a + i + k];
  }

  /** A label cannot run from the stripped text into the appended section, which starts with two
      line breaks and a `#`. */
  lemma {:induction false} StraddleFree(st: string, x: string, i1: nat)
    requires |x| > 2 && x[0] == '\n' && x[1] == '\n' && x[2] == '#'
    requires i1 < |st| && MatchAt(st + x, i1).Some?
    ensures KeyStart(st + x, i1) + 9 <= |st|
  {
    KeyChars();
    var t := st + x;
    assert t[|st|] == '\n' && t[|st| + 2] == '#';
  }

  /** Without an urgency line, the appended section's line is the first one, and reads `v`. */
  lemma {:induction false} AppendedRead(md: string, v: string)
    requires NextMatch(md, 0).None? && OneLineValue(v)
    ensures MarkdownUrgency(Text.Strip(md) + AppendedSection(v)) == Some(v)
  {
    var st := Text.Strip(md);
    forall i1 | 0 <= i1 < |st| + 16 ensures MatchAt(st + AppendedSection(v), i1).None? {
      AppendedNoEarlierMatch(md, v, i1);
    }
    AppendedFirst(st, v);
  }

  /** When nothing before the appended line matches, that line is the first one, and reads `v`. */
  lemma {:induction false} AppendedFirst(st: string, v: string)
    requires OneLineValue(v)
    requires forall i1 :: 0 <= i1 < |st| + 16 ==> MatchAt(st + AppendedSection(v), i1).None?
    ensures MarkdownUrgency(st + AppendedSection(v)) == Some(v)
  {
    AppendedMatch(st, v);
    FirstMatch(st + AppendedSection(v), |st| + 16);
    AppendedValue(st, v);
  }

  /** When the appended line is the first match, its value is read. */
  lemma {:induction false} AppendedValue(st: string, v: string)
    requires OneLineValue(v) && NextMatch(st + AppendedSection(v), 0) == Some(|st| + 16)
    ensures MarkdownUrgency(st + AppendedSection(v)) == Some(v)
  {
    AppendedChars(v);
    AppendedMatch(st, v);
    ValueAfter(st, AppendedSection(v), v);
  }

  /** The first match lying in the part after `st`, at a known place, reads the value there. */
  lemma {:induction false} ValueAfter(st: string, x: string, v: string)
    requires |x| == 29 + |v| && x[28..28 + |v|] == v
    requires NextMatch(st + x, 0) == Some(|st| + 16)
    requires MatchAt(st + x, |st| + 16) == Some((|st| + 28, |st| + 28 + |v|))
    ensures MarkdownUrgency(st + x) == Some(v)
  {
    var t := st + x;
    SliceAfter(st, x, 28, 28 + |v|);
    assert t[|st| + 28..|st| + 28 + |v|] == v;
    UrgencyAt(t, |st| + 16, |st| + 28, |st| + 28 + |v|);
  }

  /** A slice of the part after a prefix, read in the whole text. */
  lemma {:induction false} SliceAfter(st: string, x: string, a: nat, b: nat)
    requires a <= b <= |x|
    ensures (st + x)[|st| + a..|st| + b] == x[a..b]
  {
    assert forall m :: a <= m < b ==> (st + x)[|st| + m] == x[m];
  }

  /** The value read is the one of the first match. */
  lemma {:induction false} UrgencyAt(t: string, i: nat, k: nat, e: nat)
    requires NextMatch(t, 0) == Some(i) && MatchAt(t, i) == Some((k, e))
    ensures k <= e <= |t| && MarkdownUrgency(t) == Some(t[k..e])
  {
  }

  /** After an urgency change the markdown's first urgency line reads the new value, whether
      the lines were rewritten or the section was appended. */
  lemma {:induction false} MarkdownUrgencyRoundTrip(md: string, v: string)
    requires OneLineValue(v)
    ensures MarkdownUrgency(UpdateUrgencyMarkdown(md, v)) == Some(v)
  {
    match NextMatch(md, 0)
    case Some(i) => ReplacedRead(md, v, i);
    case None => AppendedRead(md, v);
  }

  // ---------------------------------------------------------------------------------------------
  // The whole urgency update

  /** The two columns of a stored email that an urgency change rewrites; either may be NULL. */
  datatype AnalysisColumns = AnalysisColumns(json: Option<string>, markdown: Option<string>)

  /** `update_email_urgency`: the email is looked up by id (`row`), its JSON text decoded by
      `parse` (`json.loads`, `None` where it raises) and both halves rewritten; the new columns
      are written back and returned. A missing email gives `None`; so do a NULL JSON column, which
      `json.loads` refuses, text that does not decode, and a NULL markdown column, on which the
      pattern search raises: each is caught, and nothing is written. */
  function UpdateEmailUrgency(row: Option<AnalysisColumns>, parse: string -> Option<Parser.Analysis>, u: string)
    : (r: Option<(string, Parser.Analysis)>)
    ensures row.None? ==> r.None?
    ensures row.Some? && row.value.json.None? ==> r.None?
    ensures row.Some? && row.value.json.Some? && parse(row.value.json.value).None? ==> r.None?
    ensures row.Some? && row.value.markdown.None? ==> r.None?
    ensures r.Some? <==> (row.Some? && row.value.json.Some? && row.value.markdown.Some?
                          && parse(row.value.json.value).Some?)
    ensures r.Some? ==> StoredUrgency(r.value.1) == Some(u)
  {
    match row
    case None => None
    case Some(cols) =>
      if cols.json.None? then None
      else
        match parse(cols.json.value)
        case None => None
        case Some(a) =>
          if cols.markdown.None? then None
          else Some((UpdateUrgencyMarkdown(cols.markdown.value, u), UpdateUrgencyJson(a, u)))
  }

  /** A successful urgency change reads back as the new level from both columns: the markdown's
      first urgency line and the field the back end finds in the map. */
  lemma {:induction false} UrgencyUpdateReadsBack(json: string, md: string, parse: string -> Option<Parser.Analysis>,
                                                  u: string)
    requires OneLineValue(u)
    requires parse(json).Some?
    ensures var r := UpdateEmailUrgency(Some(AnalysisColumns(Some(json), Some(md))), parse, u);
            && r.Some?
            && MarkdownUrgency(r.value.0) == Some(u)
            && StoredUrgency(r.value.1) == Some(u)
  {
    MarkdownUrgencyRoundTrip(md, u);
  }

  // ---------------------------------------------------------------------------------------------
  // Every urgency line is rewritten, and nothing else

  /** The values of the urgency lines the pattern finds, left to right, each scan resuming after
      the previous line's value. */
  function UrgencyValues(s: string): (r: seq<string>)
    ensures NextMatch(s, 0).None? <==> r == []
    decreases |s|
  {
    match NextMatch(s, 0)
    case None => []
    case Some(i) =>
      var (k, e) := MatchAt(s, i).value;
      [s[k..e]] + UrgencyValues(s[e..])
  }

  /** Rewriting every urgency line with a one-line value `v`: scanning the result finds as many
      urgency lines as before, each reading `v`, and erasing the values of both texts gives the
      same text, so nothing outside the values changed. */
  lemma {:induction false} EveryLineRewritten(s: string, v: string)
    requires OneLineValue(v)
    ensures var t := Substitute(s, v);
            && |UrgencyValues(t)| == |UrgencyValues(s)|
            && (forall j :: 0 <= j < |UrgencyValues(t)| ==> UrgencyValues(t)[j] == v)
            && Substitute(t, []) == Substitute(s, [])
    decreases |s|
  {
    match NextMatch(s, 0)
    case None =>
    case Some(i) =>
      var (k, e) := MatchAt(s, i).value;
      var r := s[e..];
      EveryLineRewritten(r, v);
      var rest := Substitute(r, v);
      ScanStep(s, i, k, e, v);
      var t := Substitute(s, v);
      RewriteStep(s, v, i, k, e, t);
      RescanStep(t, i, k, v, rest, s[..k]);
      ScanStep(s, i, k, e, []);
      Combine(UrgencyValues(t), UrgencyValues(rest), UrgencyValues(s), UrgencyValues(r), v, s[k..e],
              Substitute(t, []), Substitute(rest, []), Substitute(s, []), Substitute(r, []), s[..k] + []);
  }

  /** The rewritten text's first urgency line is the original's with value `v`, followed by the
      rewritten rest. */
  lemma {:induction false} RewriteStep(s: string, v: string, i: nat, k: nat, e: nat, t: string)
    requires NextMatch(s, 0) == Some(i) && MatchAt(s, i) == Some((k, e)) && OneLineValue(v)
    requires t == s[..k] + v + Substitute(s[e..], v)
    ensures NextMatch(t, 0) == Some(i) && MatchAt(t, i) == Some((k, k + |v|))
    ensures t[k..k + |v|] == v && t[k + |v|..] == Substitute(s[e..], v) && t[..k] == s[..k]
  {
    var r := s[e..];
    var rest := Substitute(r, v);
    assert NextMatch(t, 0) == Some(i) && MatchAt(t, i) == Some((k, k + |v|)) by {
      assert e == |s| || r[0] == '\n';
      SubstituteHead(r, v);
      RewrittenHead(s, v, i, k, e, rest);
    }
    SpliceSlices(s, k, v, rest);
  }

  /** Both scans of the rewritten text continue after its first urgency line. */
  lemma {:induction false} RescanStep(t: string, i: nat, k: nat, v: string, rest: string, head: string)
    requires NextMatch(t, 0) == Some(i) && MatchAt(t, i) == Some((k, k + |v|))
    requires t[k..k + |v|] == v && t[k + |v|..] == rest && t[..k] == head
    ensures UrgencyValues(t) == [v] + UrgencyValues(rest)
    ensures Substitute(t, []) == head + [] + Substitute(rest, [])
  {
    ScanStep(t, i, k, k + |v|, []);
  }

  /** The induction step of `EveryLineRewritten`, on the scans alone. */
  lemma {:induction false} Combine(ut: seq<string>, urt: seq<string>, us: seq<string>, urs: seq<string>, v: string, x: string,
                                   et: string, ert: string, es: string, ers: string, head: string)
    requires ut == [v] + urt && us == [x] + urs && |urt| == |urs|
    requires forall j :: 0 <= j < |urt| ==> urt[j] == v
    requires et == head + ert && es == head + ers && ert == ers
    ensures |ut| == |us| && (forall j :: 0 <= j < |ut| ==> ut[j] == v) && et == es
  {
    assert forall j :: 1 <= j < |ut| ==> ut[j] == urt[j - 1];
  }

  /** One step of both scans: the leftmost line, then the scan of the text after its value. */
  lemma {:induction false} ScanStep(s: string, i: nat, k: nat, e: nat, w: string)
    requires NextMatch(s, 0) == Some(i) && MatchAt(s, i) == Some((k, e))
    ensures UrgencyValues(s) == [s[k..e]] + UrgencyValues(s[e..])
    ensures Substitute(s, w) == s[..k] + w + Substitute(s[e..], w)
  {
  }

  /** The pieces of a text spliced at `k`. */
  lemma {:induction false} SpliceSlices(s: string, k: nat, v: string, rest: string)
    requires k <= |s|
    ensures var t := s[..k] + v + rest;
            t[k..k + |v|] == v && t[k + |v|..] == rest && t[..k] == s[..k] && t[..k] + [] == s[..k]
  {
    var t := s[..k] + v + rest;
    assert t[k..k + |v|] == v;
    assert t[k + |v|..] == rest;
    assert t[..k] == s[..k];
  }

  /** The first line of the rewritten text is the first line of the original with value `v`,
      when what follows the value is empty or starts a new line. */
  lemma {:induction false} RewrittenHead(s: string, v: string, i: nat, k: nat, e: nat, rest: string)
    requires NextMatch(s, 0) == Some(i) && MatchAt(s, i) == Some((k, e)) && OneLineValue(v)
    requires rest == [] || rest[0] == '\n'
    ensures NextMatch(s[..k] + v + rest, 0) == Some(i)
    ensures MatchAt(s[..k] + v + rest, i) == Some((k, k + |v|))
  {
    var t := s[..k] + v + rest;
    ReplacedMatch(s, i, k, v, rest);
    SharedPrefixNoMatch(s, t, i);
    FirstMatch(t, i);
  }
}

=== FILE: stream.dfy ===
/** The sync endpoint's event stream: the two maintenance scripts run in order, their output is
    relayed line by line, and the stream ends with an error line or the completion sentinel. Each
    event is framed as a server-sent event (section 9.2 of the WHATWG HTML Living Standard). */
module SyncStream {
  import opened Wrappers
  import Text

  /** How a script run ends: with an exit code, or with an exception raised while starting it or
      reading its output. `notFound` marks a `FileNotFoundError`. */
  datatype Ending = Exited(code: int) | Raised(notFound: bool, message: string)

  /** What one script run produced: its output lines, as read, and how it ended. */
  datatype Run = Run(output: seq<string>, ending: Ending)

  const UpdateScript := "邮件更新"
  const OrganizeScript := "数据库整理"
  const Complete := "SYNC_COMPLETE"
  const MissingInterpreter := "Python 解释器未在 .venv/Scripts/python.exe 中找到。"

  function StartMarker(name: string): string {
    "--- 开始执行: " + name + " ---"
  }

  function DoneMarker(name: string): string {
    "--- 完成: " + name + " ---"
  }

  function FailureLine(name: string, code: int): string {
    "ERROR: 脚本 '" + name + "' 执行失败，返回码: " + Text.IntToString(code) + "。"
  }

  function EnvironmentError(message: string): string {
    "ERROR: 执行环境错误: " + message
  }

  function UnknownError(message: string): string {
    "ERROR: 同步过程中发生未知错误: " + message
  }

  /** The lines the client treats as the end of the stream. */
  predicate IsTerminal(line: string) {
    Text.StartsWith(line, "ERROR:") || line == Complete
  }

  /** Each output line is relayed stripped of surrounding whitespace. */
  function Relay(output: seq<string>): (r: seq<string>)
    ensures |r| == |output|
    ensures forall i :: 0 <= i < |output| ==> r[i] == Text.Strip(output[i])
  {
    if |output| == 0 then [] else [Text.Strip(output[0])] + Relay(output[1..])
  }

  /** The exception handlers of the generator: a missing file is an environment error, anything
      else an unknown error. */
  function RaisedLine(notFound: bool, message: string): (r: string)
    ensures Text.StartsWith(r, "ERROR:")
  {
    var r := if notFound then EnvironmentError(message) else UnknownError(message);
    assert r[..6] == "ERROR:";
    r
  }

  /** An error line is terminal and is not the sentinel. */
  lemma {:induction false} ErrorLineIsTerminal(line: string)
    requires Text.StartsWith(line, "ERROR:")
    ensures IsTerminal(line) && line != Complete
  {
    assert line[0] == 'E';
  }

  lemma {:induction false} FailureLineIsError(name: string, code: int)
    ensures Text.StartsWith(FailureLine(name, code), "ERROR:")
  {
    assert FailureLine(name, code)[..6] == "ERROR:";
  }

  predicate Succeeded(run: Run) {
    run.ending == Exited(0)
  }

  predicate AllSucceeded(scripts: seq<(string, Run)>) {
    |scripts| == 0 || (Succeeded(scripts[0].1) && AllSucceeded(scripts[1..]))
  }

  /** The events of the scripts from the first onward, each paired with its run. */
  function RunScripts(scripts: seq<(string, Run)>): (r: seq<string>)
    ensures |r| >= 1
    ensures IsTerminal(r[|r| - 1])
    ensures r[|r| - 1] == Complete <==> AllSucceeded(scripts)
  {
    if |scripts| == 0 then [Complete]
    else
      var name := scripts[0].0;
      var run := scripts[0].1;
      var head := [StartMarker(name)] + Relay(run.output);
      match run.ending
      case Raised(notFound, message) =>
        var last := RaisedLine(notFound, message);
        ErrorLineIsTerminal(last);
        assert !AllSucceeded(scripts);
        Ended(head, last)
      case Exited(code) =>
        if code != 0 then
          var last := FailureLine(name, code);
          FailureLineIsError(name, code);
          ErrorLineIsTerminal(last);
          assert !AllSucceeded(scripts);
          Ended(head, last)
        else
          var rest := RunScripts(scripts[1..]);
          assert AllSucceeded(scripts) == AllSucceeded(scripts[1..]);
          Ended(head + [DoneMarker(name)] + rest[..|rest| - 1], rest[|rest| - 1])
  }

  /** Events followed by a last one, which is then the last of the list. */
  function Ended(events: seq<string>, last: string): (r: seq<string>)
    ensures |r| >= 1 && r[|r| - 1] == last
  {
    events + [last]
  }

  /** The events of a script that exited normally. */
  function Transcript(name: string, output: seq<string>): seq<string> {
    [StartMarker(name)] + Relay(output) + [DoneMarker(name)]
  }

  lemma {:induction false} RunSuccessStep(name: string, output: seq<string>, later: seq<(string, Run)>)
    ensures RunScripts([(name, Run(output, Exited(0)))] + later) == Transcript(name, output) + RunScripts(later)
  {
    assert ([(name, Run(output, Exited(0)))] + later)[1..] == later;
  }

  lemma {:induction false} RunFailureStep(name: string, output: seq<string>, code: int, later: seq<(string, Run)>)
    requires code != 0
    ensures RunScripts([(name, Run(output, Exited(code)))] + later)
            == [StartMarker(name)] + Relay(output) + [FailureLine(name, code)]
  {
  }

  lemma {:induction false} TwoScripts(update: Run, organize: Run)
    ensures AllSucceeded([(UpdateScript, update), (OrganizeScript, organize)]) <==> Succeeded(update) && Succeeded(organize)
  {
    var scripts := [(UpdateScript, update), (OrganizeScript, organize)];
    assert scripts[1..] == [(OrganizeScript, organize)];
    assert scripts[1..][1..] == [];
    assert AllSucceeded(scripts[1..][1..]);
    assert AllSucceeded(scripts[1..]) == Succeeded(organize);
    assert AllSucceeded(scripts) == (Succeeded(update) && AllSucceeded(scripts[1..]));
  }

  /** `generate_output`: the interpreter check, then the update script, then the organiser. */
  function Generate(interpreterPresent: bool, update: Run, organize: Run): (r: seq<string>)
    ensures |r| >= 1
    ensures IsTerminal(r[|r| - 1])
    ensures r[|r| - 1] == Complete <==> interpreterPresent && Succeeded(update) && Succeeded(organize)
    ensures !interpreterPresent ==> r == [EnvironmentError(MissingInterpreter)]
  {
    if !interpreterPresent then
      ErrorLineIsTerminal(RaisedLine(true, MissingInterpreter));
      [RaisedLine(true, MissingInterpreter)]
    else
      TwoScripts(update, organize);
      RunScripts([(UpdateScript, update), (OrganizeScript, organize)])
  }

  /** When both scripts exit with 0, the stream is each script's transcript, then the sentinel. */
  lemma {:induction false} AllSucceed(update: seq<string>, organize: seq<string>)
    ensures Generate(true, Run(update, Exited(0)), Run(organize, Exited(0)))
            == Transcript(UpdateScript, update) + Transcript(OrganizeScript, organize) + [Complete]
  {
    var u := (UpdateScript, Run(update, Exited(0)));
    var o := (OrganizeScript, Run(organize, Exited(0)));
    RunSuccessStep(UpdateScript, update, [o]);
    RunSuccessStep(OrganizeScript, organize, []);
    assert [u] + [o] == [u, o];
    assert [o] + [] == [o];
  }

  /** A failing update script ends the stream with its failure line: the organiser never starts
      and no sentinel is sent. */
  lemma {:induction false} UpdateFailureStops(update: seq<string>, code: int, organize: Run)
    requires code != 0
    ensures Generate(true, Run(update, Exited(code)), organize)
            == [StartMarker(UpdateScript)] + Relay(update) + [FailureLine(UpdateScript, code)]
  {
    var o := (OrganizeScript, organize);
    RunFailureStep(UpdateScript, update, code, [o]);
    assert [(UpdateScript, Run(update, Exited(code)))] + [o] == [(UpdateScript, Run(update, Exited(code))), o];
  }

  /** A failing organiser comes after the update script's full transcript. */
  lemma {:induction false} OrganizeFailureStops(update: seq<string>, organize: seq<string>, code: int)
    requires code != 0
    ensures Generate(true, Run(update, Exited(0)), Run(organize, Exited(code)))
            == Transcript(UpdateScript, update)
               + ([StartMarker(OrganizeScript)] + Relay(organize) + [FailureLine(OrganizeScript, code)])
  {
    var u := (UpdateScript, Run(update, Exited(0)));
    var o := (OrganizeScript, Run(organize, Exited(code)));
    RunSuccessStep(UpdateScript, update, [o]);
    RunFailureStep(OrganizeScript, organize, code, []);
    assert [u] + [o] == [u, o];
    assert [o] + [] == [o];
  }

  /** One event on the wire: `data: `, the text, and the blank line that dispatches it. */
  function Frame(text: string): string {
    "data: " + text + "\n\n"
  }

  function Encode(events: seq<string>): string {
    if |events| == 0 then [] else Frame(events[0]) + Encode(events[1..])
  }

  predicate SingleLine(t: string) {
    forall k :: 0 <= k < |t| ==> t[k] != '\n' && t[k] != '\r'
  }

  /** The client side of the framing, for the shape the server writes: each event is a `data: `
      line followed by an empty line; the text is the line after the field name and one space. */
  function Decode(s: string): (r: Option<seq<string>>)
    decreases |s|
  {
    if |s| == 0 then Some([])
    else if !Text.StartsWith(s, "data: ") then None
    else
      var body := s[6..];
      match Text.Find(body, "\n")
      case None => None
      case Some(k) =>
        if k + 1 < |body| && body[k + 1] == '\n' then
          match Decode(body[k + 2..])
          case None => None
          case Some(rest) => Some([body[..k]] + rest)
        else None
  }

  lemma {:induction false} FindLineEnd(t: string, tail: string)
    requires SingleLine(t)
    ensures Text.Find(t + "\n" + tail, "\n") == Some(|t|)
  {
    var s := t + "\n" + tail;
    assert Text.OccursAt(s, "\n", |t|);
    assert Text.Contains(s, "\n");
    forall k | 0 <= k < |t|
      ensures !Text.OccursAt(s, "\n", k)
    {
      assert s[k..k + 1] == [t[k]];
    }
  }

  /** Decoding the framed events gives back the events, as long as none spans several lines. */
  lemma {:induction false} DecodeEncode(events: seq<string>)
    requires forall i :: 0 <= i < |events| ==> SingleLine(events[i])
    ensures Decode(Encode(events)) == Some(events)
  {
    if |events| > 0 {
      var t := events[0];
      var rest := Encode(events[1..]);
      var s := Encode(events);
      assert s == "data: " + (t + "\n" + ("\n" + rest));
      assert s[..6] == "data: ";
      var body := s[6..];
      assert body == t + "\n" + ("\n" + rest);
      FindLineEnd(t, "\n" + rest);
      assert body[|t| + 1] == '\n';
      assert body[|t| + 2..] == rest;
      assert body[..|t|] == t;
      DecodeEncode(events[1..]);
      assert [t] + events[1..] == events;
    }
  }
}

=== FILE: text.dfy ===
/** String helpers shared by the front end (JavaScript) and the back end (Python) models.
    Strings are sequences of characters; nothing here normalises or re-encodes them. */
module Text {
  import opened Wrappers

  /** Python's `str.isspace` (also what `str.strip()` and the regex class `\s` use on text). */
  predicate IsSpace(c: char) {
    var n := c as int;
    n == 0x20 || 0x09 <= n <= 0x0D || 0x1C <= n <= 0x1F || n == 0x85 || n == 0xA0 || n == 0x1680
    || 0x2000 <= n <= 0x200A || n == 0x2028 || n == 0x2029 || n == 0x202F || n == 0x205F || n == 0x3000
  }

  predicate AllSpace(s: string) {
    forall k :: 0 <= k < |s| ==> IsSpace(s[k])
  }

  /** No whitespace at either end: what `strip()` leaves behind. */
  predicate Trimmed(s: string) {
    s == [] || (!IsSpace(s[0]) && !IsSpace(s[|s| - 1]))
  }

  /** Number of leading whitespace characters. */
  function LeadingSpace(s: string): (n: nat)
    ensures n <= |s|
    ensures AllSpace(s[..n])
    ensures n < |s| ==> !IsSpace(s[n])
  {
    if |s| > 0 && IsSpace(s[0]) then
      var n := 1 + LeadingSpace(s[1..]);
      assert s[..n] == [s[0]] + s[1..][..n - 1];
      n
    else 0
  }

  /** Number of trailing whitespace characters. */
  function TrailingSpace(s: string): (n: nat)
    ensures n <= |s|
    ensures AllSpace(s[|s| - n..])
    ensures n < |s| ==> !IsSpace(s[|s| - n - 1])
  {
    if |s| > 0 && IsSpace(s[|s| - 1]) then
      var n := 1 + TrailingSpace(s[..|s| - 1]);
      assert s[|s| - n..] == s[..|s| - 1][|s| - n..] + [s[|s| - 1]];
      n
    else 0
  }

  /** Python `s.strip()` with no argument. */
  function Strip(s: string): (r: string)
    ensures |r| <= |s|
    ensures Trimmed(r)
  {
    var i := LeadingSpace(s);
    var t := s[i..];
    var j := TrailingSpace(t);
    assert j < |t| ==> t[..|t| - j][0] == t[0];
    t[..|t| - j]
  }

  lemma {:induction false} LeadingSpaceAppend(a: string, y: string)
    requires AllSpace(a)
    ensures LeadingSpace(a + y) == |a| + LeadingSpace(y)
  {
    if a != [] {
      assert (a + y)[0] == a[0];
      assert (a + y)[1..] == a[1..] + y;
      LeadingSpaceAppend(a[1..], y);
    } else {
      assert a + y == y;
    }
  }

  lemma {:induction false} TrailingSpaceAppend(y: string, b: string)
    requires AllSpace(b)
    ensures TrailingSpace(y + b) == TrailingSpace(y) + |b|
  {
    if b != [] {
      var s := y + b;
      assert s[|s| - 1] == b[|b| - 1];
      assert s[..|s| - 1] == y + b[..|b| - 1];
      TrailingSpaceAppend(y, b[..|b| - 1]);
    } else {
      assert y + b == y;
    }
  }

  /** Strip removes exactly the whitespace padding around a trimmed core, and nothing else. */
  lemma {:induction false} StripPadded(a: string, x: string, b: string)
    requires AllSpace(a) && AllSpace(b) && Trimmed(x)
    ensures Strip(a + x + b) == x
  {
    var s := a + x + b;
    assert s == a + (x + b);
    LeadingSpaceAppend(a, x + b);
    if x == [] {
      assert x + b == b + [];
      LeadingSpaceAppend(b, []);
      assert LeadingSpace(s) == |s|;
      assert s[|s|..] == [];
    } else {
      assert (x + b)[0] == x[0];
      assert LeadingSpace(x + b) == 0;
      var t := s[LeadingSpace(s)..];
      assert t == x + b;
      TrailingSpaceAppend(x, b);
      assert TrailingSpace(x) == 0;
      assert TrailingSpace(t) == |b|;
      assert t[..|t| - |b|] == x;
    }
  }

  /** A text with no trailing whitespace strips to the part after its leading whitespace. */
  lemma {:induction false} StripLeading(x: string)
    requires x == [] || !IsSpace(x[|x| - 1])
    ensures |Strip(x)| <= |x|
    ensures x[|x| - |Strip(x)|..] == Strip(x)
    ensures AllSpace(x[..|x| - |Strip(x)|])
  {
    var i := LeadingSpace(x);
    var t := x[i..];
    if t != [] {
      assert t[|t| - 1] == x[|x| - 1];
    }
    assert TrailingSpace(t) == 0;
    assert t[..|t|] == t;
  }

  /** A text that is already trimmed strips to itself. */
  lemma {:induction false} StripTrimmed(x: string)
    requires Trimmed(x)
    ensures Strip(x) == x
  {
    StripPadded([], x, []);
    assert [] + x + [] == x;
  }

  lemma {:induction false} StripIdempotent(s: string)
    ensures Strip(Strip(s)) == Strip(s)
  {
    StripPadded([], Strip(s), []);
    assert [] + Strip(s) + [] == Strip(s);
  }

  /** Python `s.strip(c)` for a single character `c`. */
  function StripChar(s: string, c: char): (r: string)
    ensures |r| <= |s|
    ensures r == [] || (r[0] != c && r[|r| - 1] != c)
    decreases |s|
  {
    if |s| > 0 && s[0] == c then StripChar(s[1..], c)
    else if |s| > 0 && s[|s| - 1] == c then StripChar(s[..|s| - 1], c)
    else s
  }

  predicate StartsWith(s: string, p: string) {
    |p| <= |s| && s[..|p|] == p
  }

  predicate EndsWith(s: string, p: string) {
    |p| <= |s| && s[|s| - |p|..] == p
  }

  /** `t` occurs in `s` starting at index `i`. */
  predicate OccursAt(s: string, t: string, i: int) {
    0 <= i && i + |t| <= |s| && s[i..i + |t|] == t
  }

  /** Python `t in s` / JavaScript `s.includes(t)`. */
  predicate Contains(s: string, t: string) {
    exists i :: 0 <= i <= |s| && OccursAt(s, t, i)
  }

  /** Index of the first occurrence of `t` in `s`, if any. */
  function Find(s: string, t: string): (r: Option<nat>)
    ensures r.Some? ==> OccursAt(s, t, r.value) && forall k :: 0 <= k < r.value ==> !OccursAt(s, t, k)
    ensures r.None? <==> !Contains(s, t)
  {
    FindFrom(s, t, 0)
  }

  /** The first occurrence stays the first one in any prefix that still holds it. */
  lemma {:induction false} FindPrefix(s: string, t: string, k: nat, n: nat)
    requires Find(s, t) == Some(k) && k + |t| <= n <= |s|
    ensures Find(s[..n], t) == Some(k)
  {
    assert s[..n][k..k + |t|] == s[k..k + |t|];
    assert OccursAt(s[..n], t, k);
    forall j | 0 <= j < k
      ensures !OccursAt(s[..n], t, j)
    {
      assert s[..n][j..j + |t|] == s[j..j + |t|];
      assert !OccursAt(s, t, j);
    }
  }

  function FindFrom(s: string, t: string, i: nat): (r: Option<nat>)
    requires i <= |s| + 1
    requires forall k :: 0 <= k < i ==> !OccursAt(s, t, k)
    ensures r.Some? ==> OccursAt(s, t, r.value) && forall k :: 0 <= k < r.value ==> !OccursAt(s, t, k)
    ensures r.None? <==> !Contains(s, t)
    decreases |s| + 1 - i
  {
    if i + |t| > |s| then
      assert forall k :: k >= i ==> !OccursAt(s, t, k);
      assert forall k :: 0 <= k <= |s| ==> !OccursAt(s, t, k);
      None
    else if s[i..i + |t|] == t then
      assert OccursAt(s, t, i);
      Some(i)
    else FindFrom(s, t, i + 1)
  }

  /** Python `s.split(sep)` and JavaScript `s.split(sep)` for a non-empty literal separator:
      the pieces between non-overlapping occurrences, found left to right. */
  function Split(s: string, sep: string): (parts: seq<string>)
    requires |sep| > 0
    ensures |parts| >= 1
    ensures !Contains(s, sep) <==> parts == [s]
    decreases |s|
  {
    match Find(s, sep)
    case None => [s]
    case Some(k) =>
      var rest := Split(s[k + |sep|..], sep);
      assert |[s[..k]] + rest| == 1 + |rest|;
      [s[..k]] + rest
  }

  /** Python `sep.join(parts)` / JavaScript `parts.join(sep)`. */
  function Join(parts: seq<string>, sep: string): string {
    if |parts| == 0 then []
    else if |parts| == 1 then parts[0]
    else parts[0] + sep + Join(parts[1..], sep)
  }

  /** Joining the pieces of a split with the same separator gives back the text. */
  lemma {:induction false} JoinSplit(s: string, sep: string)
    requires |sep| > 0
    ensures Join(Split(s, sep), sep) == s
    decreases |s|
  {
    var f := Find(s, sep);
    if f.Some? {
      var k := f.value;
      var rest := s[k + |sep|..];
      JoinSplit(rest, sep);
      var parts := Split(s, sep);
      var tail := Split(rest, sep);
      assert parts == [s[..k]] + tail;
      assert parts[1..] == tail;
      assert Join(parts, sep) == s[..k] + sep + Join(tail, sep);
      assert OccursAt(s, sep, k);
      Reassemble(s, k, k + |sep|);
    }
  }

  lemma {:induction false} Reassemble(s: string, i: nat, j: nat)
    requires i <= j <= |s|
    ensures s == s[..i] + s[i..j] + s[j..]
  {
  }

  /** When `sep` does occur, the split starts with the text before its first occurrence and the
      remaining pieces are the split of the text after it. */
  lemma {:induction false} SplitFirst(s: string, sep: string, k: nat)
    requires |sep| > 0 && Find(s, sep) == Some(k)
    ensures Split(s, sep) == [s[..k]] + Split(s[k + |sep|..], sep)
  {
  }

  /** Python `s.replace(pat, rep)` and JavaScript `s.replaceAll(pat, rep)`: every non-overlapping
      occurrence of `pat`, left to right, becomes `rep`. */
  function Replace(s: string, pat: string, rep: string): (r: string)
    requires |pat| > 0
    ensures !Contains(s, pat) ==> r == s
    decreases |s|
  {
    match Find(s, pat)
    case None => s
    case Some(k) => s[..k] + rep + Replace(s[k + |pat|..], pat, rep)
  }

  /** Replacing a one-character text changes exactly the positions holding that character. */
  lemma {:induction false} ReplaceChar(s: string, a: char, b: char)
    ensures var r := Replace(s, [a], [b]);
            |r| == |s| && forall k :: 0 <= k < |s| ==> r[k] == (if s[k] == a then b else s[k])
    decreases |s|
  {
    match Find(s, [a])
    case None =>
      forall k | 0 <= k < |s|
        ensures s[k] != a
      {
        assert s[k..k + 1] == [s[k]];
        assert !OccursAt(s, [a], k);
      }
    case Some(i) =>
      var rest := s[i + 1..];
      var tail := Replace(rest, [a], [b]);
      ReplaceChar(rest, a, b);
      ReplaceFirst(s, [a], [b], i);
      assert s[i..i + 1] == [a];
      var r := s[..i] + [b] + tail;
      forall k | 0 <= k < |s|
        ensures r[k] == (if s[k] == a then b else s[k])
      {
        if k < i {
          assert s[k..k + 1] == [s[k]];
          assert !OccursAt(s, [a], k);
        } else if k > i {
          assert r[k] == tail[k - i - 1] && rest[k - i - 1] == s[k];
        }
      }
  }

  lemma {:induction false} ReplaceFirst(s: string, pat: string, rep: string, k: nat)
    requires |pat| > 0 && Find(s, pat) == Some(k)
    ensures Replace(s, pat, rep) == s[..k] + rep + Replace(s[k + |pat|..], pat, rep)
  {
  }

  /** Replacement is split-then-join: the text between occurrences is kept verbatim. */
  lemma {:induction false} ReplaceIsSplitJoin(s: string, pat: string, rep: string)
    requires |pat| > 0
    ensures Replace(s, pat, rep) == Join(Split(s, pat), rep)
    decreases |s|
  {
    var f := Find(s, pat);
    if f.Some? {
      var k := f.value;
      var rest := s[k + |pat|..];
      ReplaceIsSplitJoin(rest, pat, rep);
      var parts := Split(s, pat);
      var tail := Split(rest, pat);
      assert parts == [s[..k]] + tail;
      assert parts[1..] == tail;
      assert Join(parts, rep) == s[..k] + rep + Join(tail, rep);
    }
  }

  /** ASCII case folding; characters outside A-Z are left alone. */
  function LowerChar(c: char): (d: char)
    ensures 'A' <= c <= 'Z' ==> 'a' <= d <= 'z'
    ensures !('A' <= c <= 'Z') ==> d == c
  {
    if 'A' <= c <= 'Z' then (c as int + 32) as char else c
  }

  /** `toLowerCase()` / `lower()`, restricted to ASCII letters. */
  function Lower(s: string): (r: string)
    ensures |r| == |s|
    ensures forall k :: 0 <= k < |s| ==> r[k] == LowerChar(s[k])
  {
    seq(|s|, k requires 0 <= k < |s| => LowerChar(s[k]))
  }

  predicate IsDigit(c: char) {
    '0' <= c <= '9'
  }

  /** Decimal digits of a natural number, most significant first. */
  function NatToString(n: nat): (r: string)
    ensures |r| >= 1
    ensures forall k :: 0 <= k < |r| ==> IsDigit(r[k])
    decreases n
  {
    var d := ['0' + (n % 10) as char];
    if n < 10 then d else NatToString(n / 10) + d
  }

  /** Python `str(n)` / JavaScript `String(n)` for an integer. */
  function IntToString(n: int): (r: string)
    ensures |r| >= 1
    ensures n >= 0 ==> IsDigit(r[0])
    ensures n < 0 ==> r[0] == '-'
  {
    if n >= 0 then NatToString(n) else "-" + NatToString(-n)
  }

  /** Reads back the value of a run of decimal digits. */
  function DigitsValue(s: string): nat
    requires forall k :: 0 <= k < |s| ==> IsDigit(s[k])
  {
    if |s| == 0 then 0 else assert IsDigit(s[|s| - 1]); 10 * DigitsValue(s[..|s| - 1]) + (s[|s| - 1] as int - '0' as int) as nat
  }

  /** The decimal rendering of a number reads back as that number. */
  lemma {:induction false} NatToStringValue(n: nat)
    ensures DigitsValue(NatToString(n)) == n
    decreases n
  {
    var r := NatToString(n);
    if n >= 10 {
      NatToStringValue(n / 10);
      assert r[..|r| - 1] == NatToString(n / 10);
    }
  }
}

=== FILE: updater.dfy ===
/** The mail update run: fetched emails already stored are skipped, new ones are analysed with
    images up to three times and then once without, and each analysed email is saved; the
    connection and the store are closed however the run ends. */
module Updater {
  import opened Wrappers
  import Text
  import Store

  // ---------------------------------------------------------------------------------------------
  // The retry ladder

  /** How an analysis call fails: an API error, whose text decides the delay, or anything else. */
  datatype Error = ApiError(message: string) | OtherError(message: string)

  const MaxRetries: nat := 3
  const TimeoutText := "Request timed out."

  /** The pause before the next attempt: 20 seconds after an API time-out, 10 otherwise. */
  function Delay(e: Error): (d: nat)
    ensures d == 20 || d == 10
    ensures d == 20 <==> e.ApiError? && Text.Contains(e.message, TimeoutText)
  {
    if e.ApiError? && Text.Contains(e.message, TimeoutText) then 20 else 10
  }

  /** What the ladder did: the analysis, if any; the calls made with images; whether the call
      without images was made; and the pauses taken, in order. */
  datatype Ladder = Ladder(result: Option<string>, callsWithImages: nat, fallbackUsed: bool, delays: seq<nat>)

  /** The first of the first `n` attempts that succeeds. */
  function FirstSuccess(attempt: nat -> Result<string, Error>, n: nat): (r: Option<nat>)
    ensures r.Some? ==> r.value < n && attempt(r.value).Success?
    ensures forall j :: 0 <= j < (if r.Some? then r.value else n) ==> attempt(j).Failure?
  {
    if n == 0 then None
    else
      match FirstSuccess(attempt, n - 1)
      case Some(i) => Some(i)
      case None => if attempt(n - 1).Success? then Some(n - 1) else None
  }

  /** The analysis loop of `update_emails_from_server` for one email: `attempt(i)` is the outcome
      of the `i`-th call with images, `fallback` that of the call without. */
  method RetryLadder(attempt: nat -> Result<string, Error>, fallback: Result<string, Error>) returns (o: Ladder)
    ensures FirstSuccess(attempt, MaxRetries).Some? ==>
              var i := FirstSuccess(attempt, MaxRetries).value;
              && o.result == Some(attempt(i).value)
              && o.callsWithImages == i + 1 && !o.fallbackUsed
              && |o.delays| == i && forall j :: 0 <= j < i ==> o.delays[j] == Delay(attempt(j).error)
    ensures FirstSuccess(attempt, MaxRetries).None? ==>
              && o.callsWithImages == MaxRetries && o.fallbackUsed
              && |o.delays| == MaxRetries && (forall j :: 0 <= j < MaxRetries ==> o.delays[j] == Delay(attempt(j).error))
              && o.result == (if fallback.Success? then Some(fallback.value) else None)
  {
    var delays: seq<nat> := [];
    var n := 0;
    while n < MaxRetries
      invariant 0 <= n <= MaxRetries
      invariant FirstSuccess(attempt, n).None?
      invariant |delays| == n && forall j :: 0 <= j < n ==> delays[j] == Delay(attempt(j).error)
    {
      var outcome := attempt(n);
      if outcome.Success? {
        assert FirstSuccess(attempt, n + 1) == Some(n);
        FirstSuccessStable(attempt, n + 1, MaxRetries);
        return Ladder(Some(outcome.value), n + 1, false, delays);
      }
      delays := delays + [Delay(outcome.error)];
      n := n + 1;
    }
    var result := if fallback.Success? then Some(fallback.value) else None;
    return Ladder(result, MaxRetries, true, delays);
  }

  /** Once found, the first success stays the first however many more attempts are counted. */
  lemma {:induction false} FirstSuccessStable(attempt: nat -> Result<string, Error>, n: nat, m: nat)
    requires n <= m && FirstSuccess(attempt, n).Some?
    ensures FirstSuccess(attempt, m) == FirstSuccess(attempt, n)
    decreases m - n
  {
    if n < m {
      FirstSuccessStable(attempt, n, m - 1);
    }
  }

  /** The ladder as a value, for use in the run. */
  function LadderOf(attempt: nat -> Result<string, Error>, fallback: Result<string, Error>): (r: Option<string>)
    ensures FirstSuccess(attempt, MaxRetries).Some? ==> r == Some(attempt(FirstSuccess(attempt, MaxRetries).value).value)
    ensures FirstSuccess(attempt, MaxRetries).None? ==> r == (if fallback.Success? then Some(fallback.value) else None)
  {
    match FirstSuccess(attempt, MaxRetries)
    case Some(i) => Some(attempt(i).value)
    case None => if fallback.Success? then Some(fallback.value) else None
  }

  // ---------------------------------------------------------------------------------------------
  // The run

  /** A fetched email: its headers, whether building its model messages succeeds (it raises on a
      data URI without a comma), and the outcomes of its analysis calls. */
  datatype Fetched = Fetched(
    subject: Option<string>, from: Option<string>, date: Option<string>,
    messagesOk: bool,
    attempt: nat -> Result<string, Error>, fallback: Result<string, Error>)

  /** The columns the duplicate check compares: subject, sender address and date. */
  datatype Key = Key(subject: Option<string>, fromEmail: string, date: Option<string>)

  function KeyOf(e: Fetched): Key {
    Key(e.subject, Store.ParseFromAddress(e.from).1, e.date)
  }

  /** `email_exists`: a stored row with equal columns; a missing subject or date is SQL NULL,
      which equals nothing. */
  predicate Exists(db: set<Key>, k: Key) {
    k.subject.Some? && k.date.Some? && k in db
  }

  /** What the run does, in order. */
  datatype Action = Skipped(key: Key) | Saved(key: Key, markdown: string) | Dropped(key: Key) | Aborted | Logout | Close

  /** One email of the loop, from a store holding `db`: a stored email is skipped; an email
      whose messages cannot be built aborts the run; otherwise the ladder runs and its analysis,
      if any, is saved, which later emails then find. Returns the action and the store after it. */
  function Step(db: set<Key>, e: Fetched): (r: (Action, set<Key>))
    ensures r.0 != Logout && r.0 != Close
    ensures r.0.Saved? <==> !Exists(db, KeyOf(e)) && e.messagesOk && LadderOf(e.attempt, e.fallback).Some?
    ensures r.0.Saved? ==> r.0.key == KeyOf(e) && r.1 == db + {KeyOf(e)}
    ensures !r.0.Saved? ==> r.1 == db
  {
    var k := KeyOf(e);
    if Exists(db, k) then (Skipped(k), db)
    else if !e.messagesOk then (Aborted, db)
    else
      match LadderOf(e.attempt, e.fallback)
      case None => (Dropped(k), db)
      case Some(md) => (Saved(k, md), db + {k})
  }

  /** The loop over the fetched emails, stopping after an abort. */
  function Loop(db: set<Key>, es: seq<Fetched>): (r: seq<Action>)
    ensures |r| <= |es|
    ensures forall i :: 0 <= i < |r| - 1 ==> !r[i].Aborted?
    ensures |r| < |es| ==> r != [] && r[|r| - 1].Aborted?
    decreases |es|
  {
    if |es| == 0 then []
    else
      var (a, db2) := Step(db, es[0]);
      [a] + (if a.Aborted? then [] else Loop(db2, es[1..]))
  }

  /** `update_emails_from_server`: nothing is analysed when the connection fails or nothing was
      fetched; a failure to set up the analyzer ends the run; logout and close always come last. */
  function UpdateFromServer(connected: bool, fetched: seq<Fetched>, analyzerOk: bool, db: set<Key>): (r: seq<Action>)
    ensures |r| >= 2 && r[|r| - 2..] == [Logout, Close]
    ensures !connected || fetched == [] ==> r == [Logout, Close]
    ensures forall i :: 0 <= i < |r| - 2 ==> r[i] != Logout && r[i] != Close
  {
    var body := if !connected || fetched == [] then []
                else if !analyzerOk then [Aborted]
                else Loop(db, fetched);
    LoopNoClose(db, fetched);
    body + [Logout, Close]
  }

  lemma {:induction false} LoopNoClose(db: set<Key>, es: seq<Fetched>)
    ensures forall i :: 0 <= i < |Loop(db, es)| ==> Loop(db, es)[i] != Logout && Loop(db, es)[i] != Close
    decreases |es|
  {
    if |es| > 0 {
      var (a, db2) := Step(db, es[0]);
      if !a.Aborted? {
        LoopNoClose(db2, es[1..]);
        var r := Loop(db, es);
        assert r == [a] + Loop(db2, es[1..]);
        forall i | 0 <= i < |r| ensures r[i] != Logout && r[i] != Close {
          if i > 0 {
            assert r[i] == Loop(db2, es[1..])[i - 1];
          }
        }
      }
    }
  }

  /** Every saved email was new to the store the run started from, and no stored email is saved
      twice in one run. */
  lemma {:induction false} SavesAreNew(db: set<Key>, es: seq<Fetched>)
    ensures forall i :: 0 <= i < |Loop(db, es)| && Loop(db, es)[i].Saved? ==> !Exists(db, Loop(db, es)[i].key)
    ensures forall i, j :: 0 <= i < j < |Loop(db, es)| && Loop(db, es)[i].Saved? && Loop(db, es)[j].Saved?
              && Loop(db, es)[i].key.subject.Some? && Loop(db, es)[i].key.date.Some?
              ==> Loop(db, es)[i].key != Loop(db, es)[j].key
    decreases |es|
  {
    if |es| > 0 {
      var (a, db2) := Step(db, es[0]);
      if !a.Aborted? {
        SavesAreNew(db2, es[1..]);
        var r := Loop(db, es);
        var tail := Loop(db2, es[1..]);
        assert r == [a] + tail;
        assert forall i :: 0 < i < |r| ==> r[i] == tail[i - 1];
        assert forall k :: Exists(db, k) ==> Exists(db2, k);
      }
    }
  }

  /** An email already in the store is skipped before any analysis. */
  lemma {:induction false} StoredEmailSkipped(db: set<Key>, e: Fetched, rest: seq<Fetched>)
    requires Exists(db, KeyOf(e))
    ensures Loop(db, [e] + rest) == [Skipped(KeyOf(e))] + Loop(db, rest)
  {
    assert ([e] + rest)[1..] == rest;
  }

  /** The same email fetched twice is saved once: the second copy finds the first. */
  lemma {:induction false} DuplicateSavedOnce(db: set<Key>, e: Fetched, md: string)
    requires !Exists(db, KeyOf(e)) && e.subject.Some? && e.date.Some?
    requires e.messagesOk && LadderOf(e.attempt, e.fallback) == Some(md)
    ensures Loop(db, [e, e]) == [Saved(KeyOf(e), md), Skipped(KeyOf(e))]
  {
    assert [e, e][1..] == [e];
    assert [e][1..] == [];
  }

  /** An email whose messages cannot be built ends the loop: nothing after it is looked at. */
  lemma {:induction false} AbortStops(db: set<Key>, e: Fetched, rest: seq<Fetched>)
    requires !Exists(db, KeyOf(e)) && !e.messagesOk
    ensures Loop(db, [e] + rest) == [Aborted]
  {
  }
}

=== FILE: wrappers.dfy ===
/** Failure-carrying datatypes shared by every module of the model. */
module Wrappers {

  /** A value that may be missing: JavaScript's `undefined`, Python's `None`. */
  datatype Option<+T> = None | Some(value: T) {

    /** The value, or `default` when missing. */
    function GetOr(default: T): T {
      match this
      case Some(v) => v
      case None => default
    }
  }

  /** The outcome of an operation that the source may abandon by raising. */
  datatype Result<+R, +E> = Success(value: R) | Failure(error: E)
}
